=== FILE: README.md ===
# OceanBase full-text parser plugins: the shared JVM and the token pipeline

The OceanBase full-text parser plugins (Korean, Thai, Japanese) do their
word segmentation in Java. Every plugin lives in the same database process,
and a process can host only one JVM. The native side therefore has to share
that JVM, attach worker threads to it, move strings across the Java Native
Interface (JNI) and hand the resulting tokens to the host one at a time.
This project models that native core in Dafny. The two generations of the
plugin code are kept apart, as they are in the repository.

**The newer generation** is the common library `liboceanbase_jni_common`,
used by the Thai and Japanese plugins.

- `JniManager.GlobalJVMManager` is the process-wide JVM registry. It holds:
  - the JVM handle, and whether this code created it;
  - the set of registered plugin names and their count;
  - the first caller's settings;
  - the function-local static option strings, which are built from the first
    creation attempt's settings and never rebuilt.
- `JniManager.GlobalThreadManager` is the thread table. Per thread it keeps a
  reference count, the set of plugins using the thread, and the set of
  threads this library attached. Its pure counterparts are `AfterAcquire`
  and `AfterRelease`.
- `JniManager.ScopedJNIEnvironment` is the guard. Construction acquires an
  environment and `Destroy` (the destructor) releases it.
- `StringArray` converts a Java `String[]`. It reads 32 elements per
  local-reference frame, stops at the first fault and skips null elements.
- `ThaiJniBridge` and `JapaneseJniBridge` hold each plugin's bridge, its
  manager singleton and its `scan_begin`. `PluginScan` holds `scan_end` and
  `next_token`, which the two plugins write identically.

**The older generation** is the Korean plugin's own JNI layer, together with
the two parser cores built on it.

- `KoreanJniBridge` holds three parts:
  - `JVMStateManager`, a registry that counts instances, not names;
  - `ThreadStateManager`, a set of attached threads with no reference counts,
    so one user's cleanup detaches a thread another user still needs
    (`OneCleanupDetachesSharedThread`);
  - `JNIBridge` and its manager.
- `KoreanParserCore.ObKoreanFTParser` and `ThaiParserCore.ObThaiFTParser`
  are the per-document parsers. Each one:
  - checks the host parameter;
  - has the bridge segment the text;
  - keeps the tokens that contain a non-whitespace byte, as records with a
    byte length, a UTF-8 character count and frequency 1;
  - hands those records out one per call.

**Shared modules.**

- `JvmLifecycle` holds the pure steps both registries share:
  - the first-writer-wins settings check (`ValidateConfig`);
  - reuse, adoption or creation of the JVM (`Obtain`);
  - a forced shutdown that only destroys a JVM this code created
    (`ForceShutdown`);
  - the creation options (`VmOptions`).
- `Utf8Text` counts characters by UTF-8 lead byte (`CharCount`) and says
  when a token has content (`HasContent`).
- `TokenCursor` is the cursor step that every `next_token` shares (`Next`),
  and `Drain` is a run of such calls.
- `ThaiJniBridgeH` holds the Thai header's bridge settings and error record,
  which the Korean bridge also uses.

**Inputs instead of the JNI and the environment.** Whatever the JNI answers
is an explicit input of the model:

- `VmProbe` for `JNI_GetCreatedJavaVMs` and `JNI_CreateJavaVM`;
- `EnvProbe` for `GetEnv` and `AttachCurrentThread`;
- `ClassProbe` for class and method lookup;
- `SegmentProbe` and `ArrayFaults` for a segmentation call and the reading
  of its result.

The calling thread's identity is a `ThreadId` parameter, and an environment
variable is an `Option<string>`. `Common.LocalRefFrames` is the
local-reference frame stack of one environment. Through it the model states
that no frame outlives a call, and records each pushed frame's capacity.

## Model

| member | source | states |
|---|---|---|
| JvmLifecycle.RecordIsFinal | common/liboceanbase_jni_common/jni_manager.cpp:158-195 | once settings are recorded they never change, and each later check succeeds exactly when its settings equal the recorded ones |
| JvmLifecycle.FirstWriterWins | common/liboceanbase_jni_common/jni_manager.cpp:158-195 | from an empty record, the first caller's settings are recorded and accepted, and every later caller is accepted iff it asks for the same settings |
| JvmLifecycle.ObtainHandsOutHeldJvm | common/liboceanbase_jni_common/jni_manager.cpp:50-109 | the caller always receives the handle the registry now holds, and the registry claims ownership only of a JVM it holds |
| JvmLifecycle.ObtainCases | common/liboceanbase_jni_common/jni_manager.cpp:59-108 | a held JVM is returned unchanged; otherwise a running JVM is adopted without ownership; otherwise creation is tried and owned on success; the result is null iff creation was tried and failed |
| JvmLifecycle.ObtainIsStable | common/liboceanbase_jni_common/jni_manager.cpp:59-62 | once a JVM is held, every later call returns that same JVM and changes nothing, whatever the runtime would answer |
| JvmLifecycle.ForceShutdownSparesAdopted | common/liboceanbase_jni_common/jni_manager.cpp:143-151 | an adopted JVM survives a forced shutdown; an owned one is destroyed and forgotten; a second shutdown does nothing |
| JvmLifecycle.DecimalRoundTrip | common/liboceanbase_jni_common/jni_manager.cpp:83-84 | the decimal text of a heap size is non-empty, made of digits only, and reads back as that size |
| JvmLifecycle.VmOptions | common/liboceanbase_jni_common/jni_manager.cpp:79-90 | a creation request carries five option strings |
| JvmLifecycle.VmOptionsCarryConfig | common/liboceanbase_jni_common/jni_manager.cpp:82-90 | the class-path option ends in the class path, and the `-Xmx` / `-Xms` options read back as the maximum and initial heap sizes in MB |
| JniManager.ReplayKeepsCount | common/liboceanbase_jni_common/jni_manager.cpp:111-137 | after any sequence of register and unregister calls, the plugin count equals the number of distinct names still registered |
| JniManager.RegistrationInverse | common/liboceanbase_jni_common/jni_manager.cpp:111-137 | registering a registered name and unregistering an unknown one change nothing; unregister undoes the registration of a new name |
| JniManager.AcquireEffect | common/liboceanbase_jni_common/jni_manager.cpp:197-235 | acquire keeps the table well formed; it fails iff GetEnv is neither OK nor detached-then-attached; on failure nothing changes; on success the count rises by one (or is 1 after an attach, which is recorded), the plugin is recorded, and other threads are untouched |
| JniManager.ReleaseEffect | common/liboceanbase_jni_common/jni_manager.cpp:237-267 | release keeps the table well formed and ignores unknown threads; otherwise the count drops by one; a thread still counted loses only this plugin from its set; it detaches iff this was the last reference and this library attached the thread; an emptied entry is erased; other threads' counts, plugin sets and attachment are untouched |
| JniManager.AcquireReleaseBalanced | common/liboceanbase_jni_common/jni_manager.cpp:197-267 | a successful acquire followed by its release restores every count and the attached set, detaches exactly when the acquire attached, and restores the plugin sets when the plugin was new on that thread |
| JniManager.GuardedVisitBalanced | common/liboceanbase_jni_common/jni_manager.cpp:280-320 | a guard's whole lifetime leaves the counts and the attached set as it found them, and a guard that acquired nothing leaves the table unchanged |
| JniManager.NestedGuardsDetachOnce | common/liboceanbase_jni_common/jni_manager.cpp:197-267 | two nested guards on one fresh thread attach once; the inner release keeps the thread attached with count 1; the outer release detaches it and restores the table |
| JniManager.GlobalJVMManager.constructor | common/liboceanbase_jni_common/jni_manager.cpp:34-42 | the registry starts with no JVM, no ownership, no plugins, count 0, no recorded settings and no static options |
| JniManager.GlobalJVMManager.GetOrCreateJvm | common/liboceanbase_jni_common/jni_manager.cpp:50-109 | the settings check updates the record; the handle step is `Obtain`; registrations are untouched; the static options are built at the first creation attempt and every creation attempt receives those same options |
| JniManager.GlobalJVMManager.RegisterPlugin | common/liboceanbase_jni_common/jni_manager.cpp:111-120 | the registration becomes `AfterRegister` (a new name is added and counted once) and the count stays equal to the set's size |
| JniManager.GlobalJVMManager.UnregisterPlugin | common/liboceanbase_jni_common/jni_manager.cpp:122-137 | the registration becomes `AfterUnregister` (an unknown name is a no-op); reaching zero leaves the JVM alone |
| JniManager.GlobalJVMManager.GetPluginCount | common/liboceanbase_jni_common/jni_manager.cpp:139-141 | the count is the number of distinct registered names, never negative |
| JniManager.GlobalJVMManager.ForceShutdownJvm | common/liboceanbase_jni_common/jni_manager.cpp:143-151 | the JVM slot becomes `ForceShutdown` of the old slot, so only an owned JVM is destroyed |
| JniManager.GlobalJVMManager.GetJvm | common/liboceanbase_jni_common/jni_manager.cpp:153-156 | the held handle, with no adoption or creation; a JVM this code created is always reported |
| JniManager.GlobalThreadManager.constructor | common/liboceanbase_jni_common/jni_manager.cpp:45-48 | the thread table starts empty |
| JniManager.GlobalThreadManager.AcquireJniEnvForPlugin | common/liboceanbase_jni_common/jni_manager.cpp:197-235 | with no JVM it returns null and changes nothing; otherwise the table and the environment are `AfterAcquire` |
| JniManager.GlobalThreadManager.ReleaseJniEnvForPlugin | common/liboceanbase_jni_common/jni_manager.cpp:237-267 | with no JVM nothing happens; otherwise the table and the detach are `AfterRelease` |
| JniManager.GlobalThreadManager.GetThreadRefCount | common/liboceanbase_jni_common/jni_manager.cpp:269-273 | 0 for an unknown thread; otherwise at least 1, so a thread is counted iff its count is positive |
| JniManager.GlobalThreadManager.GetAttachedThreadCount | common/liboceanbase_jni_common/jni_manager.cpp:275-278 | between 0 and the number of counted threads, since only counted threads are attached |
| JniManager.ScopedJNIEnvironment.constructor | common/liboceanbase_jni_common/jni_manager.cpp:280-308 | with a class path the JVM comes from get_or_create_jvm, otherwise only a held JVM is used; with no JVM nothing is acquired; otherwise the table and the environment are `AfterAcquire`; the guard is valid iff it holds an environment |
| JniManager.ScopedJNIEnvironment.Destroy | common/liboceanbase_jni_common/jni_manager.cpp:310-320 | the destructor releases exactly once, iff an environment was acquired and a JVM still exists, and the table becomes `AfterRelease` |
| JniManager.ScopedJNIEnvironment.Get | common/liboceanbase_jni_common/jni_manager.h:170 | for a guard keeping the invariant its constructor establishes, `get()` is null exactly when the guard is invalid |
| JniManager.ScopedJNIEnvironment.AsBool | common/liboceanbase_jni_common/jni_manager.h:175-180 | `operator bool` gives the same answer as `is_valid()` |
| JniManager.JstringArrayToCppVector | common/liboceanbase_jni_common/jni_manager.cpp:355-400 | a null environment or array, or a failing length, gives -1 with the vector untouched; otherwise the vector holds the non-null elements before the first fault, in order (a string whose GetStringUTFChars fails is kept as the empty string); the result is 0 iff there is no fault; on success one 32-slot frame is pushed per batch; no frame is left behind |
| StringArray.Batches | common/liboceanbase_jni_common/jni_manager.cpp:372-374 | the number of 32-element batches is the ceiling of n/32 |
| StringArray.NonNullLength | common/liboceanbase_jni_common/jni_manager.cpp:390-393 | dropping the null elements never makes the vector longer |
| StringArray.NonNullFromArray | common/liboceanbase_jni_common/jni_manager.cpp:390-393 | every string in the vector is an element of the Java array |
| StringArray.NonNullOfPresent | common/liboceanbase_jni_common/jni_manager.cpp:370-397 | round trip: an array of N non-null strings converts back to the same N strings in the same order |
| StringArray.NonNullOfPresentDecoded | common/liboceanbase_jni_common/jni_manager.cpp:337-353 | an array of N non-null strings, read through jstring_to_cpp_string, gives N strings in order: each its own bytes, or the empty string where GetStringUTFChars fails |
| StringArray.FirstFault | common/liboceanbase_jni_common/jni_manager.cpp:374-394 | the first position whose batch cannot be opened or whose element cannot be read, or n if there is none |
| StringArray.StopsAt | common/liboceanbase_jni_common/jni_manager.cpp:374-394 | a position with no fault before it and a fault at it (or the end) is the first fault |
| StringArray.ConvertBatches | common/liboceanbase_jni_common/jni_manager.cpp:370-397 | the batch loop yields the non-null elements before the first fault (a string whose GetStringUTFChars fails is kept as the empty string) and succeeds iff there is none; on success one 32-slot frame is pushed per batch; no frame is left behind |
| StringArray.ConvertBatch | common/liboceanbase_jni_common/jni_manager.cpp:375-396 | one batch either extends the vector up to the batch's end or stops at the first fault, and pops its frame |
| StringArray.ReadBatch | common/liboceanbase_jni_common/jni_manager.cpp:382-394 | the element loop reads up to the first element that cannot be fetched, keeping the non-null ones (a string whose GetStringUTFChars fails is kept as the empty string), inside one frame |
| Utf8Text.LeadWidth | korean_ftparser/korean_parser_core.cpp:267-279 | the width a lead byte announces is at most 4 |
| Utf8Text.LeadWidthRanges | korean_ftparser/korean_parser_core.cpp:267-279 | width 1 for ASCII, 2 for 0xC0-0xDF, 3 for 0xE0-0xEF, 4 for 0xF0-0xF7, and 0 (skip one byte) for continuation or invalid bytes |
| Utf8Text.CharsFromBound | korean_ftparser/korean_parser_core.cpp:264-281 | counting from any position finds at most as many characters as bytes remain |
| Utf8Text.CharCountAtMostLength | korean_ftparser/korean_parser_core.cpp:258-284 | the character count never exceeds the byte length |
| Utf8Text.AsciiCharsFrom | korean_ftparser/korean_parser_core.cpp:267-268 | on ASCII text, counting from a position finds exactly the remaining bytes |
| Utf8Text.CharCountOfAscii | korean_ftparser/korean_parser_core.cpp:258-284 | ASCII text has one character per byte |
| Utf8Text.CharCountOfLeadThenRest | korean_ftparser/korean_parser_core.cpp:264-281 | a well-formed character followed by the rest counts as one more than the rest |
| Utf8Text.CharsFromShift | korean_ftparser/korean_parser_core.cpp:264-281 | counting past a prefix equals counting the suffix on its own |
| Utf8Text.CountCharsByLeadByte | thai_ftparser/thai_jni_bridge.cpp:362-385 | the loop's count equals `CharCount` |
| TokenCursor.DrainInOrder | thai_ftparser/thai_jni_bridge.cpp:340-389 | k calls from index i return the tokens from i up to min(i+k, n), in order, and leave the cursor there |
| TokenCursor.FreshCursorYieldsAll | thai_ftparser/thai_jni_bridge.cpp:340-389 | from a fresh cursor, at least n calls return exactly the n tokens in order |
| TokenCursor.ExhaustedStaysExhausted | thai_ftparser/thai_jni_bridge.cpp:350-352 | once at the end, every further call returns nothing and keeps the index |
| PluginScan.ScanEnd | thai_ftparser/thai_jni_bridge.cpp:326-338 | a null parameter is an invalid argument; otherwise the per-scan state is gone |
| PluginScan.NextToken | thai_ftparser/thai_jni_bridge.cpp:340-389 | null parameter or outputs give an invalid argument; no state gives a plugin error; otherwise the call is the cursor step `Next`, handing out the token, its byte length, its `CharCount` and frequency 1 |
| ThaiJniBridgeH.DefaultJNIBridgeConfig | thai_ftparser/thai_jni_bridge.h:43-71 | segmenter `RealThaiSegmenter`, method `segment`, heap 512/128 MB; a non-empty `THAI_PARSER_CLASSPATH` wins, otherwise the fixed fallback path |
| ThaiJniBridgeH.DefaultClassPathNeverEmpty | thai_ftparser/thai_jni_bridge.h:56-70 | the class path is never empty, and any non-empty environment value is taken as is |
| ThaiJniBridgeH.JNIErrorInfo.constructor | thai_ftparser/thai_jni_bridge.h:82 | a new error record holds no error |
| ThaiJniBridgeH.JNIErrorInfo.Clear | thai_ftparser/thai_jni_bridge.h:84-88 | clear empties all three fields, leaving no error |
| ThaiJniBridgeH.JNIErrorInfo.HasError | thai_ftparser/thai_jni_bridge.h:90-92 | no contract of its own: what it reports is stated by the constructor, `Clear` (no error) and `Set` (an error iff the code is not success) |
| ThaiJniBridgeH.JNIErrorInfo.Set | korean_ftparser/korean_jni_bridge.cpp:398-403 | set_error stores code and message, so an error is reported iff the code is not success |
| KoreanJniBridge.JVMStateManager.constructor | korean_ftparser/korean_jni_bridge.cpp:462-471 | the older registry starts with no JVM, no ownership, count 0 and no recorded settings |
| KoreanJniBridge.JVMStateManager.ValidateConfigConsistency | korean_ftparser/korean_jni_bridge.cpp:570-617 | the record and the answer are `ValidateConfig`: first writer wins |
| KoreanJniBridge.JVMStateManager.GetOrCreateJvm | korean_ftparser/korean_jni_bridge.cpp:473-533 | the settings check updates the record, the handle step is `Obtain`, and each creation attempt receives the caller's own options |
| KoreanJniBridge.JVMStateManager.RegisterInstance | korean_ftparser/korean_jni_bridge.cpp:535-539 | the count rises by one, whoever asks |
| KoreanJniBridge.JVMStateManager.UnregisterInstance | korean_ftparser/korean_jni_bridge.cpp:541-552 | the count drops by one, with no lower bound, and the JVM is kept |
| KoreanJniBridge.JVMStateManager.ForceShutdownJvm | korean_ftparser/korean_jni_bridge.cpp:559-568 | the JVM slot becomes `ForceShutdown` of the old slot |
| KoreanJniBridge.GetEnvRecordsOwnAttachOnly | korean_ftparser/korean_jni_bridge.cpp:626-665 | only the attach this call performs is recorded; an already attached thread is not recorded, and a failed attach returns null |
| KoreanJniBridge.CleanupIsIdempotent | korean_ftparser/korean_jni_bridge.cpp:667-690 | cleanup detaches exactly the threads this manager attached, forgets them, and a second cleanup does nothing |
| KoreanJniBridge.OneCleanupDetachesSharedThread | korean_ftparser/korean_jni_bridge.cpp:626-690 | two users get an environment on one thread, and the first cleanup already detaches it: the older table keeps no reference count |
| KoreanJniBridge.ThreadStateManager.constructor | korean_ftparser/korean_jni_bridge.cpp:624-625 | the older thread table starts empty |
| KoreanJniBridge.ThreadStateManager.GetJniEnvForCurrentThread | korean_ftparser/korean_jni_bridge.cpp:626-665 | the attached set and the environment are `AfterGetEnv` |
| KoreanJniBridge.ThreadStateManager.CleanupCurrentThread | korean_ftparser/korean_jni_bridge.cpp:667-690 | the attached set and the detach are `AfterCleanup` |
| KoreanJniBridge.ThreadStateManager.GetAttachedThreadCount | korean_ftparser/korean_jni_bridge.cpp:692-696 | the count is never negative, and zero iff no thread is attached |
| KoreanJniBridge.SegmentOutcomeCases | korean_ftparser/korean_jni_bridge.cpp:88-164 | segment succeeds iff the text is empty or every step and the whole conversion succeed, and then yields every non-null Java string in order (a string whose GetStringUTFChars fails is kept as the empty string); any failure is PLUGIN_ERROR with at most the strings read before it |
| KoreanJniBridge.SegmentReturnsJavaTokens | korean_ftparser/korean_jni_bridge.cpp:113-157 | when Java returns N non-null strings and no frame or fetch fails, segment succeeds with N strings in order, each the Java string or the empty string where GetStringUTFChars fails; with no such failure, exactly those N strings |
| KoreanJniBridge.JNIBridge.constructor | korean_ftparser/korean_jni_bridge.cpp:30-40 | a new bridge keeps its settings, holds no JVM, class or thread environment, is not initialised and has no error |
| KoreanJniBridge.JNIBridge.Initialize | korean_ftparser/korean_jni_bridge.cpp:48-86 | an initialised bridge returns success and changes nothing; otherwise the settings record follows `ValidateConfig`, the JVM slot `Obtain` and the thread's environment `AfterGetEnv`; success iff an environment was obtained and every class lookup resolves; the code is recorded; the instance stays registered iff an environment was obtained, so a failed class load keeps it |
| KoreanJniBridge.JNIBridge.CreateOrAttachJvm | korean_ftparser/korean_jni_bridge.cpp:204-234 | the settings record follows `ValidateConfig`, the JVM slot `Obtain` and the thread's environment `AfterGetEnv`; success iff an environment was obtained; the instance is registered iff that happens; a failure records PLUGIN_ERROR |
| KoreanJniBridge.JNIBridge.LoadJavaClasses | korean_ftparser/korean_jni_bridge.cpp:236-276 | success iff class, global reference, constructor and method all resolve; the global class reference is held iff class and reference succeeded; a failure records PLUGIN_ERROR |
| KoreanJniBridge.JNIBridge.EnsureJniAttached | korean_ftparser/korean_jni_bridge.cpp:186-202 | with no JVM it is a plugin error; otherwise the thread's environment is `AfterGetEnv` and success iff one was obtained |
| KoreanJniBridge.JNIBridge.Segment | korean_ftparser/korean_jni_bridge.cpp:88-164 | an uninitialised bridge is a plugin error; a thread without an environment first runs ensure_jni_attached and fails with the vector untouched if that fails; otherwise the result is `SegmentOutcome`; empty text pushes no frame; success pushes the 64-slot frame and then one 32-slot frame per batch; no frame is left behind |
| KoreanJniBridge.JNIBridge.SegmentInFrame | korean_ftparser/korean_jni_bridge.cpp:113-157 | the work inside the 64-slot frame yields `FrameOutcome`, and the frame is popped on every path |
| KoreanJniBridge.JNIBridge.JstringArrayToCppVector | korean_ftparser/korean_jni_bridge.cpp:316-364 | no environment, a null array or a failing length is a plugin error with the vector untouched; otherwise the vector holds the non-null elements before the first fault (a string whose GetStringUTFChars fails is kept as the empty string), and the result is success iff there is none |
| KoreanJniBridge.JNIBridge.Cleanup | korean_ftparser/korean_jni_bridge.cpp:166-184 | an uninitialised bridge is left alone; otherwise the class reference is released, the thread is cleaned up, the instance unregistered, the JVM forgotten and the bridge no longer initialised |
| KoreanJniBridge.JNIBridgeManager.constructor | korean_ftparser/korean_jni_bridge.cpp:437-441 | the singleton starts with no bridge |
| KoreanJniBridge.JNIBridgeManager.GetBridge | korean_ftparser/korean_jni_bridge.cpp:443-450 | the first call creates the bridge with the given settings, and later calls return that same bridge |
| KoreanJniBridge.JNIBridgeManager.ReleaseBridge | korean_ftparser/korean_jni_bridge.cpp:452-456 | the manager drops its bridge, which, as the last owner, runs the bridge's cleanup |
| ThaiJniBridge.DefaultThaiJNIBridgeConfig | thai_ftparser/thai_jni_bridge.cpp:19-35 | segmenter `RealThaiSegmenter`, method `segment`, heap 512/128 MB; a non-empty `THAI_PARSER_CLASSPATH` wins, otherwise `./java/lib/*:./java` |
| ThaiJniBridge.DefaultThaiClassPathNeverEmpty | thai_ftparser/thai_jni_bridge.cpp:27-34 | the Thai class path is never empty |
| ThaiJniBridge.DoSegmentOutcomeCases | thai_ftparser/thai_jni_bridge.cpp:144-206 | do_segment returns success, PLUGIN_ERROR or a raw -1; PLUGIN_ERROR iff a step before the conversion fails (then no tokens); success iff the whole conversion succeeds, yielding every non-null Java string in order (a string whose GetStringUTFChars fails is kept as the empty string) |
| ThaiJniBridge.DoSegmentReturnsJavaTokens | thai_ftparser/thai_jni_bridge.cpp:144-206 | when Java returns N non-null strings and no frame or fetch fails, do_segment succeeds with N strings in order, each the Java string or the empty string where GetStringUTFChars fails; with no such failure, exactly those N strings |
| ThaiJniBridge.ThaiJNIBridge.constructor | thai_ftparser/thai_jni_bridge.cpp:38-45 | the bridge is named `thai_ftparser`, takes the default settings and starts uninitialised with no error |
| ThaiJniBridge.ThaiJNIBridge.SetError | thai_ftparser/thai_jni_bridge.cpp:208-212 | the error code and message are stored |
| ThaiJniBridge.ThaiJNIBridge.ClearError | thai_ftparser/thai_jni_bridge.cpp:214-217 | the error code and message are reset |
| ThaiJniBridge.ThaiJNIBridge.Initialize | thai_ftparser/thai_jni_bridge.cpp:55-87 | an initialised bridge returns success and changes nothing; otherwise the settings record follows `ValidateConfig`, the JVM slot `Obtain`, and the thread table one whole guard lifetime (`GuardedVisit`); success iff the guard held an environment and every lookup resolves; the plugin stays registered only on success |
| ThaiJniBridge.ThaiJNIBridge.InitializeWithGuard | thai_ftparser/thai_jni_bridge.cpp:68-86 | success iff the guard holds an environment and every lookup resolves; on failure the plugin is unregistered and the code recorded |
| ThaiJniBridge.ThaiJNIBridge.LoadJavaClasses | thai_ftparser/thai_jni_bridge.cpp:106-142 | success iff class, global reference, constructor and method all resolve; the class reference is held iff class and reference succeeded; a failure records PLUGIN_ERROR |
| ThaiJniBridge.ThaiJNIBridge.Segment | thai_ftparser/thai_jni_bridge.cpp:89-104 | an uninitialised bridge is a plugin error; otherwise a guard with no class path is taken, the thread table follows that guard's lifetime (`GuardedVisit`), and with an environment the result is `DoSegmentOutcome`; registry and JVM slot are untouched; no frame is left behind |
| ThaiJniBridge.ThaiJNIBridge.DoSegment | thai_ftparser/thai_jni_bridge.cpp:144-206 | the result is `DoSegmentOutcome`, a failure records PLUGIN_ERROR, and the 64-slot frame is popped on every path |
| ThaiJniBridge.ThaiJNIBridge.Destroy | thai_ftparser/thai_jni_bridge.cpp:47-53 | an initialised bridge unregisters its plugin; the bridge ends uninitialised |
| ThaiJniBridge.ThaiJNIBridgeManager.constructor | thai_ftparser/thai_jni_bridge.cpp:219-222 | the singleton starts with no bridge |
| ThaiJniBridge.ThaiJNIBridgeManager.GetBridge | thai_ftparser/thai_jni_bridge.cpp:225-231 | the first call creates the bridge, and later calls return that same bridge |
| ThaiJniBridge.ThaiJNIBridgeManager.Initialize | thai_ftparser/thai_jni_bridge.cpp:233-236 | the bridge exists afterwards and success iff it is initialised; the JVM slot, thread table and code are `InitEffect`: an initialised bridge changes nothing and succeeds, otherwise the JVM comes from `Obtain`, the environment from `GuardedVisit`, and success iff an environment was obtained and the whole segmenter resolves; the plugin stays registered iff it succeeds |
| ThaiJniBridge.ScanBegin | thai_ftparser/thai_jni_bridge.cpp:272-324 | a null parameter is an invalid argument; otherwise the code is the initialisation's failure code, else ALLOCATE_MEMORY_FAILED when allocation fails, else INVALID_ARGUMENT without a document, else the segmentation's code (`SegmentCode` over the JVM and thread table initialisation left); failure leaves the user data alone; success stores the do_segment tokens with the cursor at 0 |
| ThaiJniBridge.SegmentIntoState | thai_ftparser/thai_jni_bridge.cpp:300-323 | the thread table follows `GuardedVisit`; the code is PLUGIN_ERROR without an environment and the `DoSegmentOutcome` code with one; the JVM slot and registry are unchanged; on success the tokens of `DoSegmentOutcome` are stored with the cursor at 0; failure leaves the user data alone |
| JapaneseJniBridge.DefaultJapaneseJNIBridgeConfig | japanese_ftparser/japanese_jni_bridge.cpp:17-21 | segmenter `JapaneseSegmenter`, method `segment` |
| JapaneseJniBridge.DoSegmentOutcomeCases | japanese_ftparser/japanese_jni_bridge.cpp:138-190 | do_segment succeeds iff there is an environment, the text converts, the static call returns a non-null array and every element can be read, and then yields every non-null Java string in order (a string whose GetStringUTFChars fails is kept as the empty string); any failure is PLUGIN_ERROR |
| JapaneseJniBridge.DoSegmentReturnsJavaTokens | japanese_ftparser/japanese_jni_bridge.cpp:138-190 | when Java returns N non-null strings and no fetch fails, do_segment succeeds and the vector becomes N strings in order, each the Java string or the empty string where GetStringUTFChars fails; with no such failure, exactly those N strings |
| JapaneseJniBridge.JapaneseJNIBridge.constructor | japanese_ftparser/japanese_jni_bridge.cpp:24-30 | the bridge is named `japanese_ftparser` and starts uninitialised with no error |
| JapaneseJniBridge.JapaneseJNIBridge.SetError | japanese_ftparser/japanese_jni_bridge.cpp:192-196 | the error code and message are stored |
| JapaneseJniBridge.JapaneseJNIBridge.ClearError | japanese_ftparser/japanese_jni_bridge.cpp:198-202 | all three error fields are reset |
| JapaneseJniBridge.JapaneseJNIBridge.Initialize | japanese_ftparser/japanese_jni_bridge.cpp:40-71 | an initialised bridge returns success and changes nothing; otherwise the plugin is registered and a guard with no class path is taken, so the thread table follows `GuardedVisit` with the JVM already held; success iff that guard held an environment and the class and static method resolve, so with no JVM it fails; the plugin stays registered only on success; the JVM slot and the settings record never change |
| JapaneseJniBridge.JapaneseJNIBridge.InitializeWithGuard | japanese_ftparser/japanese_jni_bridge.cpp:53-67 | success iff the guard holds an environment and the class and its static method resolve; on failure the plugin is unregistered and the code recorded |
| JapaneseJniBridge.JapaneseJNIBridge.LoadJavaClasses | japanese_ftparser/japanese_jni_bridge.cpp:92-136 | success iff there is an environment and the class, its global reference and its static method resolve; a failure records PLUGIN_ERROR |
| JapaneseJniBridge.JapaneseJNIBridge.Segment | japanese_ftparser/japanese_jni_bridge.cpp:73-90 | an uninitialised bridge is a plugin error; otherwise the thread table follows one guard's lifetime (`GuardedVisit`), and with an environment the result is `DoSegmentOutcome`, success iff no error is recorded; no frame is pushed; registry and JVM slot are untouched |
| JapaneseJniBridge.JapaneseJNIBridge.DoSegment | japanese_ftparser/japanese_jni_bridge.cpp:138-190 | the result is `DoSegmentOutcome`; a failure records PLUGIN_ERROR; no frame is pushed and the native frame ends with as many references as before; success opens one 32-slot frame per batch |
| JapaneseJniBridge.JapaneseJNIBridge.Destroy | japanese_ftparser/japanese_jni_bridge.cpp:32-38 | an initialised bridge unregisters its plugin; the bridge ends uninitialised |
| JapaneseJniBridge.JapaneseJNIBridgeManager.constructor | japanese_ftparser/japanese_jni_bridge.cpp:205-208 | the singleton starts with no bridge |
| JapaneseJniBridge.JapaneseJNIBridgeManager.GetBridge | japanese_ftparser/japanese_jni_bridge.cpp:210-216 | the first call creates the bridge, and later calls return that same bridge |
| JapaneseJniBridge.JapaneseJNIBridgeManager.Initialize | japanese_ftparser/japanese_jni_bridge.cpp:218-221 | the bridge exists afterwards and success iff it is initialised; the JVM slot is never changed; the thread table and code are `InitEffect`: an initialised bridge changes nothing and succeeds, otherwise the environment comes from `GuardedVisit` on the held JVM and success iff one was obtained and the class and static method resolve, so with no JVM in the process it fails; the plugin stays registered iff it succeeds |
| JapaneseJniBridge.ScanBegin | japanese_ftparser/japanese_jni_bridge.cpp:257-311 | a null parameter is an invalid argument; otherwise the code is the initialisation's failure code, else ALLOCATE_MEMORY_FAILED when allocation fails, else INVALID_ARGUMENT without a document, else the segmentation's code (`SegmentCode` over the thread table initialisation left); failure leaves the user data alone; success stores the do_segment tokens with the cursor at 0; the JVM slot is never changed |
| JapaneseJniBridge.SegmentIntoState | japanese_ftparser/japanese_jni_bridge.cpp:285-310 | the thread table follows `GuardedVisit`; the code is PLUGIN_ERROR without an environment and the `DoSegmentOutcome` code with one; the JVM slot and registry are unchanged; on success the tokens of `DoSegmentOutcome` are stored with the cursor at 0; failure leaves the user data alone |
| KoreanParserCore.MakeTokenInfo | korean_ftparser/korean_parser_core.h:50-52 | the four-argument record keeps word, lengths and frequency (1 by default), with both positions 0 |
| KoreanParserCore.DefaultTokenInfo | korean_ftparser/korean_parser_core.h:47-48 | the default record is empty with lengths 0 and frequency 1 |
| KoreanParserCore.Record | korean_ftparser/korean_parser_core.cpp:228-232 | a token's record holds its bytes, its byte length, frequency 1 and its `CharCount`, which is at most the byte length and equal to it for ASCII |
| KoreanParserCore.Records | korean_ftparser/korean_parser_core.cpp:220-235 | the filtered list is no longer than the raw one, every entry has content and is the record of its own word |
| KoreanParserCore.RecordsAppend | korean_ftparser/korean_parser_core.cpp:220-235 | filtering distributes over concatenation, so the order of the Java tokens is kept |
| KoreanParserCore.RecordsKeepAllValid | korean_ftparser/korean_parser_core.cpp:220-235 | when every raw token has content, every one is kept, one record per token, in order |
| KoreanParserCore.RecordsDropAllBlank | korean_ftparser/korean_parser_core.cpp:220-235 | when no raw token has content, the list is empty |
| KoreanParserCore.ObKoreanFTParser.constructor | korean_ftparser/korean_parser_core.cpp:29-36 | a new parser is cleared and not initialised |
| KoreanParserCore.ObKoreanFTParser.GetTokenCount | korean_ftparser/korean_parser_core.h:109 | the number of stored tokens |
| KoreanParserCore.ObKoreanFTParser.IsInitialized | korean_ftparser/korean_parser_core.h:115 | whether init succeeded and no reset followed |
| KoreanParserCore.ObKoreanFTParser.Reset | korean_ftparser/korean_parser_core.cpp:110-120 | every field is cleared and the bridge pointer dropped; on a cleared parser nothing changes |
| KoreanParserCore.ObKoreanFTParser.CleanupJniBridge | korean_ftparser/korean_parser_core.cpp:191-196 | the bridge pointer is dropped |
| KoreanParserCore.ObKoreanFTParser.Init | korean_ftparser/korean_parser_core.cpp:46-107 | INIT_TWICE when initialised, with no change; INVALID_ARGUMENT for a null parameter, null text, negative length or null charset; otherwise the code is success or PLUGIN_ERROR, and success iff the bridge initialisation succeeds (`BridgeInitSucceeds`), an already initialised bridge finds an environment for segmentation (`SegmentEnvFound`), and `SegmentOutcome` succeeds; initialised iff success; on failure cleared; on success the text and charset are stored, the cursor is at 0, the bridge is the initialised singleton, and the tokens are `Records` of a successful `SegmentOutcome` |
| KoreanParserCore.ObKoreanFTParser.InitializeJniBridge | korean_ftparser/korean_parser_core.cpp:159-188 | a held pointer answers success with no effect; otherwise the singleton bridge is created if needed, success iff it ends initialised, the pointer kept only on success; the code is success or PLUGIN_ERROR; an initialised bridge keeps its thread environments, JVM and the attached set; for an uninitialised bridge, success iff the thread gets an environment and every class lookup resolves, and then the thread's environment is stored |
| KoreanParserCore.ObKoreanFTParser.PerformSegmentation | korean_ftparser/korean_parser_core.cpp:199-255 | no bridge is a plugin error; failure leaves the tokens alone; success means `SegmentOutcome` succeeded and the tokens are `Records` of its strings; the code is success or PLUGIN_ERROR; with a stored environment, success iff `SegmentOutcome` succeeds; without one, success iff `AfterGetEnv` yields an environment and `SegmentOutcome` succeeds |
| KoreanParserCore.ObKoreanFTParser.GetNextToken | korean_ftparser/korean_parser_core.cpp:123-156 | not initialised is a plugin error; otherwise the call is the cursor step `Next` and hands out the token's word, byte length, character count and frequency |
| KoreanParserCore.ObKoreanFTParser.CalculateUtf8CharLength | korean_ftparser/korean_parser_core.cpp:258-284 | the count is `CharCount`, at most the byte length and equal to it for ASCII |
| KoreanParserCore.ObKoreanFTParser.ValidateToken | korean_ftparser/korean_parser_core.cpp:287-317 | valid iff some byte is not whitespace (space, tab, newline, vertical tab, form feed, carriage return); invalid iff empty or all whitespace; any byte above 127 makes it valid |
| ThaiParserCore.ValidateToken | thai_ftparser/thai_parser_core.cpp:277-296 | valid iff some byte is not whitespace, the Korean verdict; the length-below-one test never decides |
| ThaiParserCore.ObThaiFTParser.constructor | thai_ftparser/thai_parser_core.cpp:29-36 | a new parser is cleared and not initialised |
| ThaiParserCore.ObThaiFTParser.Reset | thai_ftparser/thai_parser_core.cpp:110-120 | every field is cleared and the bridge pointer dropped; on a cleared parser nothing changes |
| ThaiParserCore.ObThaiFTParser.CleanupJniBridge | thai_ftparser/thai_parser_core.cpp:191-196 | the bridge pointer is dropped |
| ThaiParserCore.ObThaiFTParser.Init | thai_ftparser/thai_parser_core.cpp:46-107 | the same early answers as the Korean parser; otherwise the bridge's code (initialisation first, then segmentation) is returned; failure clears the parser; success stores text and charset with the cursor at 0 and the tokens `Records` of the bridge's strings |
| ThaiParserCore.ObThaiFTParser.InitializeJniBridge | thai_ftparser/thai_parser_core.cpp:159-188 | a held pointer answers success; otherwise the bridge's answer is returned and the pointer kept iff it is success |
| ThaiParserCore.ObThaiFTParser.PerformSegmentation | thai_ftparser/thai_parser_core.cpp:199-245 | no bridge is a plugin error; otherwise the bridge's code is returned; failure leaves the tokens alone; success stores `Records` of the bridge's strings |
| ThaiParserCore.ObThaiFTParser.GetNextToken | thai_ftparser/thai_parser_core.cpp:123-156 | not initialised is a plugin error; otherwise the call is the cursor step `Next` |
| ThaiParserCore.ObThaiFTParser.CalculateThaiCharLength | thai_ftparser/thai_parser_core.cpp:248-274 | the count is `CharCount`, at most the byte length |

## Left out

- Locks, atomics and concurrent interleavings. Every operation runs as one
  atomic step on explicit state; the mutexes only make that true in the
  source.
- Logging, and the Java exception text that the source appends to error
  messages. Messages are fixed strings.
- What the JVM does. It is represented only through the probe inputs, and
  `JNI_CreateJavaVM` never gets its options checked by anything.
- Memory allocation. `new` always succeeds, so the ALLOCATE_MEMORY_FAILED
  branch of the Korean `initialize_jni_bridge` is not reachable in the model.
- C++ exceptions. The `catch` that turns an exception in
  `perform_segmentation` into PLUGIN_ERROR is not modelled, and neither is
  `std::bad_alloc`.
- The host plugin protocol's `plugin_init`, `plugin_deinit` and
  `get_add_word_flag`. They are registration glue with no state of their own.
- The old Thai bridge's implementation (the `oceanbase::thai` classes
  declared in `thai_ftparser/thai_jni_bridge.h`; the source has no .cpp for
  them) and `thai_parser_core.h` are not part of this model. For that
  reason:
  - `ThaiParserCore.ObThaiFTParser` takes its bridge's initialisation and
    segmentation answers as inputs;
  - it uses the Korean header's `TokenInfo`;
  - its bridge pointer is a flag.
- The parser cores' callers (`korean_ftparser_main.cpp`), which free the
  parser through the host. A parser is dropped, not destroyed.
- The thread-caching redesigns (`quick_cache_optimization.cpp`,
  `smart_jni_cache_design.cpp`, `thread_local_jni_cache_design.cpp`,
  `persistent_jni_environment_design.cpp`) are sketches outside the build
  and are not modelled.
- Integer widths. Counts are unbounded integers. `int64_t` and `size_t`
  never overflow at these sizes, and the older instance count is allowed to
  go negative as it does in the source.
- Parts of one source function that the model splits into helpers so that
  each proof stays small:
  - `InitializeWithGuard` (the guarded part of `initialize`);
  - `ConvertBatch` / `ReadBatch` (the batch and element loops);
  - `SegmentIntoState` (the tail of `scan_begin`);
  - `SegmentInFrame` (the framed part of the Korean `segment`).
- The Korean parser gets its bridge through `get_bridge` with the Thai
  header's default `JNIBridgeConfig`. The parser calls `get_bridge()` with
  no argument, and `korean_jni_bridge.h` declares a class that does not
  match the implementation.
- The Korean bridge's `thread_env_` is one `static thread_local` pointer
  shared by every bridge object. The model keeps it as a field of each
  `JNIBridge`, and a new bridge starts with an empty map. So after
  `ReleaseBridge` and a later `GetBridge`, the source's new bridge still
  sees the environment the old one stored on that thread, and the model's
  does not.
- `ScopedJNIEnvironment`'s deleted copy and move operations become a ghost
  `live` flag: `Destroy` can run only once per guard.
- `KoreanJniBridge.JVMStateManager.GetInstanceCount` has no ensures; it
  returns the bare counter.
- `KoreanJniBridge.JNIBridgeManager.ReleaseBridge` does not state the
  thread set after the bridge's cleanup, only the bridge's own state.
- `ThaiJniBridge.ScanBegin` and `JapaneseJniBridge.ScanBegin` state the
  return code and the user data, not the registry and thread table they
  leave behind. Those are stated step by step by the manager's `Initialize`
  and by `SegmentIntoState`.
- `KoreanParserCore.ObKoreanFTParser.Init` states the parser's own state
  and its return code. The registry and thread effects are those of
  `JNIBridge.Initialize` and `JNIBridge.Segment`, and are not repeated.
- `JvmLifecycle.VmOptions` states only that there are five options. What
  they carry is stated by `VmOptionsCarryConfig`.
- The Thai plugin's `do_segment` returns the conversion's raw -1 to the host
  without translating it. The model keeps that value as `Raw(-1)`.
- In the Korean bridge, a failing class load after a successful JVM step
  keeps the instance registration, as the source does.

=== FILE: common.dfy ===
/** Values shared by every part of the model: handles into the Java runtime,
    the host's status codes, the host's full-text parser parameter, and the
    answers the Java Native Interface gives, which the model takes as inputs. */
module Common {

  datatype Option<+T> = None | Some(value: T)

  /** The bytes of a std::string (UTF-8 text as the parsers see it). */
  type Bytes = seq<bv8>

  /** An OS thread identity (std::thread::id). */
  type ThreadId = nat

  /** A non-null JavaVM* and a non-null JNIEnv*. */
  datatype JavaVm = JavaVm(id: nat)
  datatype JniEnv = JniEnv(id: nat)

  /** Status codes returned to the plugin host (OBP_*); `Raw` is a bare integer
      that some paths return without translating it into a host code. */
  datatype Status =
    | Success
    | InvalidArgument
    | InitTwice
    | AllocateMemoryFailed
    | PluginError
    | IterEnd
    | Raw(code: int)

  /** Default heap sizes of the JVM, in MB. */
  const DEFAULT_MAX_HEAP_MB: nat := 512
  const DEFAULT_INIT_HEAP_MB: nat := 128

  // ---------------------------------------------------------------------
  // Answers of the invocation interface and of JNIEnv calls
  // ---------------------------------------------------------------------

  /** JNI_GetCreatedJavaVMs (a VM already running in the process, if any) and
      JNI_CreateJavaVM (the new VM, or None when creation fails). */
  datatype VmProbe = VmProbe(existing: Option<JavaVm>, created: Option<JavaVm>)

  /** The outcome of JavaVM::GetEnv: JNI_OK, JNI_EDETACHED or anything else. */
  datatype GetEnvResult = EnvOk(env: JniEnv) | EnvDetached | EnvOtherError

  /** GetEnv and, when it is asked, AttachCurrentThread (None when it fails). */
  datatype EnvProbe = EnvProbe(getEnv: GetEnvResult, attach: Option<JniEnv>)

  /** Class resolution: FindClass, NewGlobalRef, the constructor's and the
      segment method's GetMethodID / GetStaticMethodID. */
  datatype ClassProbe = ClassProbe(classFound: bool, globalRefOk: bool, ctorFound: bool, methodFound: bool)

  /** Every lookup of a segmenter that needs a constructor succeeds. */
  predicate AllResolved(p: ClassProbe)
  {
    p.classFound && p.globalRefOk && p.ctorFound && p.methodFound
  }

  /** Faults while reading a Java String[]: GetArrayLength raising, the batch
      numbers whose PushLocalFrame fails, the indexes whose
      GetObjectArrayElement raises, and the indexes whose GetStringUTFChars
      returns null. */
  datatype ArrayFaults = ArrayFaults(lengthFails: bool, pushFails: set<nat>, elementFails: set<nat>,
                                     utfFails: set<nat>)

  /** A Java String[] as seen element by element: null or the UTF-8 bytes. */
  type JavaStringArray = seq<Option<Bytes>>

  /** The segmentation call: it raises, or returns a (possibly null) array. */
  datatype CallOutcome = Threw | Returned(result: Option<JavaStringArray>)

  /** Everything one segmentation call asks of the runtime: the 64-slot frame,
      NewStringUTF of the text, NewObject of a segmenter, the call itself and
      the conversion of its result. */
  datatype SegmentProbe = SegmentProbe(
    framePushOk: bool,
    textConverted: bool,
    instanceCreated: bool,
    call: CallOutcome,
    faults: ArrayFaults)

  // ---------------------------------------------------------------------
  // Local reference frames of one JNIEnv
  // ---------------------------------------------------------------------

  /** A frame opened by PushLocalFrame: its capacity and how many local
      references currently live in it. */
  datatype Frame = Frame(capacity: nat, live: nat)

  /** The local-reference state of one thread's JNIEnv: the stack of frames
      pushed with PushLocalFrame (innermost last) and the references held in
      the enclosing native-call frame. */
  class LocalRefFrames {
    var frames: seq<Frame>
    var outerRefs: nat
    /** The capacities of every PushLocalFrame that succeeded, in order. */
    ghost var pushLog: seq<nat>

    constructor ()
      ensures frames == [] && outerRefs == 0 && pushLog == []
    {
      frames, outerRefs := [], 0;
      pushLog := [];
    }

    /** PushLocalFrame(capacity): 0 on success, negative when the runtime is
        out of memory (`ok` is the runtime's answer). */
    method PushLocalFrame(capacity: nat, ok: bool) returns (rc: int)
      modifies this
      ensures rc == (if ok then 0 else -1)
      ensures frames == (if ok then old(frames) + [Frame(capacity, 0)] else old(frames))
      ensures pushLog == (if ok then old(pushLog) + [capacity] else old(pushLog))
      ensures outerRefs == old(outerRefs)
    {
      if ok {
        frames := frames + [Frame(capacity, 0)];
        pushLog := pushLog + [capacity];
        rc := 0;
      } else {
        rc := -1;
      }
    }

    /** PopLocalFrame(nullptr): frees every reference of the innermost frame. */
    method PopLocalFrame()
      requires |frames| > 0
      modifies this`frames
      ensures frames == old(frames)[..|old(frames)| - 1]
    {
      frames := frames[..|frames| - 1];
    }

    /** A JNI call that returns a new local reference. JNI treats a frame's
        capacity as a guarantee rather than a limit; this model is stricter
        and demands room in the top frame, so every caller proves it stays
        within the capacity it asked for. */
    method NewLocalRef()
      requires |frames| > 0 ==> frames[|frames| - 1].live < frames[|frames| - 1].capacity
      modifies this`frames, this`outerRefs
      ensures |frames| == |old(frames)|
      ensures |frames| == 0 ==> outerRefs == old(outerRefs) + 1
      ensures |frames| > 0 ==>
                outerRefs == old(outerRefs) &&
                frames == old(frames)[..|frames| - 1] +
                          [Frame(old(frames)[|frames| - 1].capacity, old(frames)[|frames| - 1].live + 1)]
    {
      if |frames| == 0 {
        outerRefs := outerRefs + 1;
      } else {
        var top := frames[|frames| - 1];
        frames := frames[..|frames| - 1] + [Frame(top.capacity, top.live + 1)];
      }
    }

    /** DeleteLocalRef on a reference held outside every pushed frame. */
    method DeleteOuterRef()
      requires |frames| == 0 && outerRefs > 0
      modifies this`outerRefs
      ensures outerRefs == old(outerRefs) - 1
    {
      outerRefs := outerRefs - 1;
    }
  }

  // ---------------------------------------------------------------------
  // The host's full-text parser parameter
  // ---------------------------------------------------------------------

  /** The per-scan state the Thai and Japanese plugins keep in the parameter's
      user data: the tokens of the document and the iteration cursor. */
  datatype ParserState = ParserState(tokens: seq<Bytes>, currentTokenIndex: nat)

  /** ObPluginFTParserParam: the document (a possibly null buffer and a
      length), the charset (0 stands for a null charset) and the user data. */
  class FtParserParam {
    const fulltext: Option<Bytes>
    const fulltextLength: int
    const charsetInfo: nat
    var userData: Option<ParserState>

    constructor (fulltext: Option<Bytes>, fulltextLength: int, charsetInfo: nat)
      ensures this.fulltext == fulltext && this.fulltextLength == fulltextLength
      ensures this.charsetInfo == charsetInfo && userData.None?
    {
      this.fulltext := fulltext;
      this.fulltextLength := fulltextLength;
      this.charsetInfo := charsetInfo;
      userData := None;
    }

    /** The host's promise: a non-null buffer holds at least `length` bytes. */
    predicate HostContract() {
      fulltext.Some? && fulltextLength >= 0 ==> fulltextLength <= |fulltext.value|
    }

    /** std::string(fulltext, length). */
    function Text(): (t: Bytes)
      requires HostContract() && fulltext.Some? && fulltextLength >= 0
      ensures |t| == fulltextLength
      ensures forall i :: 0 <= i < |t| ==> t[i] == fulltext.value[i]
    {
      fulltext.value[..fulltextLength]
    }
  }
}

=== FILE: japanese_jni_bridge.dfy ===
/** The Japanese plugin: a bridge that only borrows a JVM another plugin has
    started (its guard carries no class path), calls a static segment method
    without pushing a local frame, deletes its own local references, and the
    scan_begin entry point around it. */
module JapaneseJniBridge {
  import opened Common
  import opened JvmLifecycle
  import opened StringArray
  import opened JniManager

  // The messages set_error records (without the appended exception text).
  const MSG_NO_INIT_ENV: string := "Failed to acquire JNI environment for initialization"
  const MSG_NOT_INITIALIZED: string := "Bridge not initialized"
  const MSG_NO_SEGMENT_ENV: string := "Failed to acquire JNI environment for segmentation"
  const MSG_NULL_ENV: string := "JNI environment is null"
  const MSG_NO_CLASS: string := "Cannot find Java class: JapaneseSegmenter"
  const MSG_NO_GLOBAL_REF: string := "Failed to create global reference for segmenter class"
  const MSG_NO_STATIC_METHOD: string := "Cannot find STATIC method: segment"
  const MSG_NO_JAVA_TEXT: string := "Failed to convert text to Java string"
  const MSG_CALL_THREW: string := "Static Java segmentation method threw exception"
  const MSG_NULL_RESULT: string := "Static Java segmentation method returned null"
  const MSG_CONVERSION_FAILED: string := "Failed to convert Java result to C++ vector"

  /** JapaneseJNIBridgeConfig: the JVM settings live in the common library. */
  datatype JapaneseJNIBridgeConfig = JapaneseJNIBridgeConfig(segmenterClassName: string, segmentMethodName: string)

  /** The default configuration. */
  function DefaultJapaneseJNIBridgeConfig(): (c: JapaneseJNIBridgeConfig)
    ensures c.segmenterClassName == "JapaneseSegmenter" && c.segmentMethodName == "segment"
  {
    JapaneseJNIBridgeConfig("JapaneseSegmenter", "segment")
  }

  /** Whether load_java_classes resolves everything it needs: the class, its
      global reference and the static segment method. No constructor is
      looked up. */
  predicate StaticResolved(p: ClassProbe)
  {
    p.classFound && p.globalRefOk && p.methodFound
  }

  /** What do_segment returns, given whether the environment it is handed
      is non-null and the vector it fills. No frame and no segmenter
      instance are involved, so `framePushOk` and `instanceCreated` play no
      part. The vector is never
      cleared by do_segment itself: every failure before the conversion
      starts (including a failing GetArrayLength inside it) leaves it as it
      was; a conversion that fails midway leaves the strings read before
      the failure; every failure is PLUGIN_ERROR. */
  function DoSegmentOutcome(hasEnv: bool, probe: SegmentProbe, tokensIn: seq<Bytes>): (Status, seq<Bytes>)
  {
    if !hasEnv || !probe.textConverted then (PluginError, tokensIn)
    else match probe.call
      case Threw => (PluginError, tokensIn)
      case Returned(None) => (PluginError, tokensIn)
      case Returned(Some(arr)) =>
        if probe.faults.lengthFails then (PluginError, tokensIn)
        else
          var stop := FirstFault(|arr|, probe.faults, 0);
          (if stop == |arr| then Success else PluginError, NonNull(Decoded(arr, probe.faults.utfFails)[..stop]))
  }

  /** do_segment succeeds exactly when the text converts, the static call
      returns a non-null array and every element can be read; it then yields
      all non-null strings of that array in order (read by `Decoded`, so a
      failed GetStringUTFChars gives ""), and otherwise it reports
      PLUGIN_ERROR. */
  lemma DoSegmentOutcomeCases(hasEnv: bool, probe: SegmentProbe, tokensIn: seq<Bytes>)
    ensures var (ret, tokens) := DoSegmentOutcome(hasEnv, probe, tokensIn);
      (ret == Success || ret == PluginError) &&
      (ret == Success <==>
         hasEnv && probe.textConverted && probe.call.Returned? && probe.call.result.Some? &&
         !probe.faults.lengthFails &&
         FirstFault(|probe.call.result.value|, probe.faults, 0) == |probe.call.result.value|) &&
      (ret == Success ==> tokens == NonNull(Decoded(probe.call.result.value, probe.faults.utfFails))) &&
      (|tokens| <= |tokensIn| || (probe.call.Returned? && probe.call.result.Some? &&
                                   |tokens| <= |probe.call.result.value|))
  {
    if hasEnv && probe.textConverted && probe.call.Returned? && probe.call.result.Some? &&
       !probe.faults.lengthFails {
      var d := Decoded(probe.call.result.value, probe.faults.utfFails);
      var stop := FirstFault(|d|, probe.faults, 0);
      assert d[..|d|] == d;
      NonNullLength(d[..stop]);
    }
  }

  /** When the Java segmenter returns N non-null strings and no element
      fetch fails, do_segment replaces the vector by N strings in order:
      each is the Java string, or the empty string where GetStringUTFChars
      failed; with no such failure they are exactly the N strings. */
  lemma DoSegmentReturnsJavaTokens(xs: seq<Bytes>, probe: SegmentProbe, tokensIn: seq<Bytes>)
    requires probe.textConverted && probe.call == Returned(Some(Present(xs)))
    requires !probe.faults.lengthFails && probe.faults.pushFails == {} && probe.faults.elementFails == {}
    ensures var (ret, tokens) := DoSegmentOutcome(true, probe, tokensIn);
      ret == Success && |tokens| == |xs| &&
      forall i :: 0 <= i < |xs| ==> tokens[i] == (if i in probe.faults.utfFails then [] else xs[i])
    ensures probe.faults.utfFails == {} ==> DoSegmentOutcome(true, probe, tokensIn) == (Success, xs)
  {
    var d := Decoded(Present(xs), probe.faults.utfFails);
    assert FirstFault(|xs|, probe.faults, 0) == |xs|;
    assert d[..|d|] == d;
    NonNullOfPresentDecoded(xs, probe.faults.utfFails);
    if probe.faults.utfFails == {} {
      var tokens := DoSegmentOutcome(true, probe, tokensIn).1;
      assert forall i :: 0 <= i < |xs| ==> tokens[i] == xs[i];
      assert tokens == xs;
    }
  }

  /** JapaneseJNIBridge. The error record's three fields are kept on the
      bridge; `globalClassRef` says whether the class is held globally. */
  class JapaneseJNIBridge {
    const pluginName: string
    const config: JapaneseJNIBridgeConfig
    var isInitialized: bool
    var globalClassRef: bool
    var lastErrorCode: Status
    var lastErrorMessage: string
    var lastJavaException: string

    ghost predicate Valid()
      reads this
    {
      isInitialized ==> globalClassRef
    }

    constructor ()
      ensures pluginName == "japanese_ftparser" && config == DefaultJapaneseJNIBridgeConfig()
      ensures !isInitialized && !globalClassRef
      ensures lastErrorCode == Success && lastErrorMessage == [] && lastJavaException == []
      ensures Valid()
    {
      pluginName := "japanese_ftparser";
      config := DefaultJapaneseJNIBridgeConfig();
      isInitialized, globalClassRef := false, false;
      lastErrorCode, lastErrorMessage, lastJavaException := Success, [], [];
    }

    /** set_error: code and message are replaced, the exception text kept. */
    method SetError(code: Status, message: string)
      modifies this`lastErrorCode, this`lastErrorMessage
      ensures lastErrorCode == code && lastErrorMessage == message
    {
      lastErrorCode, lastErrorMessage := code, message;
    }

    /** clear_error: back to no error, with both texts emptied. */
    method ClearError()
      modifies this`lastErrorCode, this`lastErrorMessage, this`lastJavaException
      ensures lastErrorCode == Success && lastErrorMessage == [] && lastJavaException == []
    {
      lastErrorCode := Success;
      lastErrorMessage := [];
      lastJavaException := [];
    }

    /** initialize, run by thread `tid`. An initialised bridge returns
        success and changes nothing. Otherwise the plugin is registered and a
        guard WITHOUT a class path looks for an environment: the Japanese
        plugin never obtains or creates a JVM itself, so initialisation fails
        unless one is already held. Any failure unregisters the plugin
        again; the guard releases what it acquired on every path. */
    method Initialize(jvms: GlobalJVMManager, threads: GlobalThreadManager, tid: ThreadId,
                      envProbe: EnvProbe, classProbe: ClassProbe)
      returns (ret: Status)
      requires Valid() && jvms.Valid() && threads.Valid()
      modifies this, jvms, threads
      ensures Valid() && jvms.Valid() && threads.Valid()
      ensures jvms.Slot() == old(jvms.Slot()) && jvms.configRecord == old(jvms.configRecord)
      ensures old(isInitialized) ==> ret == Success && unchanged(this, jvms, threads)
      ensures !old(isInitialized) ==>
                var (table, env) := GuardedVisit(old(threads.Table()), old(jvms.sharedJvm), tid, pluginName, envProbe);
                (ret == Success <==> env.Some? && StaticResolved(classProbe)) &&
                (ret == Success || ret == PluginError) &&
                (isInitialized <==> ret == Success) && lastErrorCode == ret &&
                jvms.Reg() == (if ret == Success then AfterRegister(old(jvms.Reg()), pluginName)
                               else AfterUnregister(AfterRegister(old(jvms.Reg()), pluginName), pluginName)) &&
                threads.Table() == table
      ensures !old(isInitialized) && old(jvms.sharedJvm).None? ==> ret == PluginError && !isInitialized
    {
      if isInitialized {
        return Success;
      }
      ClearError();
      jvms.RegisterPlugin(pluginName);
      var guard := new ScopedJNIEnvironment(jvms, threads, tid, VmProbe(None, None), envProbe, pluginName);
      ret := InitializeWithGuard(jvms, guard.Get(), classProbe);
      var _ := guard.Destroy(jvms, threads);
    }

    /** The part of initialize between acquiring the guard and leaving its
        scope: without an environment, or when the classes cannot be loaded,
        the registration is undone; otherwise the bridge is initialised. */
    method InitializeWithGuard(jvms: GlobalJVMManager, env: Option<JniEnv>, classProbe: ClassProbe)
      returns (ret: Status)
      requires !isInitialized && jvms.Valid()
      modifies this`isInitialized, this`globalClassRef, this`lastErrorCode, this`lastErrorMessage,
               jvms`registeredPlugins, jvms`pluginCount
      ensures jvms.Valid()
      ensures ret == (if env.Some? && StaticResolved(classProbe) then Success else PluginError)
      ensures isInitialized <==> ret == Success
      ensures ret == Success ==> jvms.Reg() == old(jvms.Reg()) && lastErrorCode == old(lastErrorCode)
      ensures ret != Success ==> jvms.Reg() == AfterUnregister(old(jvms.Reg()), pluginName) && lastErrorCode == ret
      ensures env.Some? ==> globalClassRef == (classProbe.classFound && classProbe.globalRefOk)
      ensures env.None? ==> globalClassRef == old(globalClassRef)
    {
      if env.None? {
        SetError(PluginError, MSG_NO_INIT_ENV);
        ret := PluginError;
      } else {
        ret := LoadJavaClasses(env, classProbe);
      }
      if ret != Success {
        jvms.UnregisterPlugin(pluginName);
      } else {
        isInitialized := true;
      }
    }

    /** load_java_classes: a null environment is rejected; otherwise the
        class is found and held globally and its static segment method is
        looked up. */
    method LoadJavaClasses(env: Option<JniEnv>, classProbe: ClassProbe) returns (ret: Status)
      modifies this`globalClassRef, this`lastErrorCode, this`lastErrorMessage
      ensures ret == (if env.Some? && StaticResolved(classProbe) then Success else PluginError)
      ensures env.None? ==> globalClassRef == old(globalClassRef)
      ensures env.Some? ==> globalClassRef == (classProbe.classFound && classProbe.globalRefOk)
      ensures ret == PluginError ==> lastErrorCode == PluginError
      ensures ret == Success ==> lastErrorCode == old(lastErrorCode) && lastErrorMessage == old(lastErrorMessage)
    {
      if env.None? {
        SetError(PluginError, MSG_NULL_ENV);
        return PluginError;
      }
      globalClassRef := false;
      if !classProbe.classFound {
        SetError(PluginError, MSG_NO_CLASS);
        return PluginError;
      }
      if !classProbe.globalRefOk {
        SetError(PluginError, MSG_NO_GLOBAL_REF);
        return PluginError;
      }
      globalClassRef := true;
      if !classProbe.methodFound {
        SetError(PluginError, MSG_NO_STATIC_METHOD);
        return PluginError;
      }
      ret := Success;
    }

    /** segment, run by thread `tid` directly from a native call (no local
        frame pushed). An uninitialised bridge fails first; otherwise the
        error is cleared and a guard without a class path supplies the
        environment for do_segment. The host calls segment outside any open
        local frame (`frames.frames == []`): the references do_segment
        creates are the native call's own, which it deletes one by one. */
    method Segment(jvms: GlobalJVMManager, threads: GlobalThreadManager, tid: ThreadId, envProbe: EnvProbe,
                   frames: LocalRefFrames, text: Bytes, probe: SegmentProbe, tokensIn: seq<Bytes>)
      returns (ret: Status, tokens: seq<Bytes>)
      requires jvms.Valid() && threads.Valid() && frames.frames == []
      modifies this`lastErrorCode, this`lastErrorMessage, this`lastJavaException, jvms, threads, frames
      ensures jvms.Valid() && threads.Valid()
      ensures jvms.Slot() == old(jvms.Slot()) && jvms.Reg() == old(jvms.Reg())
      ensures frames.frames == [] && frames.outerRefs == old(frames.outerRefs)
      ensures !isInitialized ==>
                ret == PluginError && tokens == tokensIn && lastErrorCode == PluginError &&
                threads.Table() == old(threads.Table())
      ensures isInitialized ==>
                var (table, env) := GuardedVisit(old(threads.Table()), old(jvms.sharedJvm), tid, pluginName, envProbe);
                threads.Table() == table &&
                (env.None? ==> ret == PluginError && tokens == tokensIn) &&
                (env.Some? ==> (ret, tokens) == DoSegmentOutcome(true, probe, tokensIn)) &&
                (ret == Success <==> lastErrorCode == Success)
    {
      if !isInitialized {
        SetError(PluginError, MSG_NOT_INITIALIZED);
        return PluginError, tokensIn;
      }
      ClearError();
      var guard := new ScopedJNIEnvironment(jvms, threads, tid, VmProbe(None, None), envProbe, pluginName);
      if !guard.AsBool() {
        SetError(PluginError, MSG_NO_SEGMENT_ENV);
        ret, tokens := PluginError, tokensIn;
      } else {
        ret, tokens := DoSegment(guard.Get(), frames, text, probe, tokensIn);
      }
      var _ := guard.Destroy(jvms, threads);
    }

    /** do_segment: no local frame is pushed; the Java text and the result
        array are the only local references it creates, and each of them is
        deleted again on every path that created it, so the native frame
        ends holding exactly as many references as before. */
    method DoSegment(env: Option<JniEnv>, frames: LocalRefFrames, text: Bytes, probe: SegmentProbe,
                     tokensIn: seq<Bytes>)
      returns (ret: Status, tokens: seq<Bytes>)
      requires frames.frames == []
      modifies this`lastErrorCode, this`lastErrorMessage, frames
      ensures frames.frames == [] && frames.outerRefs == old(frames.outerRefs)
      ensures (ret, tokens) == DoSegmentOutcome(env.Some?, probe, tokensIn)
      ensures ret != Success ==> lastErrorCode == PluginError
      ensures ret == Success ==> lastErrorCode == old(lastErrorCode)
      ensures ret == Success ==>
                probe.call.Returned? && probe.call.result.Some? &&
                frames.pushLog == old(frames.pushLog) + seq(Batches(|probe.call.result.value|), _ => BATCH_SIZE)
    {
      tokens := tokensIn;
      if env.None? {
        SetError(PluginError, MSG_NULL_ENV);
        return PluginError, tokens;
      }
      if !probe.textConverted {
        SetError(PluginError, MSG_NO_JAVA_TEXT);
        return PluginError, tokens;
      }
      frames.NewLocalRef();
      if probe.call.Threw? {
        SetError(PluginError, MSG_CALL_THREW);
        frames.DeleteOuterRef();
        return PluginError, tokens;
      }
      if probe.call.result.None? {
        SetError(PluginError, MSG_NULL_RESULT);
        frames.DeleteOuterRef();
        return PluginError, tokens;
      }
      frames.NewLocalRef();
      var rc;
      rc, tokens := JstringArrayToCppVector(env, probe.call.result, probe.faults, frames, tokens);
      if rc != 0 {
        SetError(PluginError, MSG_CONVERSION_FAILED);
        frames.DeleteOuterRef();
        frames.DeleteOuterRef();
        return PluginError, tokens;
      }
      frames.DeleteOuterRef();
      frames.DeleteOuterRef();
      ret := Success;
    }

    /** The destructor: unregisters the plugin iff the bridge is initialised. */
    method Destroy(jvms: GlobalJVMManager)
      requires jvms.Valid()
      modifies this`isInitialized, jvms`registeredPlugins, jvms`pluginCount
      ensures jvms.Valid() && !isInitialized
      ensures jvms.Reg() == if old(isInitialized) then AfterUnregister(old(jvms.Reg()), pluginName) else old(jvms.Reg())
    {
      if isInitialized {
        jvms.UnregisterPlugin(pluginName);
        isInitialized := false;
      }
    }
  }

  /** What initialize does to the thread table, with the code it returns,
      for a bridge that is (`initialized`) or is not yet initialised, given
      the JVM the registry holds: an initialised bridge changes nothing and
      succeeds; otherwise the environment is visited through the guard, and
      success needs an environment and the class with its static method. */
  function InitEffect(initialized: bool, jvm: Option<JavaVm>, table: ThreadTable, tid: ThreadId,
                      envProbe: EnvProbe, classProbe: ClassProbe): (ThreadTable, Status)
  {
    if initialized then (table, Success)
    else
      var (table', env) := GuardedVisit(table, jvm, tid, "japanese_ftparser", envProbe);
      (table', if env.Some? && StaticResolved(classProbe) then Success else PluginError)
  }

  /** The code segment returns on an initialised bridge, given the JVM the
      registry holds and the thread table: no environment for the visit is a
      plugin error, otherwise do_segment decides. */
  function SegmentCode(table: ThreadTable, jvm: Option<JavaVm>, tid: ThreadId,
                       envProbe: EnvProbe, probe: SegmentProbe): Status
  {
    if GuardedVisit(table, jvm, tid, "japanese_ftparser", envProbe).1.Some? then DoSegmentOutcome(true, probe, []).0
    else PluginError
  }

  /** JapaneseJNIBridgeManager: the lazily created bridge singleton. */
  class JapaneseJNIBridgeManager {
    var bridge: JapaneseJNIBridge?

    ghost predicate Valid()
      reads this, bridge
    {
      bridge != null ==> bridge.Valid() && bridge.pluginName == "japanese_ftparser"
    }

    constructor ()
      ensures bridge == null && Valid()
    {
      bridge := null;
    }

    /** get_bridge: created on the first call, the same one afterwards. */
    method GetBridge() returns (b: JapaneseJNIBridge)
      requires Valid()
      modifies this
      ensures Valid() && bridge == b && b.Valid()
      ensures old(bridge) != null ==> b == old(bridge)
      ensures old(bridge) == null ==> fresh(b) && b.pluginName == "japanese_ftparser" && !b.isInitialized
    {
      if bridge == null {
        bridge := new JapaneseJNIBridge();
      }
      b := bridge;
    }

    /** initialize: get the bridge and initialise it. */
    method Initialize(jvms: GlobalJVMManager, threads: GlobalThreadManager, tid: ThreadId,
                      envProbe: EnvProbe, classProbe: ClassProbe)
      returns (ret: Status)
      requires Valid() && jvms.Valid() && threads.Valid()
      modifies this, bridge, jvms, threads
      ensures Valid() && bridge != null && jvms.Valid() && threads.Valid()
      ensures old(bridge) != null ==> bridge == old(bridge)
      ensures old(bridge) == null ==> fresh(bridge)
      ensures (ret == Success) == bridge.isInitialized
      ensures jvms.Slot() == old(jvms.Slot())
      ensures (threads.Table(), ret) ==
                InitEffect(old(bridge != null && bridge.isInitialized), old(jvms.sharedJvm), old(threads.Table()),
                           tid, envProbe, classProbe)
      ensures jvms.Reg() ==
                if old(bridge != null && bridge.isInitialized) then old(jvms.Reg())
                else if ret == Success then AfterRegister(old(jvms.Reg()), "japanese_ftparser")
                else AfterUnregister(AfterRegister(old(jvms.Reg()), "japanese_ftparser"), "japanese_ftparser")
      ensures (old(bridge) == null || !old(bridge.isInitialized)) && old(jvms.sharedJvm).None? ==> ret == PluginError
    {
      var b := GetBridge();
      ret := b.Initialize(jvms, threads, tid, envProbe, classProbe);
    }
  }

  /** japanese_ftparser_scan_begin. Each of the bridge's two runtime visits
      gets its own environment answer (`initEnvProbe`, `segmentEnvProbe`);
      `allocOk` is whether allocating the per-scan state succeeds. A null
      parameter is rejected; a failed initialisation is propagated; without
      a document (null text or length <= 0) the state is freed and the
      argument rejected; a failed segmentation is propagated after freeing
      the state; on success the state with the tokens and index 0 becomes
      the user data. */
  method ScanBegin(param: FtParserParam?, manager: JapaneseJNIBridgeManager,
                   jvms: GlobalJVMManager, threads: GlobalThreadManager, tid: ThreadId,
                   initEnvProbe: EnvProbe, classProbe: ClassProbe,
                   allocOk: bool, segmentEnvProbe: EnvProbe, frames: LocalRefFrames, probe: SegmentProbe)
    returns (ret: Status)
    requires param != null ==> param.HostContract()
    requires manager.Valid() && jvms.Valid() && threads.Valid() && frames.frames == []
    modifies param, manager, manager.bridge, jvms, threads, frames
    ensures manager.Valid() && jvms.Valid() && threads.Valid()
    ensures jvms.Slot() == old(jvms.Slot())
    ensures frames.frames == [] && frames.outerRefs == old(frames.outerRefs)
    ensures param == null ==> ret == InvalidArgument
    ensures param != null && ret != Success ==> param.userData == old(param.userData)
    ensures param != null && ret == Success ==>
              allocOk && param.fulltext.Some? && param.fulltextLength > 0 &&
              manager.bridge != null && manager.bridge.isInitialized &&
              var (code, tokens) := DoSegmentOutcome(true, probe, []);
              code == Success && param.userData == Some(ParserState(tokens, 0))
    ensures param != null ==>
              var (table, initRet) :=
                InitEffect(old(manager.bridge != null && manager.bridge.isInitialized), old(jvms.sharedJvm),
                           old(threads.Table()), tid, initEnvProbe, classProbe);
              ret == (if initRet != Success then initRet
                      else if !allocOk then AllocateMemoryFailed
                      else if param.fulltext.None? || param.fulltextLength <= 0 then InvalidArgument
                      else SegmentCode(table, old(jvms.sharedJvm), tid, segmentEnvProbe, probe))
  {
    if param == null {
      return InvalidArgument;
    }
    ret := manager.Initialize(jvms, threads, tid, initEnvProbe, classProbe);
    if ret != Success {
      return ret;
    }
    if !allocOk {
      return AllocateMemoryFailed;
    }
    if param.fulltext.None? || param.fulltextLength <= 0 {
      return InvalidArgument;
    }
    var bridge := manager.GetBridge();
    ret := SegmentIntoState(param, bridge, jvms, threads, tid, segmentEnvProbe, frames, probe);
  }

  /** The end of scan_begin, once the bridge is ready and the text checked:
      the text is segmented into a fresh token vector, which becomes the
      scan state at index 0 only when segmentation succeeds. */
  method SegmentIntoState(param: FtParserParam, bridge: JapaneseJNIBridge,
                          jvms: GlobalJVMManager, threads: GlobalThreadManager, tid: ThreadId,
                          envProbe: EnvProbe, frames: LocalRefFrames, probe: SegmentProbe)
    returns (ret: Status)
    requires param.HostContract() && param.fulltext.Some? && param.fulltextLength > 0
    requires bridge.isInitialized && jvms.Valid() && threads.Valid() && frames.frames == []
    modifies param, bridge`lastErrorCode, bridge`lastErrorMessage, bridge`lastJavaException, jvms, threads, frames
    ensures jvms.Valid() && threads.Valid() && jvms.Slot() == old(jvms.Slot())
    ensures frames.frames == [] && frames.outerRefs == old(frames.outerRefs)
    ensures jvms.Reg() == old(jvms.Reg())
    ensures var (table, env) := GuardedVisit(old(threads.Table()), old(jvms.sharedJvm), tid, bridge.pluginName, envProbe);
            threads.Table() == table && ret == (if env.Some? then DoSegmentOutcome(true, probe, []).0 else PluginError)
    ensures ret != Success ==> param.userData == old(param.userData)
    ensures ret == Success ==>
              var (code, tokens) := DoSegmentOutcome(true, probe, []);
              code == Success && param.userData == Some(ParserState(tokens, 0))
  {
    var text := param.Text();
    var tokens;
    ret, tokens := bridge.Segment(jvms, threads, tid, envProbe, frames, text, probe, []);
    if ret != Success {
      return ret;
    }
    param.userData := Some(ParserState(tokens, 0));
  }
}

=== FILE: jni_manager.dfy ===
/** The shared-JVM library of the newer plugin generation: the process-wide
    JVM registry (GlobalJVMManager), the reference-counted thread table
    (GlobalThreadManager), the scoped environment guard and the batched
    String[] conversion. Mutexes are left out; each operation is one atomic
    step taken on behalf of an explicit thread. */
module JniManager {
  import opened Common
  import opened JvmLifecycle
  import opened StringArray

  // ---------------------------------------------------------------------
  // Plugin registration
  // ---------------------------------------------------------------------

  /** The registered plugin names and the registration counter. */
  datatype Registry = Registry(plugins: set<string>, count: int)

  /** The counter always equals the number of registered names. */
  predicate CountMatches(r: Registry)
  {
    r.count == |r.plugins|
  }

  /** register_plugin: the counter moves only when the name is new. */
  function AfterRegister(r: Registry, name: string): Registry
  {
    if name in r.plugins then r else Registry(r.plugins + {name}, r.count + 1)
  }

  /** unregister_plugin: the counter moves only when the name was present. */
  function AfterUnregister(r: Registry, name: string): Registry
  {
    if name in r.plugins then Registry(r.plugins - {name}, r.count - 1) else r
  }

  datatype RegistryCall = Register(name: string) | Unregister(name: string)

  function Replay(r: Registry, calls: seq<RegistryCall>): Registry
    decreases |calls|
  {
    if |calls| == 0 then r
    else
      var next := match calls[0]
        case Register(n) => AfterRegister(r, n)
        case Unregister(n) => AfterUnregister(r, n);
      Replay(next, calls[1..])
  }

  /** Whatever sequence of registrations and unregistrations plugins make,
      the counter keeps equal to the size of the name set (so it is never
      negative). */
  lemma {:induction false} ReplayKeepsCount(r: Registry, calls: seq<RegistryCall>)
    requires CountMatches(r)
    ensures CountMatches(Replay(r, calls)) && Replay(r, calls).count >= 0
    decreases |calls|
  {
    if |calls| > 0 {
      var next := match calls[0]
        case Register(n) => AfterRegister(r, n)
        case Unregister(n) => AfterUnregister(r, n);
      assert CountMatches(next);
      ReplayKeepsCount(next, calls[1..]);
    }
  }

  /** A duplicate registration and an unknown unregistration change nothing;
      unregistering a name just registered restores the registry. */
  lemma RegistrationInverse(r: Registry, name: string)
    ensures name in r.plugins ==> AfterRegister(r, name) == r
    ensures name !in r.plugins ==> AfterUnregister(r, name) == r
    ensures name !in r.plugins ==> AfterUnregister(AfterRegister(r, name), name) == r
  {
    if name !in r.plugins {
      assert (r.plugins + {name}) - {name} == r.plugins;
    }
  }

  // ---------------------------------------------------------------------
  // The thread table
  // ---------------------------------------------------------------------

  /** Per thread: the reference count, whether this library attached the
      thread, and the plugins currently using it. */
  datatype ThreadTable = ThreadTable(
    refCount: map<ThreadId, int>,
    attached: set<ThreadId>,
    plugins: map<ThreadId, set<string>>)

  /** get_thread_ref_count: 0 for a thread the table does not know. */
  function RefCountOf(t: ThreadTable, tid: ThreadId): int
  {
    if tid in t.refCount then t.refCount[tid] else 0
  }

  /** The plugin set of a thread (operator[] creates an empty one). */
  function PluginsOf(t: ThreadTable, tid: ThreadId): set<string>
  {
    if tid in t.plugins then t.plugins[tid] else {}
  }

  /** Every counted thread has a positive count and a plugin entry, and
      every thread this library attached is counted. */
  predicate TableInv(t: ThreadTable)
  {
    (forall tid :: tid in t.refCount ==> t.refCount[tid] >= 1) &&
    t.attached <= t.refCount.Keys &&
    t.plugins.Keys == t.refCount.Keys
  }

  /** acquire_jni_env_for_plugin for thread `tid` on a non-null JVM: an
      already attached thread gains one reference; a detached thread is
      attached, recorded as attached by us and counted once; any failure
      leaves the table alone and yields no environment. */
  function AfterAcquire(t: ThreadTable, tid: ThreadId, plugin: string, probe: EnvProbe): (ThreadTable, Option<JniEnv>)
  {
    match probe.getEnv
    case EnvOk(env) =>
      (ThreadTable(t.refCount[tid := RefCountOf(t, tid) + 1], t.attached,
                   t.plugins[tid := PluginsOf(t, tid) + {plugin}]), Some(env))
    case EnvDetached =>
      if probe.attach.Some? then
        (ThreadTable(t.refCount[tid := 1], t.attached + {tid},
                     t.plugins[tid := PluginsOf(t, tid) + {plugin}]), probe.attach)
      else (t, None)
    case EnvOtherError => (t, None)
  }

  /** release_jni_env_for_plugin for thread `tid` on a non-null JVM: an
      unknown thread is left alone; otherwise one reference and the plugin
      are dropped, and at zero the thread leaves the table, being detached
      (second component) only if this library attached it. */
  function AfterRelease(t: ThreadTable, tid: ThreadId, plugin: string): (ThreadTable, bool)
  {
    if tid !in t.refCount then (t, false)
    else
      var c := t.refCount[tid] - 1;
      if c <= 0 then
        (ThreadTable(t.refCount - {tid}, t.attached - {tid}, t.plugins - {tid}), tid in t.attached)
      else
        (ThreadTable(t.refCount[tid := c], t.attached, t.plugins[tid := PluginsOf(t, tid) - {plugin}]), false)
  }

  /** Acquiring keeps the table well formed. On success the thread's count
      rises by one (or becomes 1 right after attaching), the plugin is
      recorded, and no other thread's entry changes; on failure nothing
      changes. */
  lemma AcquireEffect(t: ThreadTable, tid: ThreadId, plugin: string, probe: EnvProbe)
    requires TableInv(t)
    ensures var (t', env) := AfterAcquire(t, tid, plugin, probe);
      TableInv(t') &&
      (env.None? <==> !probe.getEnv.EnvOk? && !(probe.getEnv.EnvDetached? && probe.attach.Some?)) &&
      (env.None? ==> t' == t) &&
      (probe.getEnv.EnvOk? ==> RefCountOf(t', tid) == RefCountOf(t, tid) + 1 && t'.attached == t.attached) &&
      (probe.getEnv.EnvDetached? && env.Some? ==> RefCountOf(t', tid) == 1 && t'.attached == t.attached + {tid}) &&
      (env.Some? ==> plugin in PluginsOf(t', tid)) &&
      (forall u :: u != tid ==> RefCountOf(t', u) == RefCountOf(t, u) && PluginsOf(t', u) == PluginsOf(t, u))
  {
  }

  /** Releasing keeps the table well formed; an unknown thread is left
      alone; otherwise the count drops by one, a thread still counted loses
      only this plugin from its set, the last reference removes the thread
      from the table, and the thread is detached
      exactly when this was its last reference and this library attached
      it: threads attached elsewhere are never detached. */
  lemma ReleaseEffect(t: ThreadTable, tid: ThreadId, plugin: string)
    requires TableInv(t)
    ensures var (t', detached) := AfterRelease(t, tid, plugin);
      TableInv(t') &&
      (tid !in t.refCount ==> t' == t && !detached) &&
      (tid in t.refCount ==> RefCountOf(t', tid) == RefCountOf(t, tid) - 1) &&
      (detached <==> tid in t.attached && RefCountOf(t, tid) == 1) &&
      (RefCountOf(t', tid) == 0 ==> tid !in t'.refCount && tid !in t'.attached && tid !in t'.plugins) &&
      (RefCountOf(t', tid) > 0 ==> PluginsOf(t', tid) == PluginsOf(t, tid) - {plugin} && tid in t'.refCount) &&
      (forall u :: u != tid ==>
         RefCountOf(t', u) == RefCountOf(t, u) && PluginsOf(t', u) == PluginsOf(t, u) &&
         (u in t'.attached <==> u in t.attached))
  {
  }

  /** The guard's protocol is balanced: when a thread the table counts is
      reported attached by the JVM, a successful acquire followed by the
      matching release restores every count and the attached set, detaches
      exactly when the acquire attached, and restores the plugin sets unless
      the plugin was already using the thread. */
  lemma {:induction false} AcquireReleaseBalanced(t: ThreadTable, tid: ThreadId, plugin: string, probe: EnvProbe)
    requires TableInv(t)
    requires tid in t.refCount ==> probe.getEnv.EnvOk?
    requires AfterAcquire(t, tid, plugin, probe).1.Some?
    ensures var (t2, detached) := AfterRelease(AfterAcquire(t, tid, plugin, probe).0, tid, plugin);
      t2.refCount == t.refCount && t2.attached == t.attached &&
      (detached <==> probe.getEnv.EnvDetached?) &&
      (plugin !in PluginsOf(t, tid) ==> t2.plugins == t.plugins)
  {
    var t1 := AfterAcquire(t, tid, plugin, probe).0;
    var t2 := AfterRelease(t1, tid, plugin).0;
    if tid in t.refCount {
      assert t2.refCount == t.refCount[tid := t.refCount[tid] + 1][tid := t.refCount[tid]];
      if plugin !in PluginsOf(t, tid) {
        assert (PluginsOf(t, tid) + {plugin}) - {plugin} == t.plugins[tid];
      }
    } else {
      assert tid !in t.attached && tid !in t.plugins;
      assert t2.refCount == t.refCount[tid := 1] - {tid};
      assert t2.refCount == t.refCount;
      assert t2.plugins == t.plugins;
      if probe.getEnv.EnvDetached? {
        assert t2.attached == (t.attached + {tid}) - {tid};
      }
    }
  }

  /** The table after the lifetime of one environment guard on thread
      `tid`, given the JVM it found: with a JVM, the acquire and, when it
      yielded an environment, the matching release; the second component is
      the environment the guard held. */
  function GuardedVisit(t: ThreadTable, jvm: Option<JavaVm>, tid: ThreadId, plugin: string, probe: EnvProbe)
    : (ThreadTable, Option<JniEnv>)
  {
    if jvm.None? then (t, None)
    else
      var (t1, env) := AfterAcquire(t, tid, plugin, probe);
      if env.None? then (t, None) else (AfterRelease(t1, tid, plugin).0, env)
  }

  /** A guard's whole lifetime leaves every thread's count and the attached
      set as it found them (for a thread the table already counts, the JVM
      reports it attached), and so does a guard that acquired nothing. */
  lemma GuardedVisitBalanced(t: ThreadTable, jvm: Option<JavaVm>, tid: ThreadId, plugin: string, probe: EnvProbe)
    requires TableInv(t)
    requires tid in t.refCount ==> probe.getEnv.EnvOk?
    ensures var (t2, env) := GuardedVisit(t, jvm, tid, plugin, probe);
            TableInv(t2) && t2.refCount == t.refCount && t2.attached == t.attached &&
            (env.None? ==> t2 == t)
  {
    if jvm.Some? && AfterAcquire(t, tid, plugin, probe).1.Some? {
      AcquireReleaseBalanced(t, tid, plugin, probe);
      AcquireEffect(t, tid, plugin, probe);
      ReleaseEffect(AfterAcquire(t, tid, plugin, probe).0, tid, plugin);
    }
  }

  /** The reference count is not changed by a release for a different
      thread, and a release of an acquired thread makes its count one
      lower: two guards on one thread need two releases to detach it. */
  lemma {:induction false} NestedGuardsDetachOnce(t: ThreadTable, tid: ThreadId, a: string, b: string, env: JniEnv, probe: EnvProbe)
    requires TableInv(t) && tid !in t.refCount
    requires probe.getEnv.EnvDetached? && probe.attach == Some(env)
    ensures var t1 := AfterAcquire(t, tid, a, probe).0;
            var t2 := AfterAcquire(t1, tid, b, EnvProbe(EnvOk(env), None)).0;
            var (t3, firstDetached) := AfterRelease(t2, tid, b);
            var (t4, secondDetached) := AfterRelease(t3, tid, a);
            !firstDetached && RefCountOf(t3, tid) == 1 && secondDetached && t4.refCount == t.refCount && t4.attached == t.attached
  {
    var t1 := AfterAcquire(t, tid, a, probe).0;
    var t2 := AfterAcquire(t1, tid, b, EnvProbe(EnvOk(env), None)).0;
    assert RefCountOf(t2, tid) == 2;
    var t3 := AfterRelease(t2, tid, b).0;
    assert RefCountOf(t3, tid) == 1 && tid in t3.attached;
    var t4 := AfterRelease(t3, tid, a).0;
    assert t4.refCount == t.refCount;
    assert t4.attached == t.attached;
  }

  // ---------------------------------------------------------------------
  // GlobalJVMManager
  // ---------------------------------------------------------------------

  /** The process-wide JVM registry of the common library. */
  class GlobalJVMManager {
    var sharedJvm: Option<JavaVm>
    var createdByUs: bool
    var registeredPlugins: set<string>
    var pluginCount: int
    /** The first caller's settings (None until the first get_or_create_jvm). */
    var configRecord: Option<JvmConfig>
    /** The option strings are function-local statics: built from the
        settings of the first creation attempt and never rebuilt. */
    var staticOptions: Option<seq<string>>
    /** The options handed to each JNI_CreateJavaVM call, in order. */
    ghost var creationLog: seq<seq<string>>

    function Slot(): JvmSlot
      reads this
    {
      JvmSlot(sharedJvm, createdByUs)
    }

    function Reg(): Registry
      reads this
    {
      Registry(registeredPlugins, pluginCount)
    }

    ghost predicate Valid()
      reads this
    {
      SlotInv(Slot()) && CountMatches(Reg()) &&
      (staticOptions.None? <==> creationLog == []) &&
      (forall i :: 0 <= i < |creationLog| ==> Some(creationLog[i]) == staticOptions)
    }

    constructor ()
      ensures Valid() && sharedJvm.None? && !createdByUs && registeredPlugins == {} && pluginCount == 0
      ensures configRecord.None? && staticOptions.None? && creationLog == []
    {
      sharedJvm, createdByUs := None, false;
      registeredPlugins, pluginCount := {}, 0;
      configRecord, staticOptions := None, None;
      creationLog := [];
    }

    /** get_or_create_jvm: record or check the settings, then reuse, adopt or
        create the JVM. Every JNI_CreateJavaVM call receives the options built
        at the first attempt, whatever settings later callers pass. */
    method GetOrCreateJvm(probe: VmProbe, classpath: string,
                          maxHeapMb: nat := DEFAULT_MAX_HEAP_MB, initHeapMb: nat := DEFAULT_INIT_HEAP_MB)
      returns (jvm: Option<JavaVm>)
      requires Valid()
      modifies this
      ensures Valid()
      ensures configRecord == ValidateConfig(old(configRecord), JvmConfig(classpath, maxHeapMb, initHeapMb)).0
      ensures (Slot(), jvm) == Obtain(old(Slot()), probe)
      ensures Reg() == old(Reg())
      ensures old(staticOptions).Some? ==> staticOptions == old(staticOptions)
      ensures staticOptions ==
                if CreationAttempted(old(Slot()), probe) && old(staticOptions).None?
                then Some(VmOptions(JvmConfig(classpath, maxHeapMb, initHeapMb)))
                else old(staticOptions)
      ensures creationLog ==
                old(creationLog) + if CreationAttempted(old(Slot()), probe) then [staticOptions.value] else []
    {
      var checked := ValidateConfig(configRecord, JvmConfig(classpath, maxHeapMb, initHeapMb));
      configRecord := checked.0;
      if sharedJvm.Some? {
        jvm := sharedJvm;
        return;
      }
      if probe.existing.Some? {
        sharedJvm := probe.existing;
        createdByUs := false;
        jvm := sharedJvm;
        return;
      }
      if staticOptions.None? {
        staticOptions := Some(VmOptions(JvmConfig(classpath, maxHeapMb, initHeapMb)));
      }
      creationLog := creationLog + [staticOptions.value];
      if probe.created.Some? {
        sharedJvm := probe.created;
        createdByUs := true;
        jvm := sharedJvm;
      } else {
        sharedJvm := None;
        jvm := None;
      }
    }

    /** register_plugin. The JVM is not touched. */
    method RegisterPlugin(name: string)
      requires Valid()
      modifies this`registeredPlugins, this`pluginCount
      ensures Valid()
      ensures Reg() == AfterRegister(old(Reg()), name)
    {
      if name !in registeredPlugins {
        registeredPlugins := registeredPlugins + {name};
        pluginCount := pluginCount + 1;
      }
    }

    /** unregister_plugin. Reaching zero keeps the JVM alive. */
    method UnregisterPlugin(name: string)
      requires Valid()
      modifies this`registeredPlugins, this`pluginCount
      ensures Valid()
      ensures Reg() == AfterUnregister(old(Reg()), name)
    {
      if name in registeredPlugins {
        registeredPlugins := registeredPlugins - {name};
        pluginCount := pluginCount - 1;
      }
    }

    /** get_plugin_count: the number of distinct registered plugins. */
    function GetPluginCount(): (n: int)
      reads this
      ensures Valid() ==> n == |registeredPlugins| && n >= 0
    {
      pluginCount
    }

    /** force_shutdown_jvm; `destroyed` says whether DestroyJavaVM ran. The
        settings record and the static options survive. */
    method ForceShutdownJvm() returns (destroyed: bool)
      requires Valid()
      modifies this`sharedJvm, this`createdByUs
      ensures Valid()
      ensures (Slot(), destroyed) == ForceShutdown(old(Slot()))
    {
      destroyed := false;
      if sharedJvm.Some? && createdByUs {
        destroyed := true;
        sharedJvm := None;
        createdByUs := false;
      }
    }

    /** get_jvm: the held handle, with no attempt to adopt or create one;
        a JVM this process created is always reported. */
    function GetJvm(): (jvm: Option<JavaVm>)
      reads this
      ensures jvm == Slot().handle
      ensures Valid() && createdByUs ==> jvm.Some?
    {
      sharedJvm
    }
  }

  // ---------------------------------------------------------------------
  // GlobalThreadManager
  // ---------------------------------------------------------------------

  /** The process-wide, reference-counted thread table of the common
      library. The plugin map is the one the implementation file defines and
      maintains (its declaration in the header is commented out). */
  class GlobalThreadManager {
    var globalThreadRefCount: map<ThreadId, int>
    var attachedThreads: set<ThreadId>
    var threadPluginMap: map<ThreadId, set<string>>

    function Table(): ThreadTable
      reads this
    {
      ThreadTable(globalThreadRefCount, attachedThreads, threadPluginMap)
    }

    ghost predicate Valid()
      reads this
    {
      TableInv(Table())
    }

    constructor ()
      ensures Valid() && Table() == ThreadTable(map[], {}, map[])
    {
      globalThreadRefCount, attachedThreads, threadPluginMap := map[], {}, map[];
    }

    /** acquire_jni_env_for_plugin, run by thread `tid`. */
    method AcquireJniEnvForPlugin(jvm: Option<JavaVm>, tid: ThreadId, pluginName: string, probe: EnvProbe)
      returns (env: Option<JniEnv>)
      requires Valid()
      modifies this
      ensures Valid()
      ensures jvm.None? ==> env.None? && Table() == old(Table())
      ensures jvm.Some? ==> (Table(), env) == AfterAcquire(old(Table()), tid, pluginName, probe)
    {
      AcquireEffect(Table(), tid, pluginName, probe);
      if jvm.None? {
        return None;
      }
      var plugins := if tid in threadPluginMap then threadPluginMap[tid] else {};
      match probe.getEnv {
        case EnvOk(e) =>
          var count := if tid in globalThreadRefCount then globalThreadRefCount[tid] else 0;
          globalThreadRefCount := globalThreadRefCount[tid := count + 1];
          threadPluginMap := threadPluginMap[tid := plugins + {pluginName}];
          env := Some(e);
        case EnvDetached =>
          if probe.attach.Some? {
            attachedThreads := attachedThreads + {tid};
            globalThreadRefCount := globalThreadRefCount[tid := 1];
            threadPluginMap := threadPluginMap[tid := plugins + {pluginName}];
            env := probe.attach;
          } else {
            env := None;
          }
        case EnvOtherError =>
          env := None;
      }
    }

    /** release_jni_env_for_plugin, run by thread `tid`; `detached` says
        whether DetachCurrentThread ran. */
    method ReleaseJniEnvForPlugin(jvm: Option<JavaVm>, tid: ThreadId, pluginName: string)
      returns (detached: bool)
      requires Valid()
      modifies this
      ensures Valid()
      ensures jvm.None? ==> !detached && Table() == old(Table())
      ensures jvm.Some? ==> (Table(), detached) == AfterRelease(old(Table()), tid, pluginName)
    {
      ReleaseEffect(Table(), tid, pluginName);
      detached := false;
      if jvm.None? || tid !in globalThreadRefCount {
        return;
      }
      var count := globalThreadRefCount[tid] - 1;
      globalThreadRefCount := globalThreadRefCount[tid := count];
      var plugins := if tid in threadPluginMap then threadPluginMap[tid] else {};
      threadPluginMap := threadPluginMap[tid := plugins - {pluginName}];
      if count <= 0 {
        if tid in attachedThreads {
          detached := true;
          attachedThreads := attachedThreads - {tid};
        } else {
          assert attachedThreads == attachedThreads - {tid};
        }
        globalThreadRefCount := globalThreadRefCount - {tid};
        threadPluginMap := threadPluginMap - {tid};
        assert globalThreadRefCount == old(globalThreadRefCount) - {tid};
        assert threadPluginMap == old(threadPluginMap) - {tid};
      }
    }

    /** get_thread_ref_count: 0 for a thread not in the table, otherwise
        its positive count. */
    function GetThreadRefCount(tid: ThreadId): (n: int)
      reads this
      ensures tid !in globalThreadRefCount ==> n == 0
      ensures Valid() ==> (n >= 1 <==> tid in globalThreadRefCount) && n >= 0
    {
      RefCountOf(Table(), tid)
    }

    /** get_attached_thread_count: never more than the counted threads. */
    function GetAttachedThreadCount(): (n: int)
      reads this
      ensures Valid() ==> 0 <= n <= |globalThreadRefCount|
    {
      SubsetCardinality(attachedThreads, globalThreadRefCount.Keys);
      |attachedThreads|
    }
  }

  lemma {:induction false} SubsetCardinality<T>(a: set<T>, b: set<T>)
    ensures a <= b ==> |a| <= |b|
  {
    if a <= b && a != {} {
      var x :| x in a;
      SubsetCardinality(a - {x}, b - {x});
    }
  }

  // ---------------------------------------------------------------------
  // ScopedJNIEnvironment
  // ---------------------------------------------------------------------

  /** The scoped environment guard: construction acquires an environment for
      the plugin on the constructing thread, destruction (Destroy) releases
      it. The ghost `live` flag stands for the object's lifetime, so Destroy
      runs once. */
  class ScopedJNIEnvironment {
    const pluginName: string
    const threadId: ThreadId
    const env: Option<JniEnv>
    const isValid: bool
    ghost var live: bool

    /** The guard's flag says exactly whether it holds an environment. */
    ghost predicate Valid()
      reads this
    {
      isValid <==> env.Some?
    }

    /** With a classpath the JVM is obtained through get_or_create_jvm; with
        none, only an existing JVM is used. The guard is valid iff an
        environment was acquired. */
    constructor (jvms: GlobalJVMManager, threads: GlobalThreadManager, tid: ThreadId,
                 vmProbe: VmProbe, envProbe: EnvProbe, pluginName: string, classpath: string := "",
                 maxHeapMb: nat := DEFAULT_MAX_HEAP_MB, initHeapMb: nat := DEFAULT_INIT_HEAP_MB)
      requires jvms.Valid() && threads.Valid()
      modifies jvms, threads
      ensures jvms.Valid() && threads.Valid()
      ensures live && this.pluginName == pluginName && threadId == tid
      ensures Valid()
      ensures classpath == [] ==> jvms.Slot() == old(jvms.Slot()) && jvms.configRecord == old(jvms.configRecord)
      ensures classpath != [] ==>
                jvms.Slot() == Obtain(old(jvms.Slot()), vmProbe).0 &&
                jvms.configRecord == ValidateConfig(old(jvms.configRecord), JvmConfig(classpath, maxHeapMb, initHeapMb)).0
      ensures jvms.Reg() == old(jvms.Reg())
      ensures var jvm := if classpath != [] then Obtain(old(jvms.Slot()), vmProbe).1 else old(jvms.sharedJvm);
              (jvm.None? ==> env.None? && threads.Table() == old(threads.Table())) &&
              (jvm.Some? ==> (threads.Table(), env) == AfterAcquire(old(threads.Table()), tid, pluginName, envProbe))
    {
      var jvm: Option<JavaVm>;
      if classpath != [] {
        jvm := jvms.GetOrCreateJvm(vmProbe, classpath, maxHeapMb, initHeapMb);
      } else {
        jvm := jvms.GetJvm();
      }
      var acquired: Option<JniEnv> := None;
      if jvm.Some? {
        acquired := threads.AcquireJniEnvForPlugin(jvm, tid, pluginName, envProbe);
      }
      this.pluginName := pluginName;
      threadId := tid;
      env := acquired;
      isValid := acquired.Some?;
      live := true;
    }

    /** get(): the environment, null exactly when the guard is invalid. */
    function Get(): (e: Option<JniEnv>)
      reads this
      ensures Valid() ==> (e.None? <==> !IsValid())
    {
      env
    }

    /** operator bool: the same answer as is_valid(). */
    function AsBool(): (b: bool)
      reads this
      ensures b == IsValid()
    {
      isValid
    }

    /** is_valid(). */
    function IsValid(): bool
      reads this
    {
      isValid
    }

    /** The destructor: releases once, iff an environment was acquired and a
        JVM still exists. */
    method Destroy(jvms: GlobalJVMManager, threads: GlobalThreadManager) returns (released: bool)
      requires live && Valid() && threads.Valid()
      modifies this`live, threads
      ensures !live && threads.Valid()
      ensures released <==> env.Some? && jvms.sharedJvm.Some?
      ensures released ==> threads.Table() == AfterRelease(old(threads.Table()), threadId, pluginName).0
      ensures !released ==> threads.Table() == old(threads.Table())
    {
      released := false;
      if env.Some? {
        var jvm := jvms.GetJvm();
        if jvm.Some? {
          var _ := threads.ReleaseJniEnvForPlugin(jvm, threadId, pluginName);
          released := true;
        }
      }
      live := false;
    }
  }

  // ---------------------------------------------------------------------
  // JNIUtils::jstring_array_to_cpp_vector
  // ---------------------------------------------------------------------

  /** Convert a Java String[] into a vector, 32 elements per local frame.
      A null environment or array, or a failing GetArrayLength, returns -1
      before the vector is cleared. Otherwise the vector is rebuilt from the
      non-null elements in order (one whose GetStringUTFChars fails as the
      empty string), up to the first position where a frame
      push or an element fetch fails; the result is 0 iff there is none. No
      frame is left behind on any path, and each batch holds at most 32
      local references. */
  method JstringArrayToCppVector(env: Option<JniEnv>, jarray: Option<JavaStringArray>, faults: ArrayFaults,
                                 frames: LocalRefFrames, resultIn: seq<Bytes>)
    returns (rc: int, result: seq<Bytes>)
    modifies frames
    ensures frames.frames == old(frames.frames) && frames.outerRefs == old(frames.outerRefs)
    ensures env.None? || jarray.None? || faults.lengthFails ==> rc == -1 && result == resultIn
    ensures env.Some? && jarray.Some? && !faults.lengthFails ==>
              var stop := FirstFault(|jarray.value|, faults, 0);
              (rc == 0 || rc == -1) &&
              (rc == 0 <==> stop == |jarray.value|) &&
              result == NonNull(Decoded(jarray.value, faults.utfFails)[..stop])
    ensures rc == 0 && jarray.Some? ==>
              frames.pushLog == old(frames.pushLog) + seq(Batches(|jarray.value|), _ => BATCH_SIZE)
  {
    if env.None? || jarray.None? || faults.lengthFails {
      return -1, resultIn;
    }
    var ok;
    ok, result := ConvertBatches(jarray.value, faults, frames);
    rc := if ok then 0 else -1;
  }
}

=== FILE: jvm_lifecycle.dfy ===
/** The life cycle of the single JVM a process may host, as both generations
    of runtime registry implement it: the first-writer-wins configuration
    record, reuse / adoption / creation of the JVM, and forced shutdown.
    The registries themselves (GlobalJVMManager and JVMStateManager) are
    classes in their own modules that keep this state in fields. */
module JvmLifecycle {
  import opened Common

  /** The three settings a plugin asks the JVM to be created with. */
  datatype JvmConfig = JvmConfig(classpath: string, maxHeapMb: nat, initHeapMb: nat)

  // ---------------------------------------------------------------------
  // validate_config_consistency
  // ---------------------------------------------------------------------

  /** One consistency check against the record (None until the first call):
      the first call records its settings and succeeds; a later call leaves
      the record alone and succeeds iff all three settings match it. */
  function ValidateConfig(rec: Option<JvmConfig>, c: JvmConfig): (Option<JvmConfig>, bool)
  {
    match rec
    case None => (Some(c), true)
    case Some(first) =>
      var consistent :=
        c.classpath == first.classpath && c.maxHeapMb == first.maxHeapMb && c.initHeapMb == first.initHeapMb;
      (rec, consistent)
  }

  /** A run of checks: the final record and each call's answer. */
  function ValidateAll(rec: Option<JvmConfig>, calls: seq<JvmConfig>): (Option<JvmConfig>, seq<bool>)
    decreases |calls|
  {
    if |calls| == 0 then (rec, [])
    else
      var first := ValidateConfig(rec, calls[0]);
      var rest := ValidateAll(first.0, calls[1..]);
      (rest.0, [first.1] + rest.1)
  }

  /** Once recorded, the record never changes, and each later call succeeds
      exactly when it asks for the recorded settings. */
  lemma {:induction false} RecordIsFinal(first: JvmConfig, calls: seq<JvmConfig>)
    ensures ValidateAll(Some(first), calls).0 == Some(first)
    ensures |ValidateAll(Some(first), calls).1| == |calls|
    ensures forall i :: 0 <= i < |calls| ==> ValidateAll(Some(first), calls).1[i] == (calls[i] == first)
    decreases |calls|
  {
    if |calls| > 0 {
      RecordIsFinal(first, calls[1..]);
      var rest := ValidateAll(Some(first), calls[1..]);
      assert ValidateAll(Some(first), calls).1 == [calls[0] == first] + rest.1;
      forall i | 0 < i < |calls|
        ensures ValidateAll(Some(first), calls).1[i] == (calls[i] == first)
      {
        assert calls[1..][i - 1] == calls[i];
      }
    }
  }

  /** First writer wins: whatever order plugins start in, the record holds
      the first caller's settings, the first call succeeds, and every later
      call succeeds iff its settings equal the first caller's. */
  lemma FirstWriterWins(calls: seq<JvmConfig>)
    requires |calls| > 0
    ensures ValidateAll(None, calls).0 == Some(calls[0])
    ensures |ValidateAll(None, calls).1| == |calls|
    ensures ValidateAll(None, calls).1[0]
    ensures forall i :: 0 < i < |calls| ==> ValidateAll(None, calls).1[i] == (calls[i] == calls[0])
  {
    RecordIsFinal(calls[0], calls[1..]);
    var rest := ValidateAll(Some(calls[0]), calls[1..]);
    assert ValidateAll(None, calls).1 == [true] + rest.1;
    forall i | 0 < i < |calls|
      ensures ValidateAll(None, calls).1[i] == (calls[i] == calls[0])
    {
      assert calls[1..][i - 1] == calls[i];
    }
  }

  // ---------------------------------------------------------------------
  // get_or_create_jvm and force_shutdown_jvm
  // ---------------------------------------------------------------------

  /** The registry's JVM handle and whether this code created that JVM. */
  datatype JvmSlot = JvmSlot(handle: Option<JavaVm>, createdByUs: bool)

  /** The registry only ever claims ownership of a JVM it holds. */
  predicate SlotInv(s: JvmSlot)
  {
    s.createdByUs ==> s.handle.Some?
  }

  /** Whether a call reaches JNI_CreateJavaVM: no JVM is held and none runs
      in the process. */
  predicate CreationAttempted(s: JvmSlot, probe: VmProbe)
  {
    s.handle.None? && probe.existing.None?
  }

  /** The handle step of get_or_create_jvm (after the configuration check):
      reuse the held JVM, else adopt one already running in the process
      (not ours), else create one (ours); a failed creation leaves no JVM
      held. Returns the new slot and the JVM handed to the caller. */
  function Obtain(s: JvmSlot, probe: VmProbe): (JvmSlot, Option<JavaVm>)
  {
    if s.handle.Some? then (s, s.handle)
    else if probe.existing.Some? then (JvmSlot(probe.existing, false), probe.existing)
    else if probe.created.Some? then (JvmSlot(probe.created, true), probe.created)
    else (JvmSlot(None, s.createdByUs), None)
  }

  /** The caller always receives the handle the registry now holds, and the
      ownership invariant is kept. */
  lemma ObtainHandsOutHeldJvm(s: JvmSlot, probe: VmProbe)
    requires SlotInv(s)
    ensures Obtain(s, probe).1 == Obtain(s, probe).0.handle
    ensures SlotInv(Obtain(s, probe).0)
  {
  }

  /** Reuse, adoption and creation: a held JVM comes back unchanged; with none
      held, an adopted JVM is marked as not ours, a created one as ours, and
      a failed creation hands out nothing. */
  lemma ObtainCases(s: JvmSlot, probe: VmProbe)
    requires SlotInv(s)
    ensures s.handle.Some? ==> Obtain(s, probe) == (s, s.handle)
    ensures s.handle.None? && probe.existing.Some? ==> Obtain(s, probe).0 == JvmSlot(probe.existing, false)
    ensures CreationAttempted(s, probe) ==> Obtain(s, probe).0 == JvmSlot(probe.created, probe.created.Some?)
    ensures Obtain(s, probe).1.None? <==> CreationAttempted(s, probe) && probe.created.None?
  {
  }

  /** Once a JVM is held, every later call returns that same JVM, whatever
      the runtime would answer, and changes nothing. */
  lemma ObtainIsStable(s: JvmSlot, p: VmProbe, q: VmProbe)
    requires Obtain(s, p).1.Some?
    ensures Obtain(Obtain(s, p).0, q) == (Obtain(s, p).0, Obtain(s, p).1)
  {
  }

  /** force_shutdown_jvm: destroy the JVM only when one is held and this code
      created it; the second component says whether DestroyJavaVM ran. */
  function ForceShutdown(s: JvmSlot): (JvmSlot, bool)
  {
    if s.handle.Some? && s.createdByUs then (JvmSlot(None, false), true)
    else (s, false)
  }

  /** An adopted JVM survives a forced shutdown; an owned one is gone
      afterwards and ownership is cleared; a second shutdown does nothing. */
  lemma ForceShutdownSparesAdopted(s: JvmSlot)
    requires SlotInv(s)
    ensures !s.createdByUs ==> ForceShutdown(s) == (s, false)
    ensures s.createdByUs ==> ForceShutdown(s) == (JvmSlot(None, false), true)
    ensures SlotInv(ForceShutdown(s).0)
    ensures ForceShutdown(ForceShutdown(s).0) == (ForceShutdown(s).0, false)
  {
  }

  // ---------------------------------------------------------------------
  // The options passed to JNI_CreateJavaVM
  // ---------------------------------------------------------------------

  /** std::to_string of a size. */
  function Decimal(n: nat): string
  {
    if n < 10 then [Digit(n)] else Decimal(n / 10) + [Digit(n % 10)]
  }

  function Digit(d: nat): (c: char)
    requires d < 10
    ensures '0' <= c <= '9'
  {
    ('0' as int + d) as char
  }

  /** The number a string of decimal digits denotes, read left to right. */
  function DecimalValue(s: string): nat
  {
    if s == [] then 0
    else DecimalValue(s[..|s| - 1]) * 10 + (if '0' <= s[|s| - 1] <= '9' then s[|s| - 1] as int - '0' as int else 0)
  }

  /** Decimal writes at least one digit, only digits, and reads back as the
      number it was given. */
  lemma {:induction false} DecimalRoundTrip(n: nat)
    ensures Decimal(n) != []
    ensures forall i :: 0 <= i < |Decimal(n)| ==> '0' <= Decimal(n)[i] <= '9'
    ensures DecimalValue(Decimal(n)) == n
  {
    if n >= 10 {
      DecimalRoundTrip(n / 10);
      var s := Decimal(n);
      assert s[..|s| - 1] == Decimal(n / 10);
    }
  }

  /** The five option strings of a creation request. */
  function VmOptions(c: JvmConfig): (opts: seq<string>)
    ensures |opts| == 5
  {
    ["-Djava.class.path=" + c.classpath,
     "-Xmx" + Decimal(c.maxHeapMb) + "m",
     "-Xms" + Decimal(c.initHeapMb) + "m",
     "-XX:+UseG1GC",
     "-Dfile.encoding=UTF-8"]
  }

  /** The options carry the settings: the class path follows its 18-character
      prefix, and each heap option reads back as its size in MB between the
      four-character flag and the unit suffix. */
  lemma VmOptionsCarryConfig(c: JvmConfig)
    ensures var opts := VmOptions(c);
      opts[0][18..] == c.classpath &&
      |opts[1]| > 5 && opts[1][..4] == "-Xmx" && opts[1][|opts[1]| - 1] == 'm' &&
      DecimalValue(opts[1][4..|opts[1]| - 1]) == c.maxHeapMb &&
      |opts[2]| > 5 && opts[2][..4] == "-Xms" && opts[2][|opts[2]| - 1] == 'm' &&
      DecimalValue(opts[2][4..|opts[2]| - 1]) == c.initHeapMb
  {
    var opts := VmOptions(c);
    DecimalRoundTrip(c.maxHeapMb);
    DecimalRoundTrip(c.initHeapMb);
    assert opts[1][4..|opts[1]| - 1] == Decimal(c.maxHeapMb);
    assert opts[2][4..|opts[2]| - 1] == Decimal(c.initHeapMb);
  }
}

=== FILE: korean_jni_bridge.dfy ===
/** The older plugin generation's JNI layer, as the Korean plugin implements
    it: a per-plugin JVM registry with a bare instance counter
    (JVMStateManager), a thread table without reference counts
    (ThreadStateManager), the bridge that loads the segmenter and segments
    text (JNIBridge), and the bridge singleton (JNIBridgeManager). Mutexes
    are left out; each operation is one atomic step on behalf of an
    explicit thread. */
module KoreanJniBridge {
  import opened Common
  import opened JvmLifecycle
  import opened StringArray
  import opened ThaiJniBridgeH

  // The messages set_error records (without the appended exception text).
  const MSG_CREATE_OR_ATTACH: string := "Failed to create or attach to JVM"
  const MSG_LOAD_CLASSES: string := "Failed to load Java classes"
  const MSG_GET_OR_CREATE_JVM: string := "Failed to get or create JVM"
  const MSG_NO_THREAD_ENV: string := "Failed to get JNI environment for current thread"
  const MSG_NO_CLASS: string := "Cannot find Java class"
  const MSG_NO_GLOBAL_REF: string := "Failed to create global reference for segmenter class"
  const MSG_NO_CONSTRUCTOR: string := "Cannot find constructor for segmenter class"
  const MSG_NO_METHOD: string := "Cannot find method"
  const MSG_NO_JVM: string := "JVM is not initialized"
  const MSG_NOT_INITIALIZED: string := "JNI Bridge not initialized"
  const MSG_NO_FRAME: string := "Failed to push JNI local reference frame"
  const MSG_NO_JAVA_TEXT: string := "Failed to convert text to Java string"
  const MSG_NO_INSTANCE: string := "Failed to create local segmenter instance"
  const MSG_NULL_RESULT: string := "Java segmentation method returned null"

  // ---------------------------------------------------------------------
  // JVMStateManager
  // ---------------------------------------------------------------------

  /** The process-wide JVM registry of the older generation. */
  class JVMStateManager {
    var globalJvm: Option<JavaVm>
    var createdByUs: bool
    /** The instance counter: a bare atomic integer, not tied to any name. */
    var instanceCount: int
    var configRecord: Option<JvmConfig>
    /** The options handed to each JNI_CreateJavaVM call, in order. */
    ghost var creationLog: seq<seq<string>>

    function Slot(): JvmSlot
      reads this
    {
      JvmSlot(globalJvm, createdByUs)
    }

    ghost predicate Valid()
      reads this
    {
      SlotInv(Slot())
    }

    constructor ()
      ensures Valid() && globalJvm.None? && !createdByUs && instanceCount == 0
      ensures configRecord.None? && creationLog == []
    {
      globalJvm, createdByUs, instanceCount := None, false, 0;
      configRecord := None;
      creationLog := [];
    }

    /** validate_config_consistency: first writer wins. */
    method ValidateConfigConsistency(c: JvmConfig) returns (consistent: bool)
      modifies this`configRecord
      ensures (configRecord, consistent) == ValidateConfig(old(configRecord), c)
    {
      if configRecord.None? {
        configRecord := Some(c);
        return true;
      }
      var first := configRecord.value;
      consistent := true;
      if c.classpath != first.classpath {
        consistent := false;
      }
      if c.maxHeapMb != first.maxHeapMb {
        consistent := false;
      }
      if c.initHeapMb != first.initHeapMb {
        consistent := false;
      }
    }

    /** get_or_create_jvm: check the settings (a mismatch is only reported),
        then reuse, adopt or create. Unlike the common library, each
        creation attempt builds its options from the settings of that call. */
    method GetOrCreateJvm(probe: VmProbe, classpath: string, maxHeapMb: nat, initHeapMb: nat)
      returns (jvm: Option<JavaVm>)
      requires Valid()
      modifies this`globalJvm, this`createdByUs, this`configRecord, this`creationLog
      ensures Valid()
      ensures configRecord == ValidateConfig(old(configRecord), JvmConfig(classpath, maxHeapMb, initHeapMb)).0
      ensures (Slot(), jvm) == Obtain(old(Slot()), probe)
      ensures creationLog ==
                old(creationLog) +
                if CreationAttempted(old(Slot()), probe) then [VmOptions(JvmConfig(classpath, maxHeapMb, initHeapMb))] else []
    {
      var _ := ValidateConfigConsistency(JvmConfig(classpath, maxHeapMb, initHeapMb));
      if globalJvm.Some? {
        return globalJvm;
      }
      if probe.existing.Some? {
        globalJvm := probe.existing;
        createdByUs := false;
        return globalJvm;
      }
      creationLog := creationLog + [VmOptions(JvmConfig(classpath, maxHeapMb, initHeapMb))];
      if probe.created.None? {
        globalJvm := None;
        return None;
      }
      globalJvm := probe.created;
      createdByUs := true;
      jvm := globalJvm;
    }

    /** register_instance: one more, whoever asks. */
    method RegisterInstance()
      modifies this`instanceCount
      ensures instanceCount == old(instanceCount) + 1
    {
      instanceCount := instanceCount + 1;
    }

    /** unregister_instance: one less, with no lower bound; reaching zero
        keeps the JVM alive. */
    method UnregisterInstance()
      modifies this`instanceCount
      ensures instanceCount == old(instanceCount) - 1
    {
      instanceCount := instanceCount - 1;
    }

    /** get_instance_count. */
    function GetInstanceCount(): int
      reads this
    {
      instanceCount
    }

    /** force_shutdown_jvm: destroys only a JVM this registry created. */
    method ForceShutdownJvm() returns (destroyed: bool)
      requires Valid()
      modifies this`globalJvm, this`createdByUs
      ensures Valid()
      ensures (Slot(), destroyed) == ForceShutdown(old(Slot()))
    {
      destroyed := false;
      if globalJvm.Some? && createdByUs {
        destroyed := true;
        globalJvm := None;
        createdByUs := false;
      }
    }
  }

  // ---------------------------------------------------------------------
  // ThreadStateManager
  // ---------------------------------------------------------------------

  /** get_jni_env_for_current_thread for thread `tid`: with no JVM nothing
      happens; a thread the JVM reports attached gets its environment but is
      not recorded; a detached thread is attached and recorded; any failure
      yields no environment and changes nothing. */
  function AfterGetEnv(attached: set<ThreadId>, jvm: Option<JavaVm>, tid: ThreadId, probe: EnvProbe)
    : (set<ThreadId>, Option<JniEnv>)
  {
    if jvm.None? then (attached, None)
    else match probe.getEnv
      case EnvOk(env) => (attached, Some(env))
      case EnvDetached => if probe.attach.Some? then (attached + {tid}, probe.attach) else (attached, None)
      case EnvOtherError => (attached, None)
  }

  /** cleanup_current_thread for thread `tid`: a thread this manager attached
      is forgotten and detached (second component); any other is left alone. */
  function AfterCleanup(attached: set<ThreadId>, jvm: Option<JavaVm>, tid: ThreadId): (set<ThreadId>, bool)
  {
    if jvm.None? then (attached, false)
    else (attached - {tid}, tid in attached)
  }

  /** Only the attach performed by this call is recorded; every other thread
      is untouched, and no environment means no change. */
  lemma GetEnvRecordsOwnAttachOnly(attached: set<ThreadId>, jvm: Option<JavaVm>, tid: ThreadId, probe: EnvProbe)
    ensures var (a, env) := AfterGetEnv(attached, jvm, tid, probe);
      (a == attached + {tid} <==> jvm.Some? && probe.getEnv.EnvDetached? && probe.attach.Some?) || tid in attached
    ensures var (a, env) := AfterGetEnv(attached, jvm, tid, probe);
      (env.None? ==> a == attached) && (a == attached || a == attached + {tid}) &&
      (env.Some? <==> jvm.Some? && (probe.getEnv.EnvOk? || (probe.getEnv.EnvDetached? && probe.attach.Some?)))
  {
  }

  /** Cleanup detaches exactly the threads this manager attached, and a
      second cleanup of the same thread does nothing. */
  lemma CleanupIsIdempotent(attached: set<ThreadId>, jvm: Option<JavaVm>, tid: ThreadId)
    ensures var (a, detached) := AfterCleanup(attached, jvm, tid);
      (detached <==> jvm.Some? && tid in attached) &&
      (jvm.Some? ==> a == attached - {tid}) && (jvm.None? ==> a == attached)
    ensures var a := AfterCleanup(attached, jvm, tid).0;
      AfterCleanup(a, jvm, tid) == (a, false)
  {
    if jvm.Some? {
      assert (attached - {tid}) - {tid} == attached - {tid};
    }
  }

  /** Without reference counts, one user's cleanup detaches a thread that
      another user is still using: a first bridge attaches the thread, a
      second use finds it attached, and the first cleanup detaches it. */
  lemma OneCleanupDetachesSharedThread(attached: set<ThreadId>, jvm: JavaVm, tid: ThreadId, env: JniEnv)
    requires tid !in attached
    ensures var (a1, e1) := AfterGetEnv(attached, Some(jvm), tid, EnvProbe(EnvDetached, Some(env)));
            var (a2, e2) := AfterGetEnv(a1, Some(jvm), tid, EnvProbe(EnvOk(env), None));
            var (a3, detached) := AfterCleanup(a2, Some(jvm), tid);
            e1 == Some(env) && e2 == Some(env) && detached && a3 == attached
  {
    assert (attached + {tid}) - {tid} == attached;
  }

  /** The older generation's thread table: only the set of threads it
      attached. */
  class ThreadStateManager {
    var attachedThreads: set<ThreadId>

    constructor ()
      ensures attachedThreads == {}
    {
      attachedThreads := {};
    }

    /** get_jni_env_for_current_thread, run by thread `tid`. */
    method GetJniEnvForCurrentThread(jvm: Option<JavaVm>, tid: ThreadId, probe: EnvProbe)
      returns (env: Option<JniEnv>)
      modifies this
      ensures (attachedThreads, env) == AfterGetEnv(old(attachedThreads), jvm, tid, probe)
    {
      if jvm.None? {
        return None;
      }
      match probe.getEnv {
        case EnvOk(e) =>
          env := Some(e);
        case EnvDetached =>
          if probe.attach.None? {
            return None;
          }
          attachedThreads := attachedThreads + {tid};
          env := probe.attach;
        case EnvOtherError =>
          env := None;
      }
    }

    /** cleanup_current_thread, run by thread `tid`; `detached` says whether
        DetachCurrentThread ran. */
    method CleanupCurrentThread(jvm: Option<JavaVm>, tid: ThreadId) returns (detached: bool)
      modifies this
      ensures (attachedThreads, detached) == AfterCleanup(old(attachedThreads), jvm, tid)
    {
      if jvm.None? {
        return false;
      }
      detached := false;
      if tid in attachedThreads {
        attachedThreads := attachedThreads - {tid};
        detached := true;
      } else {
        assert attachedThreads == attachedThreads - {tid};
      }
    }

    /** get_attached_thread_count: how many threads this manager attached
        and has not yet detached. */
    function GetAttachedThreadCount(): (n: int)
      reads this
      ensures n >= 0 && (n == 0 <==> attachedThreads == {})
    {
      |attachedThreads|
    }
  }

  // ---------------------------------------------------------------------
  // JNIBridge
  // ---------------------------------------------------------------------

  /** The thread-local environment pointer after thread `tid` stores `env`
      (None stands for nullptr). */
  function SetEnv(m: map<ThreadId, JniEnv>, tid: ThreadId, env: Option<JniEnv>): map<ThreadId, JniEnv>
  {
    if env.Some? then m[tid := env.value] else m - {tid}
  }

  /** The capacity of the frame a segmentation call pushes. */
  const SEGMENT_FRAME_CAPACITY: nat := 64

  /** What segment returns once the bridge is initialised and the calling
      thread has an environment: empty text yields no tokens and success
      without touching the runtime; otherwise see FrameOutcome. */
  function SegmentOutcome(text: Bytes, probe: SegmentProbe): (Status, seq<Bytes>)
  {
    if |text| == 0 then (Success, []) else FrameOutcome(probe)
  }

  /** The work done inside the 64-slot frame: the token vector is cleared
      and each step (frame, Java string, segmenter instance, call, non-null
      result) must succeed before the result array is converted; the
      conversion keeps the strings read before its first failure. */
  function FrameOutcome(probe: SegmentProbe): (Status, seq<Bytes>)
  {
    if !probe.framePushOk || !probe.textConverted || !probe.instanceCreated then (PluginError, [])
    else match probe.call
      case Threw => (PluginError, [])
      case Returned(None) => (PluginError, [])
      case Returned(Some(arr)) =>
        if probe.faults.lengthFails then (PluginError, [])
        else
          var stop := FirstFault(|arr|, probe.faults, 0);
          (if stop == |arr| then Success else PluginError, NonNull(Decoded(arr, probe.faults.utfFails)[..stop]))
  }

  /** Segmentation succeeds exactly for empty text or when every step and the
      whole conversion succeed, and then yields every non-null string of the
      Java result in order (empty strings included, and "" for one whose
      GetStringUTFChars fails); any failure yields the
      plugin error and at most the strings read before it. */
  lemma SegmentOutcomeCases(text: Bytes, probe: SegmentProbe)
    ensures var (ret, tokens) := SegmentOutcome(text, probe);
      (ret == Success || ret == PluginError) &&
      (ret == Success <==>
         |text| == 0 ||
         (probe.framePushOk && probe.textConverted && probe.instanceCreated &&
          probe.call.Returned? && probe.call.result.Some? && !probe.faults.lengthFails &&
          FirstFault(|probe.call.result.value|, probe.faults, 0) == |probe.call.result.value|)) &&
      (ret == Success && |text| > 0 ==> tokens == NonNull(Decoded(probe.call.result.value, probe.faults.utfFails))) &&
      (probe.call.Returned? && probe.call.result.Some? ==> |tokens| <= |probe.call.result.value|)
  {
    if probe.call.Returned? && probe.call.result.Some? {
      var d := Decoded(probe.call.result.value, probe.faults.utfFails);
      NonNullLength(d[..FirstFault(|d|, probe.faults, 0)]);
      assert d[..|d|] == d;
    }
  }

  /** When the Java segmenter returns N non-null strings and no frame push
      or element fetch fails, segment succeeds with N strings in order: each
      is the Java string, or the empty string where GetStringUTFChars
      failed; with no such failure they are exactly the N strings. */
  lemma SegmentReturnsJavaTokens(text: Bytes, xs: seq<Bytes>, probe: SegmentProbe)
    requires |text| > 0 && probe.framePushOk && probe.textConverted && probe.instanceCreated
    requires probe.call == Returned(Some(Present(xs)))
    requires !probe.faults.lengthFails && probe.faults.pushFails == {} && probe.faults.elementFails == {}
    ensures var (ret, tokens) := SegmentOutcome(text, probe);
      ret == Success && |tokens| == |xs| &&
      forall i :: 0 <= i < |xs| ==> tokens[i] == (if i in probe.faults.utfFails then [] else xs[i])
    ensures probe.faults.utfFails == {} ==> SegmentOutcome(text, probe) == (Success, xs)
  {
    var d := Decoded(Present(xs), probe.faults.utfFails);
    assert FirstFault(|xs|, probe.faults, 0) == |xs|;
    assert d[..|d|] == d;
    NonNullOfPresentDecoded(xs, probe.faults.utfFails);
    if probe.faults.utfFails == {} {
      var tokens := SegmentOutcome(text, probe).1;
      assert forall i :: 0 <= i < |xs| ==> tokens[i] == xs[i];
      assert tokens == xs;
    }
  }

  /** The bridge of the older generation. `threadEnv` is the thread-local
      environment pointer, one entry per thread that holds a non-null one;
      `globalClassRef` says whether the segmenter class is held as a global
      reference. The error record is the header's JNIErrorInfo. */
  class JNIBridge {
    const config: JNIBridgeConfig
    const lastError: JNIErrorInfo
    var jvm: Option<JavaVm>
    var isInitialized: bool
    var jvmCreatedByUs: bool
    var threadEnv: map<ThreadId, JniEnv>
    var globalClassRef: bool

    /** An initialised bridge holds a JVM and the segmenter class. Nothing
        is promised of one that is not: a fresh or cleaned-up bridge holds
        no JVM, but a failed initialisation keeps the JVM it obtained. */
    ghost predicate Valid()
      reads this
    {
      isInitialized ==> jvm.Some? && globalClassRef
    }

    constructor (config: JNIBridgeConfig)
      ensures this.config == config && fresh(lastError)
      ensures jvm.None? && !isInitialized && !jvmCreatedByUs && threadEnv == map[] && !globalClassRef
      ensures !lastError.HasError() && Valid()
    {
      this.config := config;
      lastError := new JNIErrorInfo();
      jvm := None;
      isInitialized, jvmCreatedByUs := false, false;
      threadEnv := map[];
      globalClassRef := false;
    }

    /** The settings this bridge asks the registry for. */
    function Settings(): JvmConfig
      reads this
    {
      JvmConfig(config.javaClassPath, config.jvmMaxHeapMb, config.jvmInitHeapMb)
    }

    /** initialize. An initialised bridge returns success and changes
        nothing. Otherwise the JVM is obtained, the instance registered and
        the thread's environment fetched; then the classes are loaded. When
        loading fails, cleanup() returns at once (the bridge is not yet
        initialised), so the registration is kept. */
    method Initialize(states: JVMStateManager, threads: ThreadStateManager, tid: ThreadId,
                      vmProbe: VmProbe, envProbe: EnvProbe, classProbe: ClassProbe)
      returns (ret: Status)
      requires states.Valid() && Valid()
      modifies this, lastError, states, threads
      ensures states.Valid() && Valid()
      ensures old(isInitialized) ==>
                ret == Success && unchanged(this, lastError, states, threads)
      ensures !old(isInitialized) ==>
                var (slot, got) := Obtain(old(states.Slot()), vmProbe);
                var (attached, env) := AfterGetEnv(old(threads.attachedThreads), got, tid, envProbe);
                states.configRecord == ValidateConfig(old(states.configRecord), old(Settings())).0 &&
                states.Slot() == slot && jvm == got && threads.attachedThreads == attached &&
                (got.None? ==> threadEnv == old(threadEnv)) &&
                (got.Some? ==> threadEnv == SetEnv(old(threadEnv), tid, env)) &&
                (isInitialized <==> ret == Success) &&
                (ret == Success <==> env.Some? && AllResolved(classProbe)) &&
                (ret == Success || ret == PluginError) && lastError.errorCode == ret &&
                states.instanceCount == old(states.instanceCount) + (if env.Some? then 1 else 0)
    {
      if isInitialized {
        return Success;
      }
      lastError.Clear();
      ret := CreateOrAttachJvm(states, threads, tid, vmProbe, envProbe);
      if ret != Success {
        lastError.Set(ret, MSG_CREATE_OR_ATTACH);
        return ret;
      }
      ret := LoadJavaClasses(tid, classProbe);
      if ret != Success {
        lastError.Set(ret, MSG_LOAD_CLASSES);
        Cleanup(states, threads, tid);
        return ret;
      }
      isInitialized := true;
    }

    /** create_or_attach_jvm: obtain the JVM, register this instance, fetch
        the thread's environment; without one the registration is undone. */
    method CreateOrAttachJvm(states: JVMStateManager, threads: ThreadStateManager, tid: ThreadId,
                             vmProbe: VmProbe, envProbe: EnvProbe)
      returns (ret: Status)
      requires states.Valid()
      modifies this`jvm, this`threadEnv, this`jvmCreatedByUs, lastError, states, threads
      ensures states.Valid()
      ensures var (slot, got) := Obtain(old(states.Slot()), vmProbe);
              var (attached, env) := AfterGetEnv(old(threads.attachedThreads), got, tid, envProbe);
              states.configRecord == ValidateConfig(old(states.configRecord), Settings()).0 &&
              states.Slot() == slot && jvm == got && threads.attachedThreads == attached &&
              (got.None? ==> threadEnv == old(threadEnv)) &&
              (got.Some? ==> threadEnv == SetEnv(old(threadEnv), tid, env)) &&
              (ret == Success <==> env.Some?) && (ret == Success || ret == PluginError) &&
              (ret == PluginError ==> lastError.errorCode == PluginError) &&
              (ret == Success ==> lastError.errorCode == old(lastError.errorCode) && !jvmCreatedByUs) &&
              states.instanceCount == old(states.instanceCount) + (if env.Some? then 1 else 0)
    {
      jvm := states.GetOrCreateJvm(vmProbe, config.javaClassPath, config.jvmMaxHeapMb, config.jvmInitHeapMb);
      if jvm.None? {
        lastError.Set(PluginError, MSG_GET_OR_CREATE_JVM);
        return PluginError;
      }
      states.RegisterInstance();
      var env := threads.GetJniEnvForCurrentThread(jvm, tid, envProbe);
      threadEnv := SetEnv(threadEnv, tid, env);
      if env.None? {
        lastError.Set(PluginError, MSG_NO_THREAD_ENV);
        states.UnregisterInstance();
        return PluginError;
      }
      jvmCreatedByUs := false;
      ret := Success;
    }

    /** load_java_classes: find the class and hold it globally, then look up
        the constructor and the segment method. The global reference stays
        held when a later lookup fails. */
    method LoadJavaClasses(tid: ThreadId, classProbe: ClassProbe) returns (ret: Status)
      modifies this`globalClassRef, lastError
      ensures ret == (if AllResolved(classProbe) then Success else PluginError)
      ensures globalClassRef == (classProbe.classFound && classProbe.globalRefOk)
      ensures ret == PluginError ==> lastError.errorCode == PluginError
      ensures ret == Success ==> lastError.errorCode == old(lastError.errorCode)
    {
      globalClassRef := false;
      if !classProbe.classFound {
        lastError.Set(PluginError, MSG_NO_CLASS);
        return PluginError;
      }
      if !classProbe.globalRefOk {
        lastError.Set(PluginError, MSG_NO_GLOBAL_REF);
        return PluginError;
      }
      globalClassRef := true;
      if !classProbe.ctorFound {
        lastError.Set(PluginError, MSG_NO_CONSTRUCTOR);
        return PluginError;
      }
      if !classProbe.methodFound {
        lastError.Set(PluginError, MSG_NO_METHOD);
        return PluginError;
      }
      ret := Success;
    }

    /** ensure_jni_attached, run by thread `tid`. */
    method EnsureJniAttached(threads: ThreadStateManager, tid: ThreadId, envProbe: EnvProbe)
      returns (ret: Status)
      modifies this`threadEnv, lastError, threads
      ensures jvm.None? ==>
                ret == PluginError && threadEnv == old(threadEnv) && threads.attachedThreads == old(threads.attachedThreads)
      ensures jvm.Some? ==>
                var (attached, env) := AfterGetEnv(old(threads.attachedThreads), jvm, tid, envProbe);
                threads.attachedThreads == attached && threadEnv == SetEnv(old(threadEnv), tid, env) &&
                (ret == Success <==> env.Some?) && (ret == Success || ret == PluginError)
      ensures ret == PluginError ==> lastError.errorCode == PluginError
    {
      if jvm.None? {
        lastError.Set(PluginError, MSG_NO_JVM);
        return PluginError;
      }
      var env := threads.GetJniEnvForCurrentThread(jvm, tid, envProbe);
      threadEnv := SetEnv(threadEnv, tid, env);
      if env.None? {
        lastError.Set(PluginError, MSG_NO_THREAD_ENV);
        return PluginError;
      }
      ret := Success;
    }

    /** segment, run by thread `tid` whose environment's local frames are
        `frames`; `tokensIn` is the caller's vector. Every frame pushed is
        popped on every path, and the 64-slot frame never holds more than its
        three references (text, segmenter, result). */
    method Segment(threads: ThreadStateManager, tid: ThreadId, envProbe: EnvProbe, frames: LocalRefFrames,
                   text: Bytes, probe: SegmentProbe, tokensIn: seq<Bytes>)
      returns (ret: Status, tokens: seq<Bytes>)
      modifies this`threadEnv, lastError, threads, frames
      ensures frames.frames == old(frames.frames) && frames.outerRefs == old(frames.outerRefs)
      ensures !isInitialized ==>
                ret == PluginError && tokens == tokensIn && lastError.errorCode == PluginError &&
                threadEnv == old(threadEnv) && threads.attachedThreads == old(threads.attachedThreads)
      ensures isInitialized && tid in old(threadEnv) && jvm.Some? ==>
                threadEnv == old(threadEnv) && threads.attachedThreads == old(threads.attachedThreads) &&
                (ret, tokens) == SegmentOutcome(text, probe)
      ensures isInitialized && !(tid in old(threadEnv) && jvm.Some?) ==>
                var (attached, env) := AfterGetEnv(old(threads.attachedThreads), jvm, tid, envProbe);
                threads.attachedThreads == attached &&
                (jvm.None? ==> threadEnv == old(threadEnv)) &&
                (jvm.Some? ==> threadEnv == SetEnv(old(threadEnv), tid, env)) &&
                (env.None? ==> ret == PluginError && tokens == tokensIn) &&
                (env.Some? ==> (ret, tokens) == SegmentOutcome(text, probe))
      ensures |text| == 0 ==> frames.pushLog == old(frames.pushLog)
      ensures ret == Success && |text| > 0 ==>
                probe.call.Returned? && probe.call.result.Some? &&
                frames.pushLog == old(frames.pushLog) + [SEGMENT_FRAME_CAPACITY] +
                                  seq(Batches(|probe.call.result.value|), _ => BATCH_SIZE)
    {
      if !isInitialized {
        lastError.Set(PluginError, MSG_NOT_INITIALIZED);
        return PluginError, tokensIn;
      }
      if tid !in threadEnv || jvm.None? {
        var attached := EnsureJniAttached(threads, tid, envProbe);
        if attached != Success {
          return PluginError, tokensIn;
        }
      }
      if |text| == 0 {
        return Success, [];
      }
      lastError.Clear();
      tokens := [];
      ret, tokens := SegmentInFrame(tid, frames, probe);
    }

    /** The part of segment that runs inside the 64-slot frame. */
    method SegmentInFrame(tid: ThreadId, frames: LocalRefFrames, probe: SegmentProbe)
      returns (ret: Status, tokens: seq<Bytes>)
      requires tid in threadEnv
      modifies lastError, frames
      ensures frames.frames == old(frames.frames) && frames.outerRefs == old(frames.outerRefs)
      ensures (ret, tokens) == FrameOutcome(probe)
      ensures ret == Success ==>
                probe.call.Returned? && probe.call.result.Some? &&
                frames.pushLog == old(frames.pushLog) + [SEGMENT_FRAME_CAPACITY] +
                                  seq(Batches(|probe.call.result.value|), _ => BATCH_SIZE)
    {
      tokens := [];
      var pushed := frames.PushLocalFrame(SEGMENT_FRAME_CAPACITY, probe.framePushOk);
      if pushed < 0 {
        lastError.Set(PluginError, MSG_NO_FRAME);
        return PluginError, [];
      }
      ghost var log1 := frames.pushLog;
      if !probe.textConverted {
        lastError.Set(PluginError, MSG_NO_JAVA_TEXT);
        frames.PopLocalFrame();
        return PluginError, [];
      }
      frames.NewLocalRef();
      if !probe.instanceCreated {
        lastError.Set(PluginError, MSG_NO_INSTANCE);
        frames.PopLocalFrame();
        return PluginError, [];
      }
      frames.NewLocalRef();
      if probe.call.Threw? {
        frames.PopLocalFrame();
        return PluginError, [];
      }
      if probe.call.result.None? {
        lastError.Set(PluginError, MSG_NULL_RESULT);
        frames.PopLocalFrame();
        return PluginError, [];
      }
      frames.NewLocalRef();
      ret, tokens := JstringArrayToCppVector(tid, probe.call.result, probe.faults, frames, tokens);
      frames.PopLocalFrame();
    }

    /** jstring_array_to_cpp_vector of this bridge, on thread `tid`: the
        common library's algorithm, reporting the host's codes. */
    method JstringArrayToCppVector(tid: ThreadId, jarray: Option<JavaStringArray>, faults: ArrayFaults,
                                   frames: LocalRefFrames, resultIn: seq<Bytes>)
      returns (ret: Status, result: seq<Bytes>)
      modifies frames
      ensures frames.frames == old(frames.frames) && frames.outerRefs == old(frames.outerRefs)
      ensures tid !in threadEnv || jarray.None? || faults.lengthFails ==> ret == PluginError && result == resultIn
      ensures tid in threadEnv && jarray.Some? && !faults.lengthFails ==>
                var stop := FirstFault(|jarray.value|, faults, 0);
                ret == (if stop == |jarray.value| then Success else PluginError) &&
                result == NonNull(Decoded(jarray.value, faults.utfFails)[..stop])
      ensures ret == Success && jarray.Some? ==>
                frames.pushLog == old(frames.pushLog) + seq(Batches(|jarray.value|), _ => BATCH_SIZE)
    {
      if tid !in threadEnv || jarray.None? || faults.lengthFails {
        return PluginError, resultIn;
      }
      var ok;
      ok, result := ConvertBatches(jarray.value, faults, frames);
      ret := if ok then Success else PluginError;
    }

    /** cleanup (also the destructor): an uninitialised bridge is left alone.
        Otherwise the class reference is released if the thread has an
        environment, the thread is cleaned up, the instance unregistered and
        the handles cleared. The JVM itself is never destroyed here. */
    method Cleanup(states: JVMStateManager, threads: ThreadStateManager, tid: ThreadId)
      modifies this, states`instanceCount, threads
      ensures !old(isInitialized) ==>
                unchanged(this) && states.instanceCount == old(states.instanceCount) &&
                threads.attachedThreads == old(threads.attachedThreads)
      ensures old(isInitialized) ==>
                !isInitialized && jvm.None? && !jvmCreatedByUs && threadEnv == old(threadEnv) - {tid} &&
                globalClassRef == (old(globalClassRef) && tid !in old(threadEnv)) &&
                states.instanceCount == old(states.instanceCount) - 1 &&
                threads.attachedThreads == AfterCleanup(old(threads.attachedThreads), old(jvm), tid).0
      ensures Valid()
    {
      if !isInitialized {
        return;
      }
      if tid in threadEnv && globalClassRef {
        globalClassRef := false;
      }
      if jvm.Some? {
        var _ := threads.CleanupCurrentThread(jvm, tid);
      }
      states.UnregisterInstance();
      threadEnv := threadEnv - {tid};
      jvm := None;
      jvmCreatedByUs := false;
      isInitialized := false;
    }
  }

  // ---------------------------------------------------------------------
  // JNIBridgeManager
  // ---------------------------------------------------------------------

  /** The bridge singleton of the older generation. */
  class JNIBridgeManager {
    var bridge: JNIBridge?

    constructor ()
      ensures bridge == null
    {
      bridge := null;
    }

    /** get_bridge: the first call creates the bridge with the given
        configuration; later calls return that bridge and ignore theirs. */
    method GetBridge(config: JNIBridgeConfig) returns (b: JNIBridge)
      modifies this
      ensures old(bridge) != null ==> b == old(bridge) && bridge == b
      ensures old(bridge) == null ==>
                fresh(b) && fresh(b.lastError) && bridge == b && b.config == config &&
                b.jvm.None? && !b.isInitialized && b.threadEnv == map[] && !b.globalClassRef && b.Valid()
    {
      if bridge == null {
        bridge := new JNIBridge(config);
      }
      b := bridge;
    }

    /** release_bridge: the manager drops its bridge; being the last owner,
        this runs the bridge's destructor, that is cleanup. */
    method ReleaseBridge(states: JVMStateManager, threads: ThreadStateManager, tid: ThreadId)
      modifies this, bridge, states`instanceCount, threads
      ensures bridge == null
      ensures old(bridge) != null ==> !old(bridge).isInitialized
      ensures old(bridge) != null && old(bridge.isInitialized) ==> old(bridge).jvm.None?
      ensures old(bridge) != null && old(bridge.isInitialized) ==>
                states.instanceCount == old(states.instanceCount) - 1
      ensures old(bridge) == null || !old(bridge.isInitialized) ==>
                states.instanceCount == old(states.instanceCount)
    {
      if bridge != null {
        bridge.Cleanup(states, threads, tid);
      }
      bridge := null;
    }
  }
}

=== FILE: korean_parser_core.dfy ===
/** The older Korean parser core. ObKoreanFTParser takes one document's text
    from the host, has the shared Korean bridge segment it, keeps the tokens
    that carry content as TokenInfo records and hands them out one per call. */
module KoreanParserCore {
  import opened Common
  import opened Utf8Text
  import opened TokenCursor
  import opened JvmLifecycle
  import opened ThaiJniBridgeH
  import opened KoreanJniBridge

  /** TokenInfo: a token, its length in bytes and in characters, its
      frequency and its span in the original text (never filled in). */
  datatype TokenInfo = TokenInfo(
    word: Bytes,
    byteLength: int,
    charLength: int,
    frequency: int,
    startPosition: nat,
    endPosition: nat)

  /** TokenInfo(w, bl, cl, freq = 1): keeps its arguments, frequency 1 when
      none is given, and zeroes the span. */
  function MakeTokenInfo(w: Bytes, bl: int, cl: int, freq: int := 1): (t: TokenInfo)
    ensures t.word == w && t.byteLength == bl && t.charLength == cl && t.frequency == freq
    ensures t.startPosition == 0 && t.endPosition == 0
  {
    TokenInfo(w, bl, cl, freq, 0, 0)
  }

  /** TokenInfo(): the empty token, which is what the four-argument form
      builds from an empty word and zero lengths with the default frequency. */
  function DefaultTokenInfo(): (t: TokenInfo)
    ensures t == MakeTokenInfo([], 0, 0)
    ensures t.frequency == 1 && t.byteLength == 0 && t.charLength == 0
  {
    TokenInfo([], 0, 0, 1, 0, 0)
  }

  /** The record perform_segmentation builds for a kept token. */
  function Record(w: Bytes): (t: TokenInfo)
    ensures t.word == w && t.byteLength == |w| && t.frequency == 1
    ensures t.charLength == CharCount(w) && t.charLength <= t.byteLength
    ensures IsAscii(w) ==> t.charLength == t.byteLength
  {
    CharCountAtMostLength(w);
    if IsAscii(w) then CharCountOfAscii(w); MakeTokenInfo(w, |w|, CharCount(w))
    else MakeTokenInfo(w, |w|, CharCount(w))
  }

  /** The token list perform_segmentation builds from the segmenter's raw
      tokens: the tokens with content, in their order, each as its Record. */
  function Records(raw: seq<Bytes>): (r: seq<TokenInfo>)
    ensures |r| <= |raw|
    ensures forall i :: 0 <= i < |r| ==>
              HasContent(r[i].word) && r[i] == Record(r[i].word)
  {
    if raw == [] then []
    else
      var last := raw[|raw| - 1];
      Records(raw[..|raw| - 1]) + (if HasContent(last) then [Record(last)] else [])
  }

  /** Records works token by token: the records of two runs of raw tokens
      are the records of the first followed by those of the second. */
  lemma {:induction false} RecordsAppend(a: seq<Bytes>, b: seq<Bytes>)
    ensures Records(a + b) == Records(a) + Records(b)
    decreases |b|
  {
    if b == [] {
      assert a + b == a;
    } else {
      var b' := b[..|b| - 1];
      assert (a + b)[..|a + b| - 1] == a + b';
      assert (a + b)[|a + b| - 1] == b[|b| - 1];
      RecordsAppend(a, b');
    }
  }

  /** When every raw token has content nothing is dropped: the i-th record
      belongs to the i-th raw token. */
  lemma {:induction false} RecordsKeepAllValid(raw: seq<Bytes>)
    requires forall i :: 0 <= i < |raw| ==> HasContent(raw[i])
    ensures |Records(raw)| == |raw|
    ensures forall i :: 0 <= i < |raw| ==> Records(raw)[i] == Record(raw[i])
  {
    if raw != [] {
      var init := raw[..|raw| - 1];
      RecordsKeepAllValid(init);
    }
  }

  /** When no raw token has content the parser ends up with no tokens. */
  lemma {:induction false} RecordsDropAllBlank(raw: seq<Bytes>)
    requires forall i :: 0 <= i < |raw| ==> !HasContent(raw[i])
    ensures Records(raw) == []
  {
    if raw != [] {
      RecordsDropAllBlank(raw[..|raw| - 1]);
    }
  }

  /** Whether initialize_jni_bridge succeeds for a parser that holds no
      bridge pointer: the manager's bridge is already initialised, or the
      registry yields a JVM, the thread gets an environment and every class
      and method resolves. */
  function BridgeInitSucceeds(ready: bool, slot: JvmSlot, attached: set<ThreadId>, tid: ThreadId,
                              vmProbe: VmProbe, envProbe: EnvProbe, classProbe: ClassProbe): bool
  {
    ready || (AfterGetEnv(attached, Obtain(slot, vmProbe).1, tid, envProbe).1.Some? && AllResolved(classProbe))
  }

  /** Whether segment finds an environment for thread `tid` on an
      initialised bridge: the stored pointer is used when there is one,
      otherwise ensure_jni_attached must obtain one. */
  function SegmentEnvFound(threadEnv: map<ThreadId, JniEnv>, jvm: Option<JavaVm>, attached: set<ThreadId>,
                           tid: ThreadId, envProbe: EnvProbe): bool
  {
    (tid in threadEnv && jvm.Some?) || AfterGetEnv(attached, jvm, tid, envProbe).1.Some?
  }

  /** The objects a held bridge brings into a frame. */
  ghost function BridgeParts(b: JNIBridge?): set<object>
  {
    if b == null then {} else {b, b.lastError}
  }

  /** ObKoreanFTParser: the per-document parser state. The bridge pointer is
      borrowed from the bridge manager; `charsetInfo` 0 is the null charset. */
  class ObKoreanFTParser {
    var jniBridge: JNIBridge?
    var tokens: seq<TokenInfo>
    var currentIndex: nat
    var originalText: Bytes
    var isInited: bool
    var charsetInfo: nat

    /** The state reset leaves behind, which is also the constructed state. */
    ghost predicate Cleared()
      reads this
    {
      jniBridge == null && tokens == [] && originalText == [] &&
      currentIndex == 0 && !isInited && charsetInfo == 0
    }

    /** An idle parser is cleared; an initialised one holds a bridge. */
    ghost predicate Valid()
      reads this
    {
      (!isInited ==> Cleared()) && (isInited ==> jniBridge != null)
    }

    constructor ()
      ensures Cleared() && Valid()
    {
      jniBridge := null;
      tokens := [];
      currentIndex := 0;
      originalText := [];
      isInited := false;
      charsetInfo := 0;
    }

    /** get_token_count(). */
    function GetTokenCount(): (n: nat)
      reads this
      ensures n == |tokens|
    {
      |tokens|
    }

    /** is_initialized(). */
    function IsInitialized(): (b: bool)
      reads this
      ensures b == isInited
    {
      isInited
    }

    /** reset(): drops the bridge pointer and clears every field; on a
        cleared parser it changes nothing. */
    method Reset()
      modifies this
      ensures Cleared() && Valid()
      ensures old(Cleared()) ==> unchanged(this)
    {
      CleanupJniBridge();
      tokens := [];
      originalText := [];
      currentIndex := 0;
      isInited := false;
      charsetInfo := 0;
    }

    /** cleanup_jni_bridge(): forgets the pointer; the bridge itself stays
        with the manager. */
    method CleanupJniBridge()
      modifies this`jniBridge
      ensures jniBridge == null
    {
      jniBridge := null;
    }

    /** init(param). A parser already initialised answers INIT_TWICE; a
        null parameter, null text, negative length or null charset is an
        invalid argument (an empty text is accepted). Otherwise the text and
        charset are kept, the bridge is obtained and initialised and the
        text segmented; a failure in either step resets the parser, success
        leaves it initialised at the first of the filtered tokens. */
    method Init(param: FtParserParam?, manager: JNIBridgeManager, envClasspath: Option<string>,
                states: JVMStateManager, threads: ThreadStateManager, tid: ThreadId,
                vmProbe: VmProbe, envProbe: EnvProbe, classProbe: ClassProbe,
                segmentEnvProbe: EnvProbe, frames: LocalRefFrames, probe: SegmentProbe)
      returns (ret: Status)
      requires Valid() && states.Valid() && (manager.bridge != null ==> manager.bridge.Valid())
      requires param != null ==> param.HostContract()
      modifies this, manager, BridgeParts(manager.bridge), states, threads, frames
      ensures Valid() && states.Valid()
      ensures frames.frames == old(frames.frames) && frames.outerRefs == old(frames.outerRefs)
      ensures old(isInited) ==> ret == InitTwice && unchanged(this)
      ensures !old(isInited) &&
              (param == null || param.fulltext.None? || param.fulltextLength < 0 || param.charsetInfo == 0) ==>
                ret == InvalidArgument && unchanged(this)
      ensures !old(isInited) ==> (isInited <==> ret == Success)
      ensures ret != Success && !old(isInited) ==> Cleared()
      ensures !old(isInited) && ret == Success ==>
                param != null && param.fulltext.Some? && param.fulltextLength >= 0 &&
                originalText == param.Text() && charsetInfo == param.charsetInfo && currentIndex == 0 &&
                jniBridge == manager.bridge && jniBridge.isInitialized &&
                SegmentOutcome(param.Text(), probe).0 == Success &&
                tokens == Records(SegmentOutcome(param.Text(), probe).1)
      ensures !old(isInited) && param != null && param.fulltext.Some? && param.fulltextLength >= 0 &&
              param.charsetInfo != 0 ==>
                var ready := old(manager.bridge != null && manager.bridge.isInitialized);
                (ret == Success || ret == PluginError) &&
                (ret == Success <==>
                   BridgeInitSucceeds(ready, old(states.Slot()), old(threads.attachedThreads), tid,
                                      vmProbe, envProbe, classProbe) &&
                   (ready ==> SegmentEnvFound(old(manager.bridge.threadEnv), old(manager.bridge.jvm),
                                              old(threads.attachedThreads), tid, segmentEnvProbe)) &&
                   SegmentOutcome(param.Text(), probe).0 == Success)
    {
      if isInited {
        return InitTwice;
      }
      if param == null {
        return InvalidArgument;
      }
      if param.fulltext.None? || param.fulltextLength < 0 {
        return InvalidArgument;
      }
      if param.charsetInfo == 0 {
        return InvalidArgument;
      }
      originalText := param.Text();
      charsetInfo := param.charsetInfo;
      ret := InitializeJniBridge(manager, envClasspath, states, threads, tid, vmProbe, envProbe, classProbe);
      if ret != Success {
        Reset();
        return;
      }
      ghost var threadEnv, jvm, attached := jniBridge.threadEnv, jniBridge.jvm, threads.attachedThreads;
      ret := PerformSegmentation(originalText, threads, tid, segmentEnvProbe, frames, probe);
      if ret != Success {
        assert !(SegmentEnvFound(threadEnv, jvm, attached, tid, segmentEnvProbe) &&
                 SegmentOutcome(originalText, probe).0 == Success);
        Reset();
        return;
      }
      currentIndex := 0;
      isInited := true;
    }

    /** initialize_jni_bridge(). A held pointer is kept as it is. Otherwise
        the manager hands out its bridge (made on first use with the default
        configuration) and the bridge is initialised; only on success does
        the parser keep the pointer. An already initialised bridge always
        succeeds; a new or idle one succeeds exactly when the registry
        yields a JVM, the thread gets an environment and every class and
        method resolves. */
    method InitializeJniBridge(manager: JNIBridgeManager, envClasspath: Option<string>,
                               states: JVMStateManager, threads: ThreadStateManager, tid: ThreadId,
                               vmProbe: VmProbe, envProbe: EnvProbe, classProbe: ClassProbe)
      returns (ret: Status)
      requires states.Valid() && (manager.bridge != null ==> manager.bridge.Valid())
      modifies this`jniBridge, manager, BridgeParts(manager.bridge), states, threads
      ensures states.Valid() && (manager.bridge != null ==> manager.bridge.Valid())
      ensures old(jniBridge) != null ==>
                ret == Success && jniBridge == old(jniBridge) && unchanged(manager, states, threads)
      ensures old(jniBridge) == null ==>
                manager.bridge != null &&
                (old(manager.bridge) == null ==>
                   fresh(manager.bridge) && fresh(manager.bridge.lastError) &&
                   manager.bridge.config == DefaultJNIBridgeConfig(envClasspath)) &&
                (old(manager.bridge) != null ==> manager.bridge == old(manager.bridge)) &&
                (ret == Success <==> manager.bridge.isInitialized) &&
                jniBridge == (if ret == Success then manager.bridge else null)
      ensures ret == Success || ret == PluginError
      ensures old(jniBridge) == null && old(manager.bridge) != null && old(manager.bridge.isInitialized) ==>
                ret == Success && manager.bridge.threadEnv == old(manager.bridge.threadEnv) &&
                manager.bridge.jvm == old(manager.bridge.jvm) &&
                threads.attachedThreads == old(threads.attachedThreads)
      ensures old(jniBridge) == null && !(old(manager.bridge) != null && old(manager.bridge.isInitialized)) &&
              ret == Success ==>
                tid in manager.bridge.threadEnv && manager.bridge.jvm.Some?
      ensures old(jniBridge) == null && !(old(manager.bridge) != null && old(manager.bridge.isInitialized)) ==>
                var got := Obtain(old(states.Slot()), vmProbe).1;
                (ret == Success <==>
                   AfterGetEnv(old(threads.attachedThreads), got, tid, envProbe).1.Some? && AllResolved(classProbe))
    {
      if jniBridge != null {
        return Success;
      }
      var bridge := manager.GetBridge(DefaultJNIBridgeConfig(envClasspath));
      ret := bridge.Initialize(states, threads, tid, vmProbe, envProbe, classProbe);
      if ret != Success {
        return;
      }
      jniBridge := bridge;
    }

    /** perform_segmentation(text). Without a bridge it is a plugin error.
        A failed segment call leaves the token list alone; otherwise the
        list becomes the records of the raw tokens that carry content, in
        their order. Success means the segmenter succeeded, and for a thread
        the bridge has already served it is exactly that. */
    method PerformSegmentation(text: Bytes, threads: ThreadStateManager, tid: ThreadId,
                               envProbe: EnvProbe, frames: LocalRefFrames, probe: SegmentProbe)
      returns (ret: Status)
      modifies this`tokens, BridgeParts(jniBridge), threads, frames
      ensures frames.frames == old(frames.frames) && frames.outerRefs == old(frames.outerRefs)
      ensures jniBridge == null ==> ret == PluginError
      ensures jniBridge != null ==>
                jniBridge.isInitialized == old(jniBridge.isInitialized) && jniBridge.jvm == old(jniBridge.jvm)
      ensures ret != Success ==> tokens == old(tokens)
      ensures ret == Success ==>
                SegmentOutcome(text, probe).0 == Success && tokens == Records(SegmentOutcome(text, probe).1)
      ensures jniBridge != null && jniBridge.isInitialized && tid in old(jniBridge.threadEnv) &&
              jniBridge.jvm.Some? ==>
                (ret == Success <==> SegmentOutcome(text, probe).0 == Success)
      ensures jniBridge != null && jniBridge.isInitialized && !(tid in old(jniBridge.threadEnv) &&
              jniBridge.jvm.Some?) ==>
                (ret == Success <==>
                   AfterGetEnv(old(threads.attachedThreads), jniBridge.jvm, tid, envProbe).1.Some? &&
                   SegmentOutcome(text, probe).0 == Success)
      ensures ret == Success || ret == PluginError
    {
      if jniBridge == null {
        return PluginError;
      }
      var raw;
      ret, raw := jniBridge.Segment(threads, tid, envProbe, frames, text, probe, []);
      if ret != Success {
        return;
      }
      tokens := [];
      var i := 0;
      while i < |raw|
        invariant 0 <= i <= |raw|
        invariant tokens == Records(raw[..i])
        invariant frames.frames == old(frames.frames) && frames.outerRefs == old(frames.outerRefs)
        invariant jniBridge.isInitialized == old(jniBridge.isInitialized) && jniBridge.jvm == old(jniBridge.jvm)
      {
        var valid := ValidateToken(raw[i]);
        if valid {
          var charLength := CalculateUtf8CharLength(raw[i]);
          var info := DefaultTokenInfo().(word := raw[i], byteLength := |raw[i]|,
                                         charLength := charLength, frequency := 1);
          tokens := tokens + [info];
        }
        assert raw[..i + 1][..i] == raw[..i];
        i := i + 1;
      }
      assert raw[..|raw|] == raw;
    }

    /** get_next_token(). An uninitialised parser is a plugin error;
        otherwise the call is the cursor step Next over the token list: at
        the end it reports the end and stays there, else it hands out the
        token under the cursor with its recorded lengths and frequency and
        moves on by one. */
    method GetNextToken() returns (ret: Status, word: Bytes, wordLen: int, charLen: int, wordFreq: int)
      modifies this`currentIndex
      ensures !isInited ==> ret == PluginError && currentIndex == old(currentIndex)
      ensures isInited ==>
                var step := Next(tokens, old(currentIndex));
                ret == step.status && currentIndex == step.index &&
                (step.token.Some? ==>
                   word == step.token.value.word && wordLen == step.token.value.byteLength &&
                   charLen == step.token.value.charLength && wordFreq == step.token.value.frequency)
    {
      word, wordLen, charLen, wordFreq := [], 0, 0, 0;
      if !isInited {
        return PluginError, word, wordLen, charLen, wordFreq;
      }
      if currentIndex >= |tokens| {
        return IterEnd, word, wordLen, charLen, wordFreq;
      }
      var token := tokens[currentIndex];
      word := token.word;
      wordLen := token.byteLength;
      charLen := token.charLength;
      wordFreq := token.frequency;
      currentIndex := currentIndex + 1;
      ret := Success;
    }

    /** calculate_utf8_char_length(s): the number of characters by lead
        byte, never more than the byte length and equal to it for ASCII. */
    method CalculateUtf8CharLength(s: Bytes) returns (n: nat)
      ensures n == CharCount(s) && n <= |s|
      ensures IsAscii(s) ==> n == |s|
    {
      n := CountCharsByLeadByte(s);
      CharCountAtMostLength(s);
      if IsAscii(s) {
        CharCountOfAscii(s);
      }
    }

    /** validate_token(s): a token is rejected exactly when it is empty or
        all of its bytes are ASCII whitespace; a byte above 127 always
        makes it acceptable. */
    method ValidateToken(s: Bytes) returns (valid: bool)
      ensures valid <==> HasContent(s)
      ensures !valid <==> |s| == 0 || forall i :: 0 <= i < |s| ==> IsSpace(s[i])
      ensures (exists i :: 0 <= i < |s| && s[i] > 127) ==> valid
    {
      if |s| == 0 {
        return false;
      }
      var hasNonAscii := false;
      var hasNonWhitespaceAscii := false;
      var i := 0;
      while i < |s|
        invariant 0 <= i <= |s|
        invariant hasNonAscii <==> exists j :: 0 <= j < i && s[j] > 127
        invariant hasNonWhitespaceAscii <==> exists j :: 0 <= j < i && s[j] <= 127 && !IsSpace(s[j])
      {
        if s[i] > 127 {
          hasNonAscii := true;
        } else if !IsSpace(s[i]) {
          hasNonWhitespaceAscii := true;
        }
        i := i + 1;
      }
      valid := hasNonAscii || hasNonWhitespaceAscii;
    }
  }
}

=== FILE: plugin_scan.dfy ===
/** The host-facing token iteration the newer Thai and Japanese plugins
    share, written identically in both: scan_end frees the per-scan state
    and next_token hands out one token per call with its byte length, its
    character count by UTF-8 lead byte and a frequency of 1. */
module PluginScan {
  import opened Common
  import opened TokenCursor
  import opened Utf8Text

  /** *_ftparser_scan_end: a null parameter is rejected; otherwise any
      per-scan state is freed and the user data set to null. */
  method ScanEnd(param: FtParserParam?) returns (ret: Status)
    modifies param
    ensures param == null ==> ret == InvalidArgument
    ensures param != null ==> ret == Success && param.userData.None?
  {
    if param == null {
      return InvalidArgument;
    }
    if param.userData.Some? {
      param.userData := None;
    }
    ret := Success;
  }

  /** *_ftparser_next_token. `outputsPresent` says whether all four output
      pointers are non-null. A null parameter or output is rejected, a
      missing state is a plugin error; otherwise the call behaves as the
      cursor step Next on the stored tokens: at the end it reports the end
      and leaves the index alone, else it hands out the token under the
      cursor, its byte length, its character count and frequency 1, and
      advances the index by one. */
  method NextToken(param: FtParserParam?, outputsPresent: bool)
    returns (ret: Status, word: Bytes, wordLen: int, charCnt: int, wordFreq: int)
    modifies param
    ensures param == null || !outputsPresent ==> ret == InvalidArgument
    ensures param != null && !outputsPresent ==> param.userData == old(param.userData)
    ensures param != null && outputsPresent && old(param.userData).None? ==>
              ret == PluginError && param.userData.None?
    ensures param != null && outputsPresent && old(param.userData).Some? ==>
              var st := old(param.userData).value;
              var step := Next(st.tokens, st.currentTokenIndex);
              ret == step.status &&
              param.userData == Some(ParserState(st.tokens, step.index)) &&
              (step.token.Some? ==>
                 word == step.token.value && wordLen == |word| && charCnt == CharCount(word) && wordFreq == 1)
  {
    word, wordLen, charCnt, wordFreq := [], 0, 0, 0;
    if param == null || !outputsPresent {
      return InvalidArgument, word, wordLen, charCnt, wordFreq;
    }
    if param.userData.None? {
      return PluginError, word, wordLen, charCnt, wordFreq;
    }
    var st := param.userData.value;
    if st.currentTokenIndex >= |st.tokens| {
      return IterEnd, word, wordLen, charCnt, wordFreq;
    }
    word := st.tokens[st.currentTokenIndex];
    param.userData := Some(ParserState(st.tokens, st.currentTokenIndex + 1));
    wordLen := |word|;
    charCnt := CountCharsByLeadByte(word);
    wordFreq := 1;
    ret := Success;
  }
}

=== FILE: string_array.dfy ===
/** What converting a Java String[] into a std::vector<std::string> means:
    the non-null elements, in index order, read in batches of 32, each one
    as jstring_to_cpp_string reads it. */
module StringArray {
  import opened Common

  /** Elements are read in batches of this many, one local frame per batch. */
  const BATCH_SIZE: nat := 32

  /** The non-null elements of `arr`, in index order. */
  function NonNull(arr: JavaStringArray): seq<Bytes>
  {
    if |arr| == 0 then []
    else NonNull(arr[..|arr| - 1]) + (if arr[|arr| - 1].Some? then [arr[|arr| - 1].value] else [])
  }

  /** The array as jstring_to_cpp_string reads it: a non-null element whose
      GetStringUTFChars fails (its index is in `utfFails`) reads as the
      empty string; every other element is kept. */
  function Decoded(arr: JavaStringArray, utfFails: set<nat>): JavaStringArray
  {
    seq(|arr|, i requires 0 <= i < |arr| => if arr[i].Some? && i in utfFails then Some([]) else arr[i])
  }

  /** The number of batches for `n` elements: the ceiling of n / 32. */
  function Batches(n: nat): (b: nat)
    ensures b * BATCH_SIZE >= n && (b == 0 || (b - 1) * BATCH_SIZE < n)
  {
    (n + BATCH_SIZE - 1) / BATCH_SIZE
  }

  /** A Java array holding exactly the given strings, none of them null. */
  function Present(xs: seq<Bytes>): (arr: JavaStringArray)
    ensures |arr| == |xs| && forall i :: 0 <= i < |xs| ==> arr[i] == Some(xs[i])
  {
    seq(|xs|, i requires 0 <= i < |xs| => Some(xs[i]))
  }

  /** Reading one more element extends the result by that element when it is
      not null. */
  lemma NonNullSnoc(arr: JavaStringArray, i: nat)
    requires i < |arr|
    ensures NonNull(arr[..i + 1]) == NonNull(arr[..i]) + (if arr[i].Some? then [arr[i].value] else [])
  {
    assert arr[..i + 1][..i] == arr[..i];
  }

  /** The result is never longer than the array. */
  lemma {:induction false} NonNullLength(arr: JavaStringArray)
    ensures |NonNull(arr)| <= |arr|
  {
    if |arr| > 0 {
      NonNullLength(arr[..|arr| - 1]);
    }
  }

  /** Every element of the result is a non-null element of the array. */
  lemma {:induction false} NonNullFromArray(arr: JavaStringArray, k: nat)
    requires k < |NonNull(arr)|
    ensures Some(NonNull(arr)[k]) in arr
  {
    var init := arr[..|arr| - 1];
    NonNullLength(arr);
    if k < |NonNull(init)| {
      NonNullFromArray(init, k);
      assert Some(NonNull(init)[k]) in init;
      var j :| 0 <= j < |init| && init[j] == Some(NonNull(init)[k]);
      assert arr[j] == init[j];
    } else {
      assert arr[|arr| - 1] == Some(NonNull(arr)[k]);
    }
  }

  /** Round trip: an array of N non-null strings converts back to the same N
      strings in the same order. */
  lemma {:induction false} NonNullOfPresent(xs: seq<Bytes>)
    ensures NonNull(Present(xs)) == xs
  {
    if |xs| > 0 {
      var init := xs[..|xs| - 1];
      assert Present(xs)[..|xs| - 1] == Present(init);
      NonNullOfPresent(init);
      assert init + [xs[|xs| - 1]] == xs;
    }
  }

  /** N non-null strings convert to N strings in order, each one its own
      bytes, except that a string whose GetStringUTFChars fails is kept as
      the empty string rather than dropped. */
  lemma {:induction false} NonNullOfPresentDecoded(xs: seq<Bytes>, utfFails: set<nat>)
    ensures var r := NonNull(Decoded(Present(xs), utfFails));
      |r| == |xs| && forall i :: 0 <= i < |xs| ==> r[i] == (if i in utfFails then [] else xs[i])
  {
    if |xs| > 0 {
      var n := |xs| - 1;
      var init := xs[..n];
      assert Decoded(Present(xs), utfFails)[..n] == Decoded(Present(init), utfFails);
      NonNullOfPresentDecoded(init, utfFails);
    }
  }

  /** Whether reading position `i` fails: the batch starting there cannot
      push its frame, or fetching element `i` raises. */
  predicate Faulted(faults: ArrayFaults, i: nat)
  {
    (i % BATCH_SIZE == 0 && i / BATCH_SIZE in faults.pushFails) || i in faults.elementFails
  }

  /** The first position from `i` on (below `n`) where reading fails, or `n`
      when none does. */
  function FirstFault(n: nat, faults: ArrayFaults, i: nat): (k: nat)
    requires i <= n
    ensures i <= k <= n
    ensures forall j :: i <= j < k ==> !Faulted(faults, j)
    ensures k < n ==> Faulted(faults, k)
    decreases n - i
  {
    if i == n then n
    else if Faulted(faults, i) then i
    else FirstFault(n, faults, i + 1)
  }

  /** The first failing position is the first position at which a failure
      is observed after a failure-free prefix. */
  lemma StopsAt(arr: JavaStringArray, faults: ArrayFaults, k: nat)
    requires k <= |arr|
    requires forall j :: 0 <= j < k ==> !Faulted(faults, j)
    requires k < |arr| ==> Faulted(faults, k)
    ensures FirstFault(|arr|, faults, 0) == k
  {
  }

  /** Positions inside a batch other than its first are not batch starts. */
  lemma InsideBatch(batch: nat, j: nat)
    requires batch * BATCH_SIZE < j < (batch + 1) * BATCH_SIZE
    ensures j % BATCH_SIZE != 0
  {
  }

  /** The loop over all batches of a non-null array whose length is known
      (it is shared by both plugin generations, which differ only in the
      codes they return): for each batch of up to 32 elements a local frame
      of capacity 32 is pushed, the non-null elements are appended (as
      `Decoded` reads them), and the
      frame is popped, also when an element fetch fails. `ok` is false at
      the first failure; the result then holds the elements before it. */
  method ConvertBatches(arr: JavaStringArray, faults: ArrayFaults, frames: LocalRefFrames)
    returns (ok: bool, result: seq<Bytes>)
    modifies frames
    ensures frames.frames == old(frames.frames) && frames.outerRefs == old(frames.outerRefs)
    ensures var stop := FirstFault(|arr|, faults, 0);
            (ok <==> stop == |arr|) && result == NonNull(Decoded(arr, faults.utfFails)[..stop])
    ensures ok ==> frames.pushLog == old(frames.pushLog) + seq(Batches(|arr|), _ => BATCH_SIZE)
  {
    var length := |arr|;
    result := [];
    var start := 0;
    var batch := 0;
    ghost var log0 := frames.pushLog;
    while start < length
      invariant start == batch * BATCH_SIZE && batch <= Batches(length)
      invariant start <= length ==> result == NonNull(Decoded(arr, faults.utfFails)[..start])
      invariant start > length ==> result == NonNull(Decoded(arr, faults.utfFails)[..length]) && batch == Batches(length)
      invariant forall j :: 0 <= j < start && j < length ==> !Faulted(faults, j)
      invariant frames.frames == old(frames.frames) && frames.outerRefs == old(frames.outerRefs)
      invariant frames.pushLog == log0 + seq(batch, _ => BATCH_SIZE)
    {
      var batchOk;
      batchOk, result := ConvertBatch(arr, faults, batch, frames, result);
      if !batchOk {
        return false, result;
      }
      assert frames.pushLog == log0 + seq(batch + 1, _ => BATCH_SIZE);
      start := start + BATCH_SIZE;
      batch := batch + 1;
    }
    StopsAt(arr, faults, length);
    assert Decoded(arr, faults.utfFails)[..length] == Decoded(arr, faults.utfFails)[..FirstFault(length, faults, 0)];
    ok := true;
  }

  /** One turn of the batch loop, for the batch starting at `batch * 32`:
      push a frame of capacity 32 (on failure nothing else happens), read
      the batch's elements inside it and pop it. Either the whole batch was
      read, or the conversion stops at the first failing position. */
  method ConvertBatch(arr: JavaStringArray, faults: ArrayFaults, batch: nat, frames: LocalRefFrames,
                      resultIn: seq<Bytes>)
    returns (ok: bool, result: seq<Bytes>)
    requires batch * BATCH_SIZE < |arr|
    requires resultIn == NonNull(Decoded(arr, faults.utfFails)[..batch * BATCH_SIZE])
    requires forall j :: 0 <= j < batch * BATCH_SIZE ==> !Faulted(faults, j)
    modifies frames
    ensures frames.frames == old(frames.frames) && frames.outerRefs == old(frames.outerRefs)
    ensures var end := if (batch + 1) * BATCH_SIZE < |arr| then (batch + 1) * BATCH_SIZE else |arr|;
            ok ==> result == NonNull(Decoded(arr, faults.utfFails)[..end]) &&
                   (forall j :: 0 <= j < end ==> !Faulted(faults, j)) &&
                   frames.pushLog == old(frames.pushLog) + [BATCH_SIZE]
    ensures !ok ==> var stop := FirstFault(|arr|, faults, 0);
                    stop < |arr| && result == NonNull(Decoded(arr, faults.utfFails)[..stop])
  {
    var start := batch * BATCH_SIZE;
    var pushed := frames.PushLocalFrame(BATCH_SIZE, batch !in faults.pushFails);
    if pushed < 0 {
      StopsAt(arr, faults, start);
      return false, resultIn;
    }
    var end := if start + BATCH_SIZE < |arr| then start + BATCH_SIZE else |arr|;
    var readTo;
    readTo, result := ReadBatch(arr, faults, start, end, frames, resultIn);
    frames.PopLocalFrame();
    forall j | start <= j < readTo
      ensures !Faulted(faults, j)
    {
      if j > start {
        InsideBatch(batch, j);
      }
    }
    if readTo < end {
      StopsAt(arr, faults, readTo);
      return false, result;
    }
    ok := true;
  }

  /** The elements of one batch, read inside the batch's frame: each fetch
      either raises (the batch stops there) or yields an element, and a
      non-null element takes one local reference of the frame and is
      appended, as the empty string when its GetStringUTFChars fails.
      `readTo` is where reading stopped (`end` when no fetch
      raised). */
  method ReadBatch(arr: JavaStringArray, faults: ArrayFaults, start: nat, end: nat,
                   frames: LocalRefFrames, resultIn: seq<Bytes>)
    returns (readTo: nat, result: seq<Bytes>)
    requires start <= end <= |arr| && end - start <= BATCH_SIZE
    requires resultIn == NonNull(Decoded(arr, faults.utfFails)[..start])
    requires |frames.frames| > 0 && frames.frames[|frames.frames| - 1] == Frame(BATCH_SIZE, 0)
    modifies frames`frames, frames`outerRefs
    ensures frames.outerRefs == old(frames.outerRefs)
    ensures start <= readTo <= end
    ensures forall j :: start <= j < readTo ==> j !in faults.elementFails
    ensures readTo < end ==> readTo in faults.elementFails
    ensures result == NonNull(Decoded(arr, faults.utfFails)[..readTo])
    ensures |frames.frames| == |old(frames.frames)|
    ensures frames.frames[..|frames.frames| - 1] == old(frames.frames)[..|frames.frames| - 1]
  {
    ghost var below := frames.frames[..|frames.frames| - 1];
    result := resultIn;
    var i := start;
    while i < end
      invariant start <= i <= end
      invariant forall j :: start <= j < i ==> j !in faults.elementFails
      invariant result == NonNull(Decoded(arr, faults.utfFails)[..i])
      invariant |frames.frames| == |below| + 1 && frames.frames[..|below|] == below
      invariant frames.frames[|below|].capacity == BATCH_SIZE && frames.frames[|below|].live <= i - start
      invariant frames.outerRefs == old(frames.outerRefs)
    {
      if i in faults.elementFails {
        return i, result;
      }
      NonNullSnoc(Decoded(arr, faults.utfFails), i);
      if arr[i].Some? {
        frames.NewLocalRef();
        // jstring_to_cpp_string: "" when GetStringUTFChars fails
        var str := if i in faults.utfFails then [] else arr[i].value;
        result := result + [str];
      }
      i := i + 1;
    }
    readTo := i;
  }
}

=== FILE: thai_jni_bridge.dfy ===
/** The newer Thai plugin: its configuration, the bridge that works through
    the common library (registration, scoped environment guard, batched
    conversion), the bridge singleton and the scan_begin entry point. */
module ThaiJniBridge {
  import opened Common
  import opened JvmLifecycle
  import opened StringArray
  import opened JniManager

  // The messages set_error records (without the appended exception text).
  const MSG_NO_INIT_ENV: string := "Failed to acquire JNI environment for Thai parser initialization"
  const MSG_NO_CLASS: string := "Failed to find Thai segmenter class"
  const MSG_NO_GLOBAL_REF: string := "Failed to create global reference for Thai segmenter class"
  const MSG_NO_CONSTRUCTOR: string := "Failed to find Thai segmenter constructor"
  const MSG_NO_METHOD: string := "Failed to find Thai segment method"
  const MSG_NOT_INITIALIZED: string := "Thai JNI Bridge not initialized"
  const MSG_NO_SEGMENT_ENV: string := "Failed to acquire JNI environment for Thai segmentation"
  const MSG_NO_FRAME: string := "Failed to push local frame for Thai segmentation"
  const MSG_NO_JAVA_TEXT: string := "Failed to convert text to Java string for Thai segmentation"
  const MSG_NO_INSTANCE: string := "Failed to create Thai segmenter instance"
  const MSG_CALL_THREW: string := "Thai segmentation failed"
  const MSG_NULL_RESULT: string := "Thai segmentation returned null result"
  const MSG_CONVERSION_FAILED: string := "Failed to convert Thai segmentation result to C++ vector"

  /** ThaiJNIBridgeConfig. */
  datatype ThaiJNIBridgeConfig = ThaiJNIBridgeConfig(
    javaClassPath: string,
    segmenterClassName: string,
    segmentMethodName: string,
    jvmMaxHeapMb: nat,
    jvmInitHeapMb: nat)

  /** The class path used when THAI_PARSER_CLASSPATH is unset or empty. */
  const DEFAULT_CLASS_PATH: string := "./java/lib/*:" + "./java"

  /** The default configuration; `envClasspath` is THAI_PARSER_CLASSPATH
      (None when unset). */
  function DefaultThaiJNIBridgeConfig(envClasspath: Option<string>): (c: ThaiJNIBridgeConfig)
    ensures c.segmenterClassName == "RealThaiSegmenter" && c.segmentMethodName == "segment"
    ensures c.jvmMaxHeapMb == DEFAULT_MAX_HEAP_MB && c.jvmInitHeapMb == DEFAULT_INIT_HEAP_MB
    ensures envClasspath.Some? && envClasspath.value != [] ==> c.javaClassPath == envClasspath.value
    ensures envClasspath.None? || envClasspath.value == [] ==> c.javaClassPath == DEFAULT_CLASS_PATH
  {
    var path := if envClasspath.Some? && |envClasspath.value| > 0 then envClasspath.value else DEFAULT_CLASS_PATH;
    ThaiJNIBridgeConfig(path, "RealThaiSegmenter", "segment", 512, 128)
  }

  /** The configured class path is never empty, so initialisation always
      goes through get_or_create_jvm rather than only using a running JVM. */
  lemma DefaultThaiClassPathNeverEmpty(envClasspath: Option<string>)
    ensures DefaultThaiJNIBridgeConfig(envClasspath).javaClassPath != []
  {
    assert DEFAULT_CLASS_PATH[0] == '.';
  }

  /** The capacity of the frame do_segment pushes. */
  const SEGMENT_FRAME_CAPACITY: nat := 64

  /** What do_segment returns: the vector is cleared, then each step (frame,
      Java string, segmenter instance, call, non-null result) must succeed;
      a failing conversion hands back its raw -1 untranslated, with the
      strings read before the failure. The text itself plays no part: empty
      text goes through the whole pipeline. */
  function DoSegmentOutcome(probe: SegmentProbe): (Status, seq<Bytes>)
  {
    if !probe.framePushOk || !probe.textConverted || !probe.instanceCreated then (PluginError, [])
    else match probe.call
      case Threw => (PluginError, [])
      case Returned(None) => (PluginError, [])
      case Returned(Some(arr)) =>
        if probe.faults.lengthFails then (Raw(-1), [])
        else
          var stop := FirstFault(|arr|, probe.faults, 0);
          (if stop == |arr| then Success else Raw(-1), NonNull(Decoded(arr, probe.faults.utfFails)[..stop]))
  }

  /** The three codes do_segment can return, when each arises, and what the
      tokens are then: all non-null strings of the Java result on success
      (read by `Decoded`, so a failed GetStringUTFChars gives ""),
      the strings before the first failure when the conversion fails. */
  lemma DoSegmentOutcomeCases(probe: SegmentProbe)
    ensures var (ret, tokens) := DoSegmentOutcome(probe);
      var reached := probe.framePushOk && probe.textConverted && probe.instanceCreated &&
                     probe.call.Returned? && probe.call.result.Some?;
      (ret == Success || ret == PluginError || ret == Raw(-1)) &&
      (ret == PluginError <==> !reached) &&
      (ret == Success <==>
         reached && !probe.faults.lengthFails &&
         FirstFault(|probe.call.result.value|, probe.faults, 0) == |probe.call.result.value|) &&
      (ret == Success ==> tokens == NonNull(Decoded(probe.call.result.value, probe.faults.utfFails))) &&
      (!reached ==> tokens == [])
  {
    if probe.call.Returned? && probe.call.result.Some? {
      var d := Decoded(probe.call.result.value, probe.faults.utfFails);
      assert d[..|d|] == d;
    }
  }

  /** When the Java segmenter returns N non-null strings and no frame push
      or element fetch fails, do_segment succeeds with N strings in order:
      each is the Java string, or the empty string where GetStringUTFChars
      failed; with no such failure they are exactly the N strings. */
  lemma DoSegmentReturnsJavaTokens(xs: seq<Bytes>, probe: SegmentProbe)
    requires probe.framePushOk && probe.textConverted && probe.instanceCreated
    requires probe.call == Returned(Some(Present(xs)))
    requires !probe.faults.lengthFails && probe.faults.pushFails == {} && probe.faults.elementFails == {}
    ensures var (ret, tokens) := DoSegmentOutcome(probe);
      ret == Success && |tokens| == |xs| &&
      forall i :: 0 <= i < |xs| ==> tokens[i] == (if i in probe.faults.utfFails then [] else xs[i])
    ensures probe.faults.utfFails == {} ==> DoSegmentOutcome(probe) == (Success, xs)
  {
    var d := Decoded(Present(xs), probe.faults.utfFails);
    assert FirstFault(|xs|, probe.faults, 0) == |xs|;
    assert d[..|d|] == d;
    NonNullOfPresentDecoded(xs, probe.faults.utfFails);
    if probe.faults.utfFails == {} {
      var tokens := DoSegmentOutcome(probe).1;
      assert forall i :: 0 <= i < |xs| ==> tokens[i] == xs[i];
      assert tokens == xs;
    }
  }

  /** ThaiJNIBridge. `globalClassRef` says whether the segmenter class is
      held as a global reference. */
  class ThaiJNIBridge {
    const pluginName: string
    const config: ThaiJNIBridgeConfig
    var isInitialized: bool
    var globalClassRef: bool
    var lastErrorCode: Status
    var lastErrorMessage: string

    ghost predicate Valid()
      reads this
    {
      config.javaClassPath != [] && (isInitialized ==> globalClassRef)
    }

    /** The constructor; the configuration reads THAI_PARSER_CLASSPATH. */
    constructor (envClasspath: Option<string>)
      ensures pluginName == "thai_ftparser" && config == DefaultThaiJNIBridgeConfig(envClasspath)
      ensures !isInitialized && !globalClassRef && lastErrorCode == Success && lastErrorMessage == []
      ensures Valid()
    {
      pluginName := "thai_ftparser";
      config := DefaultThaiJNIBridgeConfig(envClasspath);
      isInitialized, globalClassRef := false, false;
      lastErrorCode, lastErrorMessage := Success, [];
      DefaultThaiClassPathNeverEmpty(envClasspath);
    }

    function Settings(): JvmConfig
      reads this
    {
      JvmConfig(config.javaClassPath, config.jvmMaxHeapMb, config.jvmInitHeapMb)
    }

    method SetError(code: Status, message: string)
      modifies this`lastErrorCode, this`lastErrorMessage
      ensures lastErrorCode == code && lastErrorMessage == message
    {
      lastErrorCode, lastErrorMessage := code, message;
    }

    method ClearError()
      modifies this`lastErrorCode, this`lastErrorMessage
      ensures lastErrorCode == Success && lastErrorMessage == []
    {
      lastErrorCode, lastErrorMessage := Success, [];
    }

    /** initialize, run by thread `tid`. An initialised bridge returns
        success and changes nothing. Otherwise the plugin is registered, a
        guard with the configured class path obtains the JVM and an
        environment, and the classes are loaded; any failure unregisters the
        plugin again, and the guard releases what it acquired on every
        path. */
    method Initialize(jvms: GlobalJVMManager, threads: GlobalThreadManager, tid: ThreadId,
                      vmProbe: VmProbe, envProbe: EnvProbe, classProbe: ClassProbe)
      returns (ret: Status)
      requires Valid() && jvms.Valid() && threads.Valid()
      modifies this, jvms, threads
      ensures Valid() && jvms.Valid() && threads.Valid()
      ensures old(isInitialized) ==> ret == Success && unchanged(this, jvms, threads)
      ensures !old(isInitialized) ==>
                var (slot, got) := Obtain(old(jvms.Slot()), vmProbe);
                var (table, env) := GuardedVisit(old(threads.Table()), got, tid, pluginName, envProbe);
                jvms.Slot() == slot &&
                jvms.configRecord == ValidateConfig(old(jvms.configRecord), Settings()).0 &&
                (ret == Success <==> env.Some? && AllResolved(classProbe)) &&
                (ret == Success || ret == PluginError) &&
                (isInitialized <==> ret == Success) && lastErrorCode == ret &&
                jvms.Reg() == (if ret == Success then AfterRegister(old(jvms.Reg()), pluginName)
                               else AfterUnregister(AfterRegister(old(jvms.Reg()), pluginName), pluginName)) &&
                threads.Table() == table
    {
      if isInitialized {
        return Success;
      }
      ObtainHandsOutHeldJvm(jvms.Slot(), vmProbe);
      ClearError();
      jvms.RegisterPlugin(pluginName);
      var guard := new ScopedJNIEnvironment(jvms, threads, tid, vmProbe, envProbe, pluginName,
                                            config.javaClassPath, config.jvmMaxHeapMb, config.jvmInitHeapMb);
      ret := InitializeWithGuard(jvms, guard.env, classProbe);
      var _ := guard.Destroy(jvms, threads);
    }

    /** The part of initialize between acquiring the guard and leaving its
        scope: without an environment, or when the classes cannot be loaded,
        the registration is undone; otherwise the bridge is initialised. */
    method InitializeWithGuard(jvms: GlobalJVMManager, env: Option<JniEnv>, classProbe: ClassProbe)
      returns (ret: Status)
      requires !isInitialized && jvms.Valid()
      modifies this`isInitialized, this`globalClassRef, this`lastErrorCode, this`lastErrorMessage,
               jvms`registeredPlugins, jvms`pluginCount
      ensures jvms.Valid()
      ensures ret == (if env.Some? && AllResolved(classProbe) then Success else PluginError)
      ensures isInitialized <==> ret == Success
      ensures ret == Success ==> jvms.Reg() == old(jvms.Reg()) && lastErrorCode == old(lastErrorCode)
      ensures ret != Success ==> jvms.Reg() == AfterUnregister(old(jvms.Reg()), pluginName) && lastErrorCode == ret
      ensures globalClassRef == if env.Some? then classProbe.classFound && classProbe.globalRefOk else old(globalClassRef)
    {
      if env.None? {
        SetError(PluginError, MSG_NO_INIT_ENV);
        ret := PluginError;
      } else {
        ret := LoadJavaClasses(env.value, classProbe);
      }
      if ret != Success {
        jvms.UnregisterPlugin(pluginName);
      } else {
        isInitialized := true;
      }
    }

    /** load_java_classes: find the class and hold it globally, then look up
        the constructor and the segment method. */
    method LoadJavaClasses(env: JniEnv, classProbe: ClassProbe) returns (ret: Status)
      modifies this`globalClassRef, this`lastErrorCode, this`lastErrorMessage
      ensures ret == (if AllResolved(classProbe) then Success else PluginError)
      ensures globalClassRef == (classProbe.classFound && classProbe.globalRefOk)
      ensures ret == PluginError ==> lastErrorCode == PluginError
      ensures ret == Success ==> lastErrorCode == old(lastErrorCode) && lastErrorMessage == old(lastErrorMessage)
    {
      globalClassRef := false;
      if !classProbe.classFound {
        SetError(PluginError, MSG_NO_CLASS);
        return PluginError;
      }
      if !classProbe.globalRefOk {
        SetError(PluginError, MSG_NO_GLOBAL_REF);
        return PluginError;
      }
      globalClassRef := true;
      if !classProbe.ctorFound {
        SetError(PluginError, MSG_NO_CONSTRUCTOR);
        return PluginError;
      }
      if !classProbe.methodFound {
        SetError(PluginError, MSG_NO_METHOD);
        return PluginError;
      }
      ret := Success;
    }

    /** segment, run by thread `tid` whose environment's local frames are
        `frames`. An uninitialised bridge fails before touching the runtime;
        otherwise a guard with no class path (so only a running JVM is used)
        supplies the environment for do_segment and releases it afterwards. */
    method Segment(jvms: GlobalJVMManager, threads: GlobalThreadManager, tid: ThreadId, envProbe: EnvProbe,
                   frames: LocalRefFrames, text: Bytes, probe: SegmentProbe, tokensIn: seq<Bytes>)
      returns (ret: Status, tokens: seq<Bytes>)
      requires jvms.Valid() && threads.Valid()
      modifies this`lastErrorCode, this`lastErrorMessage, jvms, threads, frames
      ensures jvms.Valid() && threads.Valid()
      ensures jvms.Slot() == old(jvms.Slot()) && jvms.Reg() == old(jvms.Reg())
      ensures frames.frames == old(frames.frames) && frames.outerRefs == old(frames.outerRefs)
      ensures !isInitialized ==>
                ret == PluginError && tokens == tokensIn && lastErrorCode == PluginError &&
                threads.Table() == old(threads.Table())
      ensures isInitialized ==>
                var (table, env) := GuardedVisit(old(threads.Table()), old(jvms.sharedJvm), tid, pluginName, envProbe);
                threads.Table() == table &&
                (env.None? ==> ret == PluginError && tokens == tokensIn) &&
                (env.Some? ==> (ret, tokens) == DoSegmentOutcome(probe))
    {
      if !isInitialized {
        SetError(PluginError, MSG_NOT_INITIALIZED);
        return PluginError, tokensIn;
      }
      var guard := new ScopedJNIEnvironment(jvms, threads, tid, VmProbe(None, None), envProbe, pluginName);
      if !guard.AsBool() {
        SetError(PluginError, MSG_NO_SEGMENT_ENV);
        ret, tokens := PluginError, tokensIn;
      } else {
        ret, tokens := DoSegment(guard.env.value, frames, text, probe);
      }
      var _ := guard.Destroy(jvms, threads);
    }

    /** do_segment: every return after a successful PushLocalFrame(64) pops
        that frame exactly once, and the frame never holds more than its
        three references (text, segmenter, result). */
    method DoSegment(env: JniEnv, frames: LocalRefFrames, text: Bytes, probe: SegmentProbe)
      returns (ret: Status, tokens: seq<Bytes>)
      modifies this`lastErrorCode, this`lastErrorMessage, frames
      ensures frames.frames == old(frames.frames) && frames.outerRefs == old(frames.outerRefs)
      ensures (ret, tokens) == DoSegmentOutcome(probe)
      ensures ret != Success ==> lastErrorCode == PluginError
      ensures ret == Success ==>
                probe.call.Returned? && probe.call.result.Some? &&
                frames.pushLog == old(frames.pushLog) + [SEGMENT_FRAME_CAPACITY] +
                                  seq(Batches(|probe.call.result.value|), _ => BATCH_SIZE)
    {
      tokens := [];
      var pushed := frames.PushLocalFrame(SEGMENT_FRAME_CAPACITY, probe.framePushOk);
      if pushed < 0 {
        SetError(PluginError, MSG_NO_FRAME);
        return PluginError, tokens;
      }
      if !probe.textConverted {
        frames.PopLocalFrame();
        SetError(PluginError, MSG_NO_JAVA_TEXT);
        return PluginError, tokens;
      }
      frames.NewLocalRef();
      if !probe.instanceCreated {
        frames.PopLocalFrame();
        SetError(PluginError, MSG_NO_INSTANCE);
        return PluginError, tokens;
      }
      frames.NewLocalRef();
      if probe.call.Threw? {
        frames.PopLocalFrame();
        SetError(PluginError, MSG_CALL_THREW);
        return PluginError, tokens;
      }
      if probe.call.result.None? {
        frames.PopLocalFrame();
        SetError(PluginError, MSG_NULL_RESULT);
        return PluginError, tokens;
      }
      frames.NewLocalRef();
      var rc;
      rc, tokens := JstringArrayToCppVector(Some(env), probe.call.result, probe.faults, frames, tokens);
      frames.PopLocalFrame();
      if rc != 0 {
        SetError(PluginError, MSG_CONVERSION_FAILED);
        return Raw(rc), tokens;
      }
      ret := Success;
    }

    /** The destructor: unregisters the plugin iff the bridge is initialised. */
    method Destroy(jvms: GlobalJVMManager)
      requires jvms.Valid()
      modifies this`isInitialized, jvms`registeredPlugins, jvms`pluginCount
      ensures jvms.Valid() && !isInitialized
      ensures jvms.Reg() == if old(isInitialized) then AfterUnregister(old(jvms.Reg()), pluginName) else old(jvms.Reg())
    {
      if isInitialized {
        jvms.UnregisterPlugin(pluginName);
        isInitialized := false;
      }
    }
  }

  /** ThaiJNIBridgeManager: the lazily created bridge singleton. */
  /** What initialize does to the registry slot and the thread table, with
      the code it returns, for a bridge that is (`initialized`) or is not yet
      initialised: an initialised bridge changes nothing and succeeds;
      otherwise the JVM is obtained, the environment visited through the
      guard, and success needs an environment and the whole segmenter. */
  function InitEffect(initialized: bool, slot: JvmSlot, table: ThreadTable, tid: ThreadId,
                      vmProbe: VmProbe, envProbe: EnvProbe, classProbe: ClassProbe): (JvmSlot, ThreadTable, Status)
  {
    if initialized then (slot, table, Success)
    else
      var (slot', got) := Obtain(slot, vmProbe);
      var (table', env) := GuardedVisit(table, got, tid, "thai_ftparser", envProbe);
      (slot', table', if env.Some? && AllResolved(classProbe) then Success else PluginError)
  }

  /** The code segment returns on an initialised bridge, given the JVM the
      registry holds and the thread table: no environment for the visit is a
      plugin error, otherwise do_segment decides. */
  function SegmentCode(table: ThreadTable, jvm: Option<JavaVm>, tid: ThreadId,
                       envProbe: EnvProbe, probe: SegmentProbe): Status
  {
    if GuardedVisit(table, jvm, tid, "thai_ftparser", envProbe).1.Some? then DoSegmentOutcome(probe).0
    else PluginError
  }

  class ThaiJNIBridgeManager {
    var bridge: ThaiJNIBridge?

    ghost predicate Valid()
      reads this, bridge
    {
      bridge != null ==> bridge.Valid() && bridge.pluginName == "thai_ftparser"
    }

    constructor ()
      ensures bridge == null && Valid()
    {
      bridge := null;
    }

    /** get_bridge: created on the first call, the same one afterwards. */
    method GetBridge(envClasspath: Option<string>) returns (b: ThaiJNIBridge)
      requires Valid()
      modifies this
      ensures Valid() && bridge == b && b.Valid()
      ensures old(bridge) != null ==> b == old(bridge)
      ensures old(bridge) == null ==>
                fresh(b) && b.pluginName == "thai_ftparser" && !b.isInitialized &&
                b.config == DefaultThaiJNIBridgeConfig(envClasspath)
    {
      if bridge == null {
        bridge := new ThaiJNIBridge(envClasspath);
      }
      b := bridge;
    }

    /** initialize: get the bridge and initialise it. */
    method Initialize(envClasspath: Option<string>, jvms: GlobalJVMManager, threads: GlobalThreadManager,
                      tid: ThreadId, vmProbe: VmProbe, envProbe: EnvProbe, classProbe: ClassProbe)
      returns (ret: Status)
      requires Valid() && jvms.Valid() && threads.Valid()
      modifies this, bridge, jvms, threads
      ensures Valid() && bridge != null && jvms.Valid() && threads.Valid()
      ensures old(bridge) != null ==> bridge == old(bridge)
      ensures old(bridge) == null ==> fresh(bridge)
      ensures (ret == Success) == bridge.isInitialized
      ensures (jvms.Slot(), threads.Table(), ret) ==
                InitEffect(old(bridge != null && bridge.isInitialized), old(jvms.Slot()), old(threads.Table()),
                           tid, vmProbe, envProbe, classProbe)
      ensures jvms.Reg() ==
                if old(bridge != null && bridge.isInitialized) then old(jvms.Reg())
                else if ret == Success then AfterRegister(old(jvms.Reg()), "thai_ftparser")
                else AfterUnregister(AfterRegister(old(jvms.Reg()), "thai_ftparser"), "thai_ftparser")
    {
      var b := GetBridge(envClasspath);
      ret := b.Initialize(jvms, threads, tid, vmProbe, envProbe, classProbe);
    }
  }

  /** thai_ftparser_scan_begin. Each of the bridge's two runtime visits gets
      its own environment answer (`initEnvProbe`, `segmentEnvProbe`);
      `allocOk` is whether allocating the per-scan state succeeds. A null
      parameter is rejected; a failed initialisation is propagated; without
      a document (null text or length <= 0) the state is freed and the
      argument rejected; a failed segmentation is propagated after freeing
      the state; on success the state with the tokens and index 0 becomes
      the user data. */
  method ScanBegin(param: FtParserParam?, manager: ThaiJNIBridgeManager, envClasspath: Option<string>,
                   jvms: GlobalJVMManager, threads: GlobalThreadManager, tid: ThreadId,
                   vmProbe: VmProbe, initEnvProbe: EnvProbe, classProbe: ClassProbe,
                   allocOk: bool, segmentEnvProbe: EnvProbe, frames: LocalRefFrames, probe: SegmentProbe)
    returns (ret: Status)
    requires param != null ==> param.HostContract()
    requires manager.Valid() && jvms.Valid() && threads.Valid()
    modifies param, manager, manager.bridge, jvms, threads, frames
    ensures manager.Valid() && jvms.Valid() && threads.Valid()
    ensures frames.frames == old(frames.frames) && frames.outerRefs == old(frames.outerRefs)
    ensures param == null ==> ret == InvalidArgument
    ensures param != null && ret != Success ==> param.userData == old(param.userData)
    ensures param != null && ret == Success ==>
              allocOk && param.fulltext.Some? && param.fulltextLength > 0 &&
              manager.bridge != null && manager.bridge.isInitialized &&
              DoSegmentOutcome(probe).0 == Success &&
              param.userData == Some(ParserState(DoSegmentOutcome(probe).1, 0))
    ensures param != null ==>
              var (slot, table, initRet) :=
                InitEffect(old(manager.bridge != null && manager.bridge.isInitialized), old(jvms.Slot()),
                           old(threads.Table()), tid, vmProbe, initEnvProbe, classProbe);
              ret == (if initRet != Success then initRet
                      else if !allocOk then AllocateMemoryFailed
                      else if param.fulltext.None? || param.fulltextLength <= 0 then InvalidArgument
                      else SegmentCode(table, slot.handle, tid, segmentEnvProbe, probe))
  {
    if param == null {
      return InvalidArgument;
    }
    ret := manager.Initialize(envClasspath, jvms, threads, tid, vmProbe, initEnvProbe, classProbe);
    if ret != Success {
      return ret;
    }
    if !allocOk {
      return AllocateMemoryFailed;
    }
    if param.fulltext.None? || param.fulltextLength <= 0 {
      return InvalidArgument;
    }
    var bridge := manager.GetBridge(envClasspath);
    ret := SegmentIntoState(param, bridge, jvms, threads, tid, segmentEnvProbe, frames, probe);
  }

  /** The end of scan_begin, once the bridge is ready and the text checked:
      the text is segmented into a fresh token vector, which becomes the
      scan state at index 0 only when segmentation succeeds. */
  method SegmentIntoState(param: FtParserParam, bridge: ThaiJNIBridge,
                          jvms: GlobalJVMManager, threads: GlobalThreadManager, tid: ThreadId,
                          envProbe: EnvProbe, frames: LocalRefFrames, probe: SegmentProbe)
    returns (ret: Status)
    requires param.HostContract() && param.fulltext.Some? && param.fulltextLength > 0
    requires bridge.isInitialized && jvms.Valid() && threads.Valid()
    modifies param, bridge`lastErrorCode, bridge`lastErrorMessage, jvms, threads, frames
    ensures jvms.Valid() && threads.Valid()
    ensures frames.frames == old(frames.frames) && frames.outerRefs == old(frames.outerRefs)
    ensures jvms.Slot() == old(jvms.Slot()) && jvms.Reg() == old(jvms.Reg())
    ensures var (table, env) := GuardedVisit(old(threads.Table()), old(jvms.sharedJvm), tid, bridge.pluginName, envProbe);
            threads.Table() == table && ret == (if env.Some? then DoSegmentOutcome(probe).0 else PluginError)
    ensures ret != Success ==> param.userData == old(param.userData)
    ensures ret == Success ==>
              DoSegmentOutcome(probe).0 == Success &&
              param.userData == Some(ParserState(DoSegmentOutcome(probe).1, 0))
  {
    var text := param.Text();
    var tokens;
    ret, tokens := bridge.Segment(jvms, threads, tid, envProbe, frames, text, probe, []);
    if ret != Success {
      return ret;
    }
    param.userData := Some(ParserState(tokens, 0));
  }
}

=== FILE: thai_jni_bridge_h.dfy ===
/** The declarations the older plugin generation shares from the Thai bridge
    header: the bridge configuration with its defaults and the error record
    a bridge keeps about its last failure. */
module ThaiJniBridgeH {
  import opened Common

  /** JNIBridgeConfig: where the segmenter lives and the JVM settings. */
  datatype JNIBridgeConfig = JNIBridgeConfig(
    javaClassPath: string,
    segmenterClassName: string,
    segmentMethodName: string,
    jvmMaxHeapMb: nat,
    jvmInitHeapMb: nat)

  /** The search path used when THAI_PARSER_CLASSPATH is unset or empty:
      the two Lucene jars and the class directory, below each of "..", "."
      and "../..", joined by ':'. */
  const FALLBACK_CLASS_PATH: string :=
    "../java/lib/lucene-core-8.11.2.jar:" +
    "../java/lib/lucene-analyzers-common-8.11.2.jar:" +
    "../java:" +
    "./java/lib/lucene-core-8.11.2.jar:" +
    "./java/lib/lucene-analyzers-common-8.11.2.jar:" +
    "./java:" +
    "../../java/lib/lucene-core-8.11.2.jar:" +
    "../../java/lib/lucene-analyzers-common-8.11.2.jar:" +
    "../../java"

  /** The default configuration; `envClasspath` is the value of the
      THAI_PARSER_CLASSPATH environment variable (None when unset). */
  function DefaultJNIBridgeConfig(envClasspath: Option<string>): (c: JNIBridgeConfig)
    ensures c.segmenterClassName == "RealThaiSegmenter" && c.segmentMethodName == "segment"
    ensures c.jvmMaxHeapMb == DEFAULT_MAX_HEAP_MB && c.jvmInitHeapMb == DEFAULT_INIT_HEAP_MB
    ensures envClasspath.Some? && envClasspath.value != [] ==> c.javaClassPath == envClasspath.value
    ensures envClasspath.None? || envClasspath.value == [] ==> c.javaClassPath == FALLBACK_CLASS_PATH
  {
    var path := if envClasspath.Some? && |envClasspath.value| > 0 then envClasspath.value else FALLBACK_CLASS_PATH;
    JNIBridgeConfig(path, "RealThaiSegmenter", "segment", 512, 128)
  }

  /** Whatever the environment holds, the default configuration never asks
      for an empty class path, and the override is taken verbatim. */
  lemma DefaultClassPathNeverEmpty(envClasspath: Option<string>)
    ensures DefaultJNIBridgeConfig(envClasspath).javaClassPath != []
    ensures forall p :: p != [] ==> DefaultJNIBridgeConfig(Some(p)).javaClassPath == p
  {
    assert FALLBACK_CLASS_PATH[0] == '.';
  }

  /** JNIErrorInfo: the code of the last failure (Success, that is code 0,
      when there is none), its message and the text of the Java exception
      behind it. */
  class JNIErrorInfo {
    var errorCode: Status
    var errorMessage: string
    var javaException: string

    /** A fresh record holds no error. */
    constructor ()
      ensures errorCode == Success && errorMessage == [] && javaException == []
      ensures !HasError()
    {
      errorCode, errorMessage, javaException := Success, [], [];
    }

    /** clear(): back to the state of a fresh record. */
    method Clear()
      modifies this
      ensures errorCode == Success && errorMessage == [] && javaException == []
      ensures !HasError()
    {
      errorCode := Success;
      errorMessage := [];
      javaException := [];
    }

    /** has_error(): whether the code differs from 0. */
    function HasError(): (b: bool)
      reads this
    {
      errorCode != Success
    }

    /** What every bridge's set_error does to the record: code and message
        are replaced, the exception text is kept. */
    method Set(code: Status, message: string)
      modifies this`errorCode, this`errorMessage
      ensures errorCode == code && errorMessage == message
      ensures HasError() <==> code != Success
    {
      errorCode, errorMessage := code, message;
    }
  }
}

=== FILE: thai_parser_core.dfy ===
/** The older Thai parser core. ObThaiFTParser follows the Korean parser
    step for step: it checks the host's parameter, has the Thai bridge of
    the older generation segment the text, keeps the tokens that carry
    content and hands them out one per call. That bridge's implementation
    is not part of this model, so what its initialize and segment calls
    return is given as input. */
module ThaiParserCore {
  import opened Common
  import opened Utf8Text
  import opened TokenCursor
  import opened KoreanParserCore

  /** validate_token(s): false for an empty token, false when every byte is
      whitespace, and false again when it is shorter than one byte (a test
      the first one already covers); true otherwise. The verdict is the
      Korean parser's: some byte is not whitespace. */
  function ValidateToken(s: Bytes): (valid: bool)
    ensures valid <==> HasContent(s)
    ensures valid ==> |s| >= 1
  {
    if |s| == 0 then false
    else if forall i :: 0 <= i < |s| ==> IsSpace(s[i]) then false
    else if |s| < 1 then false
    else true
  }

  /** The outcome of the older Thai bridge's segment call: its return code
      and the raw tokens it produced. */
  datatype BridgeSegment = BridgeSegment(ret: Status, raw: seq<Bytes>)

  /** ObThaiFTParser: the per-document parser state. `hasBridge` says
      whether the borrowed bridge pointer is set; `charsetInfo` 0 is the
      null charset. */
  class ObThaiFTParser {
    var hasBridge: bool
    var tokens: seq<TokenInfo>
    var currentIndex: nat
    var originalText: Bytes
    var isInited: bool
    var charsetInfo: nat

    /** The state reset leaves behind, which is also the constructed state. */
    ghost predicate Cleared()
      reads this
    {
      !hasBridge && tokens == [] && originalText == [] &&
      currentIndex == 0 && !isInited && charsetInfo == 0
    }

    /** An idle parser is cleared; an initialised one holds a bridge. */
    ghost predicate Valid()
      reads this
    {
      (!isInited ==> Cleared()) && (isInited ==> hasBridge)
    }

    constructor ()
      ensures Cleared() && Valid()
    {
      hasBridge := false;
      tokens := [];
      currentIndex := 0;
      originalText := [];
      isInited := false;
      charsetInfo := 0;
    }

    /** reset(): drops the bridge pointer and clears every field; on a
        cleared parser it changes nothing. */
    method Reset()
      modifies this
      ensures Cleared() && Valid()
      ensures old(Cleared()) ==> unchanged(this)
    {
      CleanupJniBridge();
      tokens := [];
      originalText := [];
      currentIndex := 0;
      isInited := false;
      charsetInfo := 0;
    }

    /** cleanup_jni_bridge(): forgets the pointer. */
    method CleanupJniBridge()
      modifies this`hasBridge
      ensures !hasBridge
    {
      hasBridge := false;
    }

    /** init(param). `bridgeInit` is what the bridge's initialize returns and
        `segment` what its segment call yields. A parser already initialised
        answers INIT_TWICE; a null parameter, null text, negative length or
        null charset is an invalid argument (an empty text is accepted).
        Otherwise a failing bridge initialisation or segmentation resets the
        parser and passes its code on, and success leaves the parser
        initialised at the first of the filtered tokens. */
    method Init(param: FtParserParam?, bridgeInit: Status, segment: BridgeSegment) returns (ret: Status)
      requires Valid()
      requires param != null ==> param.HostContract()
      modifies this
      ensures Valid()
      ensures old(isInited) ==> ret == InitTwice && unchanged(this)
      ensures !old(isInited) &&
              (param == null || param.fulltext.None? || param.fulltextLength < 0 || param.charsetInfo == 0) ==>
                ret == InvalidArgument && unchanged(this)
      ensures !old(isInited) && param != null && param.fulltext.Some? && param.fulltextLength >= 0 &&
              param.charsetInfo != 0 ==>
                ret == (if bridgeInit != Success then bridgeInit else segment.ret) &&
                (ret != Success ==> Cleared()) &&
                (ret == Success ==>
                   isInited && hasBridge && currentIndex == 0 && originalText == param.Text() &&
                   charsetInfo == param.charsetInfo && tokens == Records(segment.raw))
    {
      if isInited {
        return InitTwice;
      }
      if param == null {
        return InvalidArgument;
      }
      if param.fulltext.None? || param.fulltextLength < 0 {
        return InvalidArgument;
      }
      if param.charsetInfo == 0 {
        return InvalidArgument;
      }
      originalText := param.Text();
      charsetInfo := param.charsetInfo;
      ret := InitializeJniBridge(bridgeInit);
      if ret != Success {
        Reset();
        return;
      }
      ret := PerformSegmentation(originalText, segment);
      if ret != Success {
        Reset();
        return;
      }
      currentIndex := 0;
      isInited := true;
    }

    /** initialize_jni_bridge(). A held pointer is kept and answers success;
        otherwise the bridge is initialised and the pointer kept only when
        that succeeds. */
    method InitializeJniBridge(bridgeInit: Status) returns (ret: Status)
      modifies this`hasBridge
      ensures old(hasBridge) ==> ret == Success && hasBridge
      ensures !old(hasBridge) ==> ret == bridgeInit && (hasBridge <==> bridgeInit == Success)
    {
      if hasBridge {
        return Success;
      }
      ret := bridgeInit;
      if ret != Success {
        return;
      }
      hasBridge := true;
    }

    /** perform_segmentation(text). Without a bridge it is a plugin error. A
        failed segment call passes its code on and leaves the token list
        alone; otherwise the list becomes the records of the raw tokens that
        carry content, in their order, each with its byte length, its
        character count and frequency 1. */
    method PerformSegmentation(text: Bytes, segment: BridgeSegment) returns (ret: Status)
      modifies this`tokens
      ensures !hasBridge ==> ret == PluginError && tokens == old(tokens)
      ensures hasBridge ==> ret == segment.ret
      ensures ret != Success ==> tokens == old(tokens)
      ensures ret == Success ==> tokens == Records(segment.raw)
    {
      if !hasBridge {
        return PluginError;
      }
      ret := segment.ret;
      if ret != Success {
        return;
      }
      var raw := segment.raw;
      tokens := [];
      var i := 0;
      while i < |raw|
        invariant 0 <= i <= |raw|
        invariant tokens == Records(raw[..i])
      {
        if ValidateToken(raw[i]) {
          var charLength := CalculateThaiCharLength(raw[i]);
          var info := DefaultTokenInfo().(word := raw[i], byteLength := |raw[i]|,
                                         charLength := charLength, frequency := 1);
          tokens := tokens + [info];
        }
        assert raw[..i + 1][..i] == raw[..i];
        i := i + 1;
      }
      assert raw[..|raw|] == raw;
    }

    /** get_next_token(). An uninitialised parser is a plugin error;
        otherwise the call is the cursor step Next over the token list. */
    method GetNextToken() returns (ret: Status, word: Bytes, wordLen: int, charLen: int, wordFreq: int)
      modifies this`currentIndex
      ensures !isInited ==> ret == PluginError && currentIndex == old(currentIndex)
      ensures isInited ==>
                var step := Next(tokens, old(currentIndex));
                ret == step.status && currentIndex == step.index &&
                (step.token.Some? ==>
                   word == step.token.value.word && wordLen == step.token.value.byteLength &&
                   charLen == step.token.value.charLength && wordFreq == step.token.value.frequency)
    {
      word, wordLen, charLen, wordFreq := [], 0, 0, 0;
      if !isInited {
        return PluginError, word, wordLen, charLen, wordFreq;
      }
      if currentIndex >= |tokens| {
        return IterEnd, word, wordLen, charLen, wordFreq;
      }
      var token := tokens[currentIndex];
      word := token.word;
      wordLen := token.byteLength;
      charLen := token.charLength;
      wordFreq := token.frequency;
      currentIndex := currentIndex + 1;
      ret := Success;
    }

    /** calculate_thai_char_length(s): the lead-byte count, the same number
        the Korean parser's counter gives, at most the byte length. */
    method CalculateThaiCharLength(s: Bytes) returns (n: nat)
      ensures n == CharCount(s) && n <= |s|
    {
      n := CountCharsByLeadByte(s);
      CharCountAtMostLength(s);
    }
  }
}

=== FILE: token_cursor.dfy ===
/** The iteration cursor shared by every parser's next-token call: a vector of
    tokens and an index that moves forward by one per token handed out. */
module TokenCursor {
  import opened Common

  /** One call's observable effect: its status, the token it hands out, and
      the index afterwards. */
  datatype Step<T> = Step(status: Status, token: Option<T>, index: nat)

  /** One next-token call on an initialised cursor: at or past the end it
      reports the end of iteration and leaves the index alone; otherwise it
      hands out the token under the cursor and advances. */
  function Next<T>(tokens: seq<T>, index: nat): Step<T>
  {
    if index >= |tokens| then Step(IterEnd, None, index)
    else Step(Success, Some(tokens[index]), index + 1)
  }

  /** The tokens handed out by `calls` successive calls starting at `index`,
      and the index afterwards. */
  function Drain<T>(tokens: seq<T>, index: nat, calls: nat): (seq<T>, nat)
    decreases calls
  {
    if calls == 0 then ([], index)
    else
      var step := Next(tokens, index);
      var rest := Drain(tokens, step.index, calls - 1);
      (if step.token.Some? then [step.token.value] + rest.0 else rest.0, rest.1)
  }

  function Min(a: nat, b: nat): nat { if a <= b then a else b }

  /** Successive calls hand out the remaining tokens in order, one per call,
      and then nothing more: the cursor stops at the end. */
  lemma {:induction false} DrainInOrder<T>(tokens: seq<T>, index: nat, calls: nat)
    requires index <= |tokens|
    ensures Drain(tokens, index, calls) == (tokens[index..Min(index + calls, |tokens|)], Min(index + calls, |tokens|))
    decreases calls
  {
    if calls > 0 {
      if index < |tokens| {
        DrainInOrder(tokens, index + 1, calls - 1);
        var end := Min(index + calls, |tokens|);
        assert Min(index + 1 + (calls - 1), |tokens|) == end;
        assert Next(tokens, index) == Step(Success, Some(tokens[index]), index + 1);
        assert tokens[index..end] == [tokens[index]] + tokens[index + 1..end];
        var rest := Drain(tokens, index + 1, calls - 1);
        assert Drain(tokens, index, calls) == ([tokens[index]] + rest.0, rest.1);
      } else {
        DrainInOrder(tokens, index, calls - 1);
        assert Drain(tokens, index, calls) == Drain(tokens, index, calls - 1);
      }
    } else {
      assert tokens[index..index] == [];
    }
  }

  /** A fresh cursor hands out exactly the whole vector, in order, once. */
  lemma FreshCursorYieldsAll<T>(tokens: seq<T>, calls: nat)
    requires calls >= |tokens|
    ensures Drain(tokens, 0, calls) == (tokens, |tokens|)
  {
    DrainInOrder(tokens, 0, calls);
    assert tokens[0..|tokens|] == tokens;
  }

  /** At the end every further call reports the end and does not move. */
  lemma {:induction false} ExhaustedStaysExhausted<T>(tokens: seq<T>, index: nat, calls: nat)
    requires index >= |tokens|
    ensures Drain(tokens, index, calls) == ([], index)
    decreases calls
  {
    if calls > 0 {
      ExhaustedStaysExhausted(tokens, index, calls - 1);
    }
  }
}

=== FILE: utf8.dfy ===
/** Character counting by UTF-8 lead byte, and the C-locale whitespace test the
    token validators use. The lead-byte patterns are those of section 3 of
    RFC 3629 (0xxxxxxx, 110xxxxx, 1110xxxx, 11110xxx); continuation bytes are
    never inspected, and a lead byte near the end may claim bytes past it. */
module Utf8Text {
  import opened Common

  /** How many bytes the character starting with `c` occupies, or 0 when `c`
      is not a lead byte (a continuation byte or 0xF8..0xFF). */
  function LeadWidth(c: bv8): (w: nat)
    ensures w <= 4
  {
    if c & 0x80 == 0 then 1
    else if c & 0xE0 == 0xC0 then 2
    else if c & 0xF0 == 0xE0 then 3
    else if c & 0xF8 == 0xF0 then 4
    else 0
  }

  /** The masks select exactly the byte ranges of the four lead-byte forms. */
  lemma LeadWidthRanges(c: bv8)
    ensures LeadWidth(c) == 1 <==> c < 0x80
    ensures LeadWidth(c) == 2 <==> 0xC0 <= c < 0xE0
    ensures LeadWidth(c) == 3 <==> 0xE0 <= c < 0xF0
    ensures LeadWidth(c) == 4 <==> 0xF0 <= c < 0xF8
    ensures LeadWidth(c) == 0 <==> (0x80 <= c < 0xC0 || 0xF8 <= c)
  {
  }

  /** The number of characters the pointer walk counts from byte offset `p`
      to the end: a lead byte counts one and skips its width, any other byte
      is skipped uncounted. */
  function CharsFrom(s: Bytes, p: nat): nat
    decreases |s| - p
  {
    if p >= |s| then 0
    else if LeadWidth(s[p]) == 0 then CharsFrom(s, p + 1)
    else 1 + CharsFrom(s, p + LeadWidth(s[p]))
  }

  /** The character count of a whole token. */
  function CharCount(s: Bytes): nat
  {
    CharsFrom(s, 0)
  }

  lemma {:induction false} CharsFromBound(s: Bytes, p: nat)
    ensures CharsFrom(s, p) <= if p <= |s| then |s| - p else 0
    decreases |s| - p
  {
    if p < |s| {
      if LeadWidth(s[p]) == 0 {
        CharsFromBound(s, p + 1);
      } else {
        CharsFromBound(s, p + LeadWidth(s[p]));
      }
    }
  }

  /** Never more characters than bytes. */
  lemma CharCountAtMostLength(s: Bytes)
    ensures CharCount(s) <= |s|
  {
    CharsFromBound(s, 0);
  }

  predicate IsAscii(s: Bytes)
  {
    forall i :: 0 <= i < |s| ==> s[i] < 0x80
  }

  lemma {:induction false} AsciiCharsFrom(s: Bytes, p: nat)
    requires IsAscii(s) && p <= |s|
    ensures CharsFrom(s, p) == |s| - p
    decreases |s| - p
  {
    if p < |s| {
      LeadWidthRanges(s[p]);
      AsciiCharsFrom(s, p + 1);
    }
  }

  /** For all-ASCII text the count is the byte length. */
  lemma CharCountOfAscii(s: Bytes)
    requires IsAscii(s)
    ensures CharCount(s) == |s|
  {
    AsciiCharsFrom(s, 0);
  }

  /** A token made of one complete character followed by more text counts that
      character once, whatever its continuation bytes are. */
  lemma {:induction false} CharCountOfLeadThenRest(lead: bv8, cont: Bytes, rest: Bytes)
    requires LeadWidth(lead) > 0 && |cont| == LeadWidth(lead) - 1
    ensures CharCount([lead] + cont + rest) == 1 + CharCount(rest)
  {
    var s := [lead] + cont + rest;
    var w := LeadWidth(lead);
    assert s[0] == lead;
    CharsFromShift(s, rest, w, 0);
  }

  /** Counting from offset `k + w` of `s` is counting from `k` of its suffix. */
  lemma {:induction false} CharsFromShift(s: Bytes, rest: Bytes, w: nat, k: nat)
    requires |s| == w + |rest| && s[w..] == rest
    ensures CharsFrom(s, w + k) == CharsFrom(rest, k)
    decreases |rest| - k
  {
    if k < |rest| {
      assert s[w + k] == rest[k];
      if LeadWidth(rest[k]) == 0 {
        CharsFromShift(s, rest, w, k + 1);
      } else {
        CharsFromShift(s, rest, w, k + LeadWidth(rest[k]));
      }
    }
  }

  /** The pointer walk every plugin uses to count a token's characters: a
      lead byte counts one character and moves the pointer past its width
      (which may overshoot the end); any other byte is skipped uncounted. */
  method CountCharsByLeadByte(s: Bytes) returns (count: nat)
    ensures count == CharCount(s)
  {
    count := 0;
    var p := 0;
    while p < |s|
      invariant count + CharsFrom(s, p) == CharCount(s)
      decreases |s| - p
    {
      var c := s[p];
      if c & 0x80 == 0 {
        p := p + 1;
      } else if c & 0xE0 == 0xC0 {
        p := p + 2;
      } else if c & 0xF0 == 0xE0 {
        p := p + 3;
      } else if c & 0xF8 == 0xF0 {
        p := p + 4;
      } else {
        p := p + 1;
        continue;
      }
      count := count + 1;
    }
  }

  /** std::isspace in the "C" locale: space, \t, \n, \v, \f and \r. Bytes
      above 127 are never whitespace there. */
  predicate IsSpace(c: bv8)
  {
    c == 0x20 || (0x09 <= c && c <= 0x0D)
  }

  /** A token carries content when some byte of it is not whitespace. */
  predicate HasContent(s: Bytes)
  {
    exists i :: 0 <= i < |s| && !IsSpace(s[i])
  }
}
